=== FILE: README.md ===
# OpuSearch search core in Dafny

This project models the indexing and windowed-search engine of OpuSearch
(`model/`). That engine searches OPUS parallel corpora. A corpus file is an ordered list of lines of
four kinds:

- source lines `(src)="N">…`;
- target lines `(trg)="N">…`;
- comment lines `#…`, which include the `# xx/….xml.gz` provenance lines;
- separator lines `=…`, which close an alignment record.

Tokens may carry `_#POS_#lemma` annotations. Every operation of the engine is
pure computation over the list of lines, so the model is a set of pure
functions over `seq<string>`, with lemmas over indices and slices.

The modules follow the program's structure:

- `Base` and `Text`: sequence helpers and string helpers. `Text` covers whitespace words, `split`,
  `join`, `strip`, and Python's negative index (`PyAt`) and slice (`PySlice`).
- `Corpus`: line kinds, the concrete role tag `(xyz)="digits">` and its
  removal, reading a file into lines, and the loader and cleaner
  (`Preprocessing.__clean_data_anno`).
- `Meta`: `__split_string_meta`, splitting an annotated line into parallel
  token, POS and lemma lists.
- `Locator`: `get_matches_index_files` and the monolingual list filter of
  `perform_new_search`.
- `Records`: the record segmenters. One expands around a match up to the
  separators (`__process_alignments`). The other is the left/right scan of
  `__get_segments`, modelled as a loop method proved equal to a functional
  definition.
- `RecordIndex`: the three-level index of `__parse_data` and
  `__parse_data_mono`, file → alignment key → tag id → metadata. Within each
  record the first insertion wins (`__process_match`).
- `Tally`: `get_counts`, an insertion-ordered dict of counts, as a function
  and as a loop method.
- `Ops`: `remove_annotation`, `remove_punctuation`, `trim_translation`,
  `is_nested` flattening, and `filter_alignment`.
- `Windows`: the pre- and post-context slices.
- `MonoContext` and `BiContext`: monolingual and bilingual context.
- `MonoStats` and `BiStats`: monolingual and bilingual statistics.
- `Tables`: the count, file-set and sort semantics of the written parsed
  statistics tables.
- `Search`: the mode routing of `perform_new_search`.

External behaviour is handled as follows:

- **The user regex** is a parameter `hit: (string, bool) -> bool`, applied to
  a line and the case-insensitivity flag. The role tag is checked
  concretely, as a prefix.
- **Crashes** of the Python code become `None`. These are:
  - an `IndexError`, a `KeyError`, and `.group()` called on a failed match;
  - a `TypeError`: a context size of `None` in a bilingual window slice, and
    `sum(lst, [])` on a list that mixes lists and strings;
  - a `ValueError` when a statistics writer names the columns of the frame
    built from no matches.
- **Python's index quirks** are modelled as the code has them, not ruled
  out by preconditions:
  - the left record scan reads `T[index - k]` with a negative index, so it
    wraps to the end of the file (`model/processing.py:79`,
    `model/bilingual_context.py:115`);
  - a provenance comment on line 0 takes its "line before" from the last
    line of the file (`model/processing.py:295`);
  - the unguarded `index + 1` and `index + 2` reads abort the query at the
    end of the file (`model/bilingual_statistics.py:83`,
    `model/bilingual_context.py:123`);
  - `T[index - 1]` and the slice `[index - 1:index + 2]` wrap at index 0
    (`model/bilingual_statistics.py:92`, `model/bilingual_statistics.py:114`).
- **Dict order**: the alignment level of the index is an insertion-ordered
  dict (`Alignments`), because the statistics iterate over it in order. The
  file level and the tag-id level are maps.
- **Comments in the monolingual list**: the filter keeps only provenance
  comments matching `# xx/…xml.gz` (`model/processing.py:311`), not every
  `#` line.
- **The pre-context slice** is computed as the code writes it,
  `lst[i - p:i]`, including the wrap-around of a negative start when the
  match lies fewer than `p` lines from the top of the list (see Findings).

## Model

| member | source | states |
|---|---|---|
| Corpus.ReadLinesConcat | model/processing.py:52-54 | reading a file into lines loses nothing: the lines, concatenated, are the file's text |
| Corpus.ReadLines | model/processing.py:24-26 | every line but the last ends in one newline and holds no other |
| Corpus.CleanAnnotation | model/processing.py:28-30 | deleting each `_#…` run up to the next space leaves no `_#` marker, never lengthens the line and introduces no character |
| Corpus.CleanUnmarked | model/processing.py:28-30 | a line without `_#` is left unchanged |
| Corpus.CleanIdempotent | model/processing.py:28-30 | cleaning twice is cleaning once |
| Corpus.Load | model/processing.py:20-31 | the loader yields exactly one cleaned line per line of the file, in order |
| Corpus.LoadedLine | model/processing.py:24-31 | no loaded line contains a newline or a `_#` marker |
| Corpus.TagLen | model/processing.py:358-362 | a recognised tag is `(` three letters `)="` digits `">` (of the given role, or of any role) and lies within the string |
| Corpus.RoleTagIsRoleLine | model/processing.py:287 | a line that begins with a role tag is a line of that role, and neither a comment nor a separator |
| Corpus.RemoveTags | model/processing.py:358-362 | removing the id tags never lengthens a string and leaves a string without tags unchanged |
| Corpus.FindTags | model/bilingual_statistics.py:151-152 | every item `findall` returns is one whole tag |
| Corpus.FirstTag | model/monolingual_statistics.py:84-87 | `search(...).group()` finds a whole tag, and finds none exactly when the string holds no tag |
| Corpus.RemoveLeadingTag | model/processing.py:358-362 | a line that starts with one tag and holds no other loses exactly that prefix |
| Corpus.FileCommentIsComment | model/processing.py:311 | a provenance comment `# xx/….xml.gz` is a comment and not a separator |
| Meta.SplitStringMeta | model/processing.py:122-149 | token, POS and lemma lists are as long as the number of whitespace words; each token is field 0 of `word.split("_#")`: a delimiter-free prefix that is the whole word or is followed by the delimiter; when some word lacks a POS or lemma field, POS is all `X` and every lemma equals its token, otherwise POS and lemma are fields 1 and 2 and each word starts with token, POS and lemma joined by the delimiter |
| Meta.MetaRoundTrip | model/processing.py:135-145 | a word with exactly three fields is rebuilt exactly from its token, POS and lemma |
| Locator.NearestComment | model/processing.py:291-296 | the comment found is the nearest `#` line above the match, and none is found only when there is no `#` line above it |
| Locator.FileIdCases | model/processing.py:290-301 | the file id is empty exactly when no comment precedes the match; otherwise it is the line before the nearest comment (wrapping to the last line for a comment on line 0), `", "`, and the comment |
| Locator.Locate | model/processing.py:277-302 | matches, indices and files have equal length; position k is listed exactly when the regex and the anchored role tag both hold on line k; indices increase strictly; each match is its line without newlines, and each file id is the one of its line |
| Locator.MatchIndices | model/processing.py:283-289 | the listed positions are exactly those satisfying the predicate, in increasing order |
| Locator.MatchesAreFilter | model/processing.py:283-289 | the matched lines are the order-preserving filter of the list by the match predicate |
| Locator.MonoFilter | model/processing.py:313-315 | the monolingual list keeps exactly the lines of the searched side and the provenance comments of the input, none a separator |
| Locator.MonoFilterSplit | model/processing.py:313-315 | the kept lines stay in input order: cutting the input around a line cuts the list around it, the line kept exactly when it is of the searched side or a provenance comment |
| Locator.MonoSearchSameMatches | model/processing.py:313-331 | searching the filtered monolingual list yields the same matched lines as searching the whole list |
| Records.LeftFree | model/processing.py:76-86 | the left scan passes only non-separator lines and stops at the first separator or when it runs out of lines |
| Records.RightFree | model/processing.py:87-96 | the right scan passes only non-separator lines and stops at the first separator or at the end of the file |
| Records.Record | model/processing.py:66-101 | a record is the lines before the match, the match and the lines after it, with the match at the position the left scan reached |
| Records.ScanLeft | model/processing.py:76-86 | the loop collecting the lines before the match computes exactly the left part of the record |
| Records.ScanRight | model/processing.py:87-96 | the loop collecting the lines after the match computes exactly the right part of the record |
| Records.RecordHasNoSeparator | model/processing.py:76-101 | no line of a record is a separator |
| Records.RecordSource | model/processing.py:76-101 | every line of a record is a non-separator line of the file, without its newline |
| Records.RecordIsBlock | model/processing.py:66-101 | between two separators, the record is exactly the block of lines strictly between them |
| Records.KeyHoldsMatchTag | model/processing.py:102-120 | the alignment key of a record contains the match's role tag, so the match's id is found in its key |
| Records.Segment | model/bilingual_context.py:99-133 | the segment is `None` (IndexError) exactly when no separator follows the match; otherwise it is the match with the lines before it nearest-first and the lines after it, none a separator; the left part stops early when the right separator is closer |
| Records.GetSegment | model/bilingual_context.py:103-132 | the interleaved left/right scanning loop computes exactly the functional segment, aborting when the right scan runs off the end |
| Records.SegmentFromScans | model/bilingual_context.py:110-132 | a left part and a right part that satisfy the scan conditions make up the segment |
| RecordIndex.ProcessLine | model/processing.py:151-197 | handling one record line aborts exactly when its tag is malformed; otherwise it only adds entries, and it inserts the line's id with its metadata only if the id is absent |
| RecordIndex.ContributionNone | model/processing.py:160-163 | a line contributes nothing exactly when it is not a role line or its tag fails |
| RecordIndex.ProcessRecord | model/processing.py:175-197 | a record aborts exactly when one of its lines fails; otherwise the table only grows |
| RecordIndex.RecordStores | model/processing.py:175-197 | after a record, every contributing line's id is in the table |
| RecordIndex.RecordFirstWins | model/processing.py:183-186 | the stored metadata of an id is that of its first line in the record, or what the table held before |
| RecordIndex.SetDefault | model/processing.py:214 | `setdefault` on the alignment dict appends a new key at the end with an empty table and leaves an existing key untouched |
| RecordIndex.ParseStep | model/processing.py:240-255 | one zipped (file, key, record) aborts exactly when the key is non-empty and a line of the record fails; otherwise the index only grows, gains the file, and holds the key |
| RecordIndex.Zip3 | model/processing.py:237-239 | `zip` stops at the shortest list and pairs items position by position |
| RecordIndex.ParseFails | model/processing.py:231-255 | parsing aborts exactly when some zipped entry fails |
| RecordIndex.ParseFiles | model/processing.py:231-255 | the files of the parsed index are exactly the input's files and those of the entries |
| RecordIndex.ParseCovers | model/processing.py:231-255 | every contributing line of every entry has its id stored under the entry's file and key |
| RecordIndex.MonoRecordIsLine | model/processing.py:204-229 | in monolingual mode a record is the single matched line |
| RecordIndex.MatchKeys | model/processing.py:102-120 | one key per match; each key holds at least the two joining spaces around the match's tokens, and contains the role tag the match line starts with |
| RecordIndex.MonoEntries | model/processing.py:56-64 | one monolingual entry per match |
| RecordIndex.ParsedMonoIsParseDataMono | model/processing.py:204-229 | the monolingual index is `__parse_data_mono` over the matched lines and their keys |
| RecordIndex.BilingualFails | model/processing.py:231-262 | bilingual parsing aborts exactly when the record of some match fails |
| RecordIndex.ParsedFiles | model/processing.py:237-255 | the parsed index holds exactly the file ids of the matches |
| RecordIndex.BilingualCovers | model/processing.py:231-262 | every contributing line of the record of a match is indexed under the match's file and key |
| Tally.CountsOf | model/processing.py:406-414 | the keys are the distinct elements in order of first occurrence, and each count is the number of occurrences |
| Tally.CountsTotal | model/processing.py:406-414 | every count is at least one and the counts sum to the length of the list |
| Tally.GetCounts | model/processing.py:406-414 | the increment-or-insert loop computes the distinct keys in first-occurrence order with their numbers of occurrences |
| Ops.RemoveAnnotation | model/processing.py:348-363 | one result per item; no item lengthens; an item without tags is unchanged |
| Ops.RemoveAnnotationNested | model/processing.py:348-363 | the nested form keeps the shape of every inner list |
| Ops.TagAccounting | model/processing.py:358-362 | the removed characters are exactly those of the tags found, so the kept and removed lengths add up to the original |
| Ops.DropChars | model/processing.py:375-380 | the result keeps exactly the non-punctuation characters of the input, and is the input itself when it holds none |
| Ops.DropCharsIsFilter | model/processing.py:375-380 | removing the punctuation class is the order-preserving filter of the characters outside it |
| Ops.PunctuationGone | model/processing.py:375-380 | no punctuation mark survives removal |
| Ops.PunctuationIdempotent | model/processing.py:375-380 | removing punctuation twice is removing it once |
| Ops.RemovePunctuationNested | model/processing.py:365-382 | the nested form keeps the shape of every inner list |
| Ops.RemovePunctuationIdempotent | model/processing.py:365-382 | on nested lists, removing punctuation is idempotent |
| Ops.TrimmedWords | model/processing.py:384-404 | the trimmed string's words are the Python slice `[:span]` of the words, with a negative span counting from the end |
| Ops.TrimIdempotent | model/processing.py:384-404 | for a non-negative span, trimming twice is trimming once |
| Ops.TrimTranslation | model/processing.py:384-404 | at most one result per item, and exactly one when every item is a string or a list |
| Ops.TrimTranslationWords | model/processing.py:384-404 | a string item keeps its first `span` words, and a list item keeps the first `span` words of its items joined by spaces |
| Ops.Flatten | model/processing.py:462-477 | a list mixing lists and non-lists raises `TypeError` (`None`); a list of lists is flattened; a list without lists is returned as is |
| Ops.FlattenLists | model/processing.py:462-477 | flattening a list of lists concatenates them |
| Ops.FilterAlignment | model/processing.py:479-489 | the filter keeps exactly the lines of the given side |
| Ops.FilterAlignmentSides | model/processing.py:479-489 | the two sides are disjoint, and filtering is idempotent |
| Windows.PreWindowAsWritten | model/bilingual_context.py:176-180 | the slice `lst[i - p:i]`: for i within the list, a run of at most p lines ending just before i, and exactly the p lines before i when p ≤ i |
| Windows.PreWindowAgreement | model/monolingual_context.py:72-74 | the slice as written equals the truncated window exactly when i is 0, i ≥ p, or the list is no longer than p − i |
| Windows.PreWindowCounterexample | model/bilingual_context.py:176-180 | on `["a","b","c"]` with i = 1 and p = 2 the slice as written is empty, while the window is `["a"]` |
| Windows.PreWindow | model/monolingual_context.py:67-78 | the pre-context is the run of min(p, i) lines ending just before i, and empty for a negative size |
| Windows.PostWindow | model/bilingual_context.py:182-186 | the post-context holds at most p lines, each the one at its offset after i; for i within the list it is the run after i cut at the end of the list |
| MonoContext.TextListOnly | model/monolingual_context.py:35-36 | the text list keeps exactly the non-separator lines of the input |
| MonoContext.TextListOnlySplit | model/monolingual_context.py:35-36 | dropping separators keeps the other lines in input order |
| MonoContext.TextListOnlyIsMono | model/monolingual_context.py:35-36 | on the filtered monolingual list, dropping separators changes nothing |
| MonoContext.DropComments | model/monolingual_context.py:75-78 | a window keeps exactly its lines that are not `#` lines |
| MonoContext.DropCommentsSplit | model/monolingual_context.py:75-78 | dropping comments keeps the other lines in window order |
| MonoContext.PreContextList | model/monolingual_context.py:67-78 | no window size gives no lists; otherwise there is one list per match |
| MonoContext.PostContextList | model/monolingual_context.py:80-92 | no window size gives no lists; otherwise there is one list per match |
| MonoContext.ContextMatches | model/monolingual_context.py:9-53 | the context's matches and indices are the locator's on the filtered list |
| MonoContext.PreContextLines | model/monolingual_context.py:67-78 | each pre-context list is the slice `lst[i - p:i]` of the monolingual list without its `#` lines: the p lines above the match when there are that many, the truncated window whenever the slice does not wrap, and always at most p lines of the searched side from the p lines above the match |
| MonoContext.PostContextLines | model/monolingual_context.py:80-92 | each post-context list is the slice `lst[i + 1:i + 1 + p]` without its `#` lines, cut at the end of the list: at most p lines of the searched side from the p lines below the match |
| MonoContext.MonoAnnotationRemoved | model/monolingual_context.py:55-65 | the option without annotation removes tags from the matches and from every context list, keeping all lengths |
| BiContext.Segments | model/bilingual_context.py:99-133 | one segment per match, in order; the query aborts exactly when some match has no separator after it |
| BiContext.SegmentInList | model/bilingual_context.py:99-133 | every line of a segment is a line of the file |
| BiContext.LangListToDict | model/bilingual_context.py:135-141 | the dict maps every line of the list, and only those, to the index of its first occurrence |
| BiContext.LangSegments | model/bilingual_context.py:143-149 | each side of a segment is its order-preserving subsequence of lines of that side |
| BiContext.ExtractInd | model/bilingual_context.py:153-164 | the first and last dict indices of each sub-list, one pair per sub-list, found exactly when every sub-list is non-empty and listed |
| BiContext.PreWindows | model/bilingual_context.py:176-180 | one pre-window per index, or failure when no size is given and there is an index |
| BiContext.SideWindows | model/bilingual_context.py:48-89 | each window of a side is the slice of the side's list at the first position of the segment's first (pre) or last (post) side line |
| BiContext.PostWindows | model/bilingual_context.py:182-186 | one post-window per index, or failure when no size is given and there is an index |
| BiContext.SideOf | model/bilingual_context.py:48-89 | a side's lines are the side's segments; it fails exactly when a size is missing or a segment has no line of that side |
| BiContext.SidesFail | model/bilingual_context.py:48-89 | bilingual context fails exactly when a segment is unavailable, a size is missing, or some segment has no target line |
| BiContext.ContextFails | model/bilingual_context.py:9-97 | for the matches of a search, context fails exactly on a missing separator after a match, a missing size, or a segment without target lines |
| BiContext.ContextShape | model/bilingual_context.py:48-89 | each match gets its segment's source and target lines, and on each side the pre-window `lst[i - p:i]` at the first position of the first side line and the post-window at that of the last side line |
| BiContext.RemoveSideAnnotation | model/bilingual_context.py:90-97 | removing annotation keeps the number of lines and of windows |
| BiContext.SideAnnotationRemoved | model/bilingual_context.py:90-97 | removing annotation keeps the length of every side list and window, and each line loses exactly the characters of the tags `findall` finds in it |
| BiStats.ShapeAt | model/bilingual_statistics.py:79-98 | reading `index + 2` aborts exactly at the end of the file; each shape names the roles of the lines around the match |
| BiStats.ShapePriority | model/bilingual_statistics.py:83-97 | the four shapes are tried in their fixed order: a later one is chosen only when all earlier ones fail |
| BiStats.GetMappings | model/bilingual_statistics.py:79-98 | one combination per match, or failure exactly when some match is within two lines of the end |
| BiStats.MappingLines | model/bilingual_statistics.py:79-98 | each combination starts with the match; its other lines are target lines; it is the match alone exactly when no shape fits |
| BiStats.SummaryLines | model/bilingual_statistics.py:100-119 | each summary is a run of two or three consecutive lines holding the match, nothing for no shape, and the empty slice `[-1:2]` for a match on line 0 |
| BiStats.SummaryCount | model/bilingual_statistics.py:100-119 | the summary has one item per match of some shape |
| BiStats.ExtractLang | model/bilingual_statistics.py:121-134 | one string per combination: the combination's lines of the given side joined by single spaces |
| BiStats.MappingColumns | model/bilingual_statistics.py:121-134 | for a source match, the source column is the match line and the target column joins the lines after it |
| BiStats.UnparsedTotal | model/bilingual_statistics.py:52-77 | the pair counts are each at least one and sum to the number of combinations |
| BiStats.UnparsedSources | model/bilingual_statistics.py:52-77 | without summarising, every counted pair's source is a match line with its tags removed |
| BiStats.LookupAll | model/bilingual_statistics.py:146-154 | the lookup succeeds exactly when every id is in the line table; then entry k holds the token, POS and lemma lists stored under id k |
| BiStats.ExtractMetadata | model/bilingual_statistics.py:146-154 | the same lookup over the tags `findall` finds in each element, in element order: it fails (KeyError) exactly when one of them is missing |
| BiStats.KeyMetadata | model/bilingual_statistics.py:146-154 | the ids drawn from an alignment key are exactly its tags |
| BiStats.AlignmentStep | model/bilingual_statistics.py:186-230 | an alignment whose key lacks the match id contributes nothing; otherwise summarising gathers one more source item |
| BiStats.NoHitsNothing | model/bilingual_statistics.py:186-230 | a match whose id is in no key gathers nothing |
| BiStats.ProcessOne | model/bilingual_statistics.py:232-268 | each match adds one entry and one `sets_files` item; the entry is the cleaned match, or in summarising mode the joined tokens at position i of the accumulated source list, whose absence aborts |
| BiStats.FoldFails | model/bilingual_statistics.py:232-268 | without summarising, processing aborts exactly when gathering fails for some match |
| BiStats.SingleEntries | model/bilingual_statistics.py:232-268 | without summarising, there is one entry per match, holding the match with its tags removed, and one `sets_files` item per match |
| BiStats.SingleFails | model/bilingual_statistics.py:170-268 | parsed processing aborts exactly when some match's gathering fails |
| BiStats.AggregateAligned | model/bilingual_statistics.py:205-221 | when every match hits exactly one alignment, the source list and the entries line up with the matches |
| BiStats.ParsedCount | model/bilingual_statistics.py:136-144 | parsed `get_counts` is the number of matches |
| BiStats.UnparsedCount | model/bilingual_statistics.py:136-144 | unparsed `get_counts` fails exactly when a match lies within two lines of the end; otherwise it is the number of distinct cleaned (source, target) pairs of the combinations, at most the number of matches |
| MonoStats.CountsUnparsed | model/monolingual_statistics.py:59-64 | the counted keys are exactly the matches with their tags removed |
| MonoStats.UnparsedTotal | model/monolingual_statistics.py:59-64 | every count is at least one and the counts sum to the number of matches |
| MonoStats.UnparsedCount | model/monolingual_statistics.py:114-118 | unparsed `get_counts` is the size of the set of matches with their tags removed: at most the number of matches, and at least one when there is a match |
| MonoStats.MonoGather | model/monolingual_statistics.py:82-98 | gathering fails exactly when an alignment whose key holds the id lacks a line under it; otherwise it holds, in dict order, the line metadata of exactly the alignments whose key holds the id |
| MonoStats.Collect | model/monolingual_statistics.py:66-112 | the loop aborts exactly at an entry that cannot be built; otherwise entry i and `sets_files[i] == [files[i]]` belong to match i |
| MonoStats.ParsedCount | model/monolingual_statistics.py:114-118 | parsed `get_counts` is the number of matches, failing exactly when some entry cannot be built |
| MonoStats.ProcessedEntries | model/monolingual_statistics.py:100-110 | one entry and one `sets_files` item per match, in match order |
| MonoStats.EntryMatch | model/monolingual_statistics.py:84-86 | the entry's match has its id tag removed; a match without id keeps its text and gathers nothing |
| MonoStats.EntryLists | model/monolingual_statistics.py:88-98 | the entry's token, POS and lemma lists come, in order, from exactly the alignments whose key holds the id |
| MonoStats.EntryFailsWhen | model/monolingual_statistics.py:84-98 | an entry fails exactly when an alignment holding the id lacks a line under it |
| MonoStats.ParsedCountIsContextCount | tests/monolingual.py:27 | parsed statistics count as many entries as monolingual context finds matches for the same pattern and side |
| Tables.CountOfRow | model/monolingual_statistics.py:146-150 | a row of the table is counted at least once |
| Tables.CountRefines | model/bilingual_statistics.py:308-316 | counting on finer columns counts no more rows |
| Tables.SortDesc | model/monolingual_statistics.py:171-173 | the sorted rows are a permutation of the rows, descending on the count columns |
| Tables.SortStable | model/bilingual_statistics.py:342-344 | the sort on several columns is stable: the rows with any given counts keep their input order |
| Tables.DistinctSorted | model/monolingual_statistics.py:171-175 | dropping duplicates keeps the order descending |
| Tables.GroupListsSingle | model/monolingual_statistics.py:152-156 | with one file per row, a group's file list has one item per row of the group and holds exactly their files |
| Tables.GroupFiles | model/monolingual_statistics.py:152-160 | the file set of a group holds exactly the files of its rows, and its size is at most their number |
| Tables.TableRows | model/monolingual_statistics.py:162-175 | each table row is an input row with its counts, and every input row appears |
| Tables.TableOrder | model/monolingual_statistics.py:171-175 | no row appears twice, and rows are in descending count order |
| Tables.TableFiles | model/monolingual_statistics.py:176-179 | the files and file count of a table row are those of its group |
| Tables.MonoTable | model/monolingual_statistics.py:137-140 | without matches the writer raises `ValueError` (`None`); a written table has at least one row |
| Tables.MonoRowCounts | model/monolingual_statistics.py:137-175 | `Count_Match` counts the entries with the row's match, `Count_POS` those with its match and POS, and File_Count is the size of the match's file set |
| Tables.MonoTableCounts | model/monolingual_statistics.py:137-175 | the same for the table of a query, over its parsed entries |
| Base.DistinctBy | model/bilingual_statistics.py:365-370 | `drop_duplicates(subset=...)` keeps elements of the input with pairwise different keys, and exactly the keys of the input |
| Base.DistinctByFirst | model/bilingual_statistics.py:365-370 | with `keep='first'`, each kept element is the first of its key in the input |
| Base.DistinctByOrdered | model/bilingual_statistics.py:365-370 | the kept elements stay in input order: any relation between earlier and later elements of the input holds between those of the result |
| Tables.BiTable | model/bilingual_statistics.py:293-300 | without matches the writer raises `ValueError` (`None`); a written table has at least one row |
| Tables.BiRowCounts | model/bilingual_statistics.py:292-350 | each merged row is an entry; `Count_Alignment` counts the entries with its (match, target) pair, `Count_POS_src` those with its match and source POS, `Count_POS_trg` those with its target and target POS; File_Count is the size of the pair's file set |
| Tables.BiTableCounts | model/bilingual_statistics.py:292-372 | the same for every row of the written table of a query, after its last `drop_duplicates` |
| Tables.BiTablePairs | model/bilingual_statistics.py:346-372 | the written table holds exactly one row per (match, target) pair of the entries |
| Tables.BiTableSorted | model/bilingual_statistics.py:342-370 | the written table is in descending order of `Count_Alignment`, `Count_POS_src` and `Count_POS_trg`, as sorted before the merge and both `drop_duplicates` |
| Search.SearchMatches | model/processing.py:304-346 | every mode that returns something returns the whole list's matched lines with one file id each; only the bilingual call with neither flag returns nothing |
| Search.MonoContextList | model/processing.py:313-332 | the monolingual context list holds only lines of the searched side and provenance comments from the cleaned list |

## Left out

- The Streamlit UI, the page scripts and their messaging: these are presentation glue.
- Process spawning and the Tk file dialog: operating-system interaction.
- Corpus download and generation through `opustools` (`model/get_alignments.py`): foreign library calls and network I/O.
- File renaming and CSS in `resources.py`: filesystem I/O and presentation.
- `open`, `to_csv`, the `write_context_*` text rendering and the `automate_path_*` file-name builders: file I/O and path bookkeeping. Reading is modelled from the file's text onward, and writing only as the rows a table holds.
- The regex engine and `re.IGNORECASE`: the pattern is the parameter `hit`, and case-insensitivity is the flag passed to it.
- pandas `groupby`, `merge` and `explode`, and `eval`/`ast.literal_eval`: only the resulting counts, file sets and sort order are modelled, as pure functions.
- The file column of the unparsed writer zips the distinct count keys with the per-match files by position: no per-key file set is stated for that path.
- The `__limit` digit extraction from the path and the unused `__create_key`: bookkeeping that no result depends on.
- BiStats.AggregateAligned: proved only when every match hits exactly one alignment. With several hits, the entry at match i reads position i of the accumulated source list, which the model computes but no lemma characterises.
- BiContext.BilingualContext and Search.PerformNewSearch: these compose the proved parts. Their properties are stated by BiContext.ContextFails, BiContext.ContextShape, BiContext.SideAnnotationRemoved and Search.SearchMatches.
- Ops.DropChars: `punct` is the set of characters the regex class `[{punct_marks}]` denotes; the class syntax (ranges such as `!-?`, `^` negation, backslash escapes) and the `re.error` raised by an empty or malformed class are not modelled, because the parameter is a set, not class text.
- Tables.BiTable: in summarising mode the writer first explodes the per-alignment source POS, lemma and token lists, so the row kept for a pair carries only the first item of each list; the model keeps the whole lists in that row.
- Corpus.ReadLines: Python's text mode turns `\r\n` and `\r` into `\n` before the lines are split; the model starts from the translated text.
- Text encodings: strings are sequences of characters, and `\d` in the provenance-comment pattern is ASCII digits only.

## Findings

| source | as written | input that shows it | evidently intended | confidence | as-written member | corrected member |
|---|---|---|---|---|---|---|
| model/bilingual_context.py:176-180 and model/monolingual_context.py:72-74 | the pre-context is `lst[index - pre_context:index]`; for 0 < index < pre_context the start is negative and counts from the end of the list | list `["a","b","c"]`, index 1, pre_context 2: the slice `lst[-1:1]` is empty | the lines before the match that exist, here `["a"]` | not executed | Windows.PreWindowAsWritten, Windows.PreWindowCounterexample | Windows.PreWindow, Windows.PreWindowAgreement |

The context modules compute the slice as written, which is what the program
returns. Windows.PreWindow is the corrected window, and
Windows.PreWindowAgreement shows the two agree exactly when the index is 0,
the index is at least the window size, or the list is no longer than the
window size minus the index. MonoContext.PreContextLines states each
monolingual pre-context in both terms: always as the slice as written, and
as the corrected window whenever they agree.

=== FILE: base.dfy ===
/** Generic sequence helpers shared by every component: an Option type for
    the source's exceptions, order-preserving filtering, first-occurrence
    deduplication and sums. */
module Base {

  /** A computation that either produced a value or aborted the query (the
      source raises IndexError, KeyError or AttributeError there). */
  datatype Option<+T> = None | Some(value: T)

  /** The elements of `xs` satisfying `p`, in their original order. */
  function Filter<T(==)>(xs: seq<T>, p: T -> bool): (r: seq<T>)
    ensures |r| <= |xs|
    ensures forall i :: 0 <= i < |r| ==> r[i] in xs && p(r[i])
    ensures forall i :: 0 <= i < |xs| && p(xs[i]) ==> xs[i] in r
    decreases |xs|
  {
    if |xs| == 0 then []
    else Filter(xs[..|xs| - 1], p) + (if p(xs[|xs| - 1]) then [xs[|xs| - 1]] else [])
  }

  lemma FilterAppend<T>(xs: seq<T>, ys: seq<T>, p: T -> bool)
    ensures Filter(xs + ys, p) == Filter(xs, p) + Filter(ys, p)
    decreases |ys|
  {
    if |ys| == 0 {
      assert xs + ys == xs;
    } else {
      var ys' := ys[..|ys| - 1];
      assert (xs + ys)[..|xs + ys| - 1] == xs + ys';
      FilterAppend(xs, ys', p);
    }
  }

  /** Filtering a list cut around one element: the elements before it, the
      element itself when it passes, the elements after it, in that order. */
  lemma FilterSplit<T>(xs: seq<T>, x: T, ys: seq<T>, p: T -> bool)
    ensures Filter(xs + [x] + ys, p) == Filter(xs, p) + (if p(x) then [x] else []) + Filter(ys, p)
  {
    FilterAppend(xs + [x], ys, p);
    FilterAppend(xs, [x], p);
    assert [x][..0] == [];
  }

  /** Filtering a list with a head filters the head, then the rest. */
  lemma FilterCons<T>(x: T, xs: seq<T>, p: T -> bool)
    ensures Filter([x] + xs, p) == (if p(x) then [x] else []) + Filter(xs, p)
  {
    FilterSplit([], x, xs, p);
    assert [] + [x] + xs == [x] + xs;
  }

  /** Filtering with `p` then with `q` is filtering with `q` alone when
      every `q`-element already satisfies `p`. */
  lemma {:induction false} FilterFilter<T>(xs: seq<T>, p: T -> bool, q: T -> bool)
    requires forall x :: q(x) ==> p(x)
    ensures Filter(Filter(xs, p), q) == Filter(xs, q)
    decreases |xs|
  {
    if |xs| > 0 {
      var init := xs[..|xs| - 1];
      var last := xs[|xs| - 1];
      FilterFilter(init, p, q);
      FilterAppend(Filter(init, p), if p(last) then [last] else [], q);
    }
  }

  /** Filtering keeps every element when all of them satisfy the predicate. */
  lemma {:induction false} FilterAll<T>(xs: seq<T>, p: T -> bool)
    requires forall i :: 0 <= i < |xs| ==> p(xs[i])
    ensures Filter(xs, p) == xs
    decreases |xs|
  {
    if |xs| > 0 {
      FilterAll(xs[..|xs| - 1], p);
      assert xs[..|xs| - 1] + [xs[|xs| - 1]] == xs;
    }
  }

  /** Sum of a sequence of counts. */
  function Sum(xs: seq<nat>): nat
    decreases |xs|
  {
    if |xs| == 0 then 0 else Sum(xs[..|xs| - 1]) + xs[|xs| - 1]
  }

  lemma SumAppend(xs: seq<nat>, ys: seq<nat>)
    ensures Sum(xs + ys) == Sum(xs) + Sum(ys)
    decreases |ys|
  {
    if |ys| > 0 {
      assert (xs + ys)[..|xs + ys| - 1] == xs + ys[..|ys| - 1];
      SumAppend(xs, ys[..|ys| - 1]);
    } else {
      assert xs + ys == xs;
    }
  }

  /** No value occurs twice. */
  predicate NoDuplicates<T(==)>(xs: seq<T>) {
    forall i, j :: 0 <= i < j < |xs| ==> xs[i] != xs[j]
  }

  /** The distinct elements of `xs` in order of first occurrence (Python's
      dict key order, pandas' `drop_duplicates(keep='first')`). */
  function Distinct<T(==)>(xs: seq<T>): (r: seq<T>)
    ensures NoDuplicates(r)
    ensures forall i :: 0 <= i < |r| ==> r[i] in xs
    ensures forall i :: 0 <= i < |xs| ==> xs[i] in r
    ensures |r| <= |xs|
    decreases |xs|
  {
    if |xs| == 0 then []
    else
      var d := Distinct(xs[..|xs| - 1]);
      if xs[|xs| - 1] in d then d else d + [xs[|xs| - 1]]
  }
  /** Some element of `xs` has the key `k`. */
  predicate HasKey<T, K(==)>(xs: seq<T>, key: T -> K, k: K) {
    exists j :: 0 <= j < |xs| && key(xs[j]) == k
  }

  /** The first element of each key, in order (pandas'
      `drop_duplicates(subset=..., keep='first')`, the key being the
      subset's columns). */
  function DistinctBy<T(==), K(==,!new)>(xs: seq<T>, key: T -> K): (r: seq<T>)
    ensures |r| <= |xs|
    ensures forall i :: 0 <= i < |r| ==> r[i] in xs
    ensures forall i, j :: 0 <= i < j < |r| ==> key(r[i]) != key(r[j])
    ensures forall k :: HasKey(xs, key, k) <==> HasKey(r, key, k)
    decreases |xs|
  {
    if |xs| == 0 then []
    else
      var init := xs[..|xs| - 1];
      var last := xs[|xs| - 1];
      var d := DistinctBy(init, key);
      assert forall k :: HasKey(xs, key, k) <==> HasKey(init, key, k) || key(last) == k by {
        forall k | HasKey(xs, key, k) ensures HasKey(init, key, k) || key(last) == k {
          var j :| 0 <= j < |xs| && key(xs[j]) == k;
          if j < |xs| - 1 { assert init[j] == xs[j]; }
        }
        forall k | HasKey(init, key, k) ensures HasKey(xs, key, k) {
          var j :| 0 <= j < |init| && key(init[j]) == k;
          assert xs[j] == init[j];
        }
      }
      if HasKey(d, key, key(last)) then d
      else
        var r := d + [last];
        assert key(r[|d|]) == key(last);
        forall k | HasKey(r, key, k) ensures HasKey(d, key, k) || key(last) == k {
          var j :| 0 <= j < |r| && key(r[j]) == k;
          if j < |d| { assert r[j] == d[j]; }
        }
        forall k | HasKey(d, key, k) ensures HasKey(r, key, k) {
          var j :| 0 <= j < |d| && key(d[j]) == k;
          assert r[j] == d[j];
        }
        r
  }

  /** `le` holds between every element of `xs` and each later one. */
  predicate Ordered<T>(xs: seq<T>, le: (T, T) -> bool) {
    forall i, j :: 0 <= i < j < |xs| ==> le(xs[i], xs[j])
  }

  /** The kept elements stay in input order: every relation that holds
      between earlier and later elements of `xs` still holds in the result. */
  lemma {:induction false} DistinctByOrdered<T, K(!new)>(xs: seq<T>, key: T -> K, le: (T, T) -> bool)
    requires Ordered(xs, le)
    ensures Ordered(DistinctBy(xs, key), le)
    decreases |xs|
  {
    if |xs| > 0 {
      var init := xs[..|xs| - 1];
      var last := xs[|xs| - 1];
      var d := DistinctBy(init, key);
      assert Ordered(init, le) by {
        forall i, j | 0 <= i < j < |init| ensures le(init[i], init[j]) {
          assert init[i] == xs[i] && init[j] == xs[j];
        }
      }
      DistinctByOrdered(init, key, le);
      forall i | 0 <= i < |d| ensures le(d[i], last) {
        var m :| 0 <= m < |init| && init[m] == d[i];
        assert xs[m] == d[i];
      }
      var r := DistinctBy(xs, key);
      assert r == d || r == d + [last];
    }
  }

  /** Each kept element is the first of its key: no element before it in
      `xs` has the same key. */
  lemma {:induction false} DistinctByFirst<T, K(!new)>(xs: seq<T>, key: T -> K, i: nat)
    requires i < |DistinctBy(xs, key)|
    ensures var r := DistinctBy(xs, key);
      exists m :: 0 <= m < |xs| && xs[m] == r[i] && !HasKey(xs[..m], key, key(r[i]))
    decreases |xs|
  {
    var r := DistinctBy(xs, key);
    var init := xs[..|xs| - 1];
    var last := xs[|xs| - 1];
    var d := DistinctBy(init, key);
    if i < |d| {
      assert r[i] == d[i];
      DistinctByFirst(init, key, i);
      var m :| 0 <= m < |init| && init[m] == d[i] && !HasKey(init[..m], key, key(d[i]));
      assert xs[..m] == init[..m];
    } else {
      assert r[i] == last && !HasKey(d, key, key(last));
      assert xs[..|xs| - 1] == init;
    }
  }

  /** The number of distinct elements is the size of the set of elements. */
  lemma {:induction false} DistinctSize<T>(xs: seq<T>)
    ensures |Distinct(xs)| == |set x | x in xs|
    decreases |xs|
  {
    if |xs| == 0 {
      assert (set x | x in xs) == {};
    } else {
      var init := xs[..|xs| - 1];
      var last := xs[|xs| - 1];
      DistinctSize(init);
      assert xs == init + [last];
      assert (set x | x in xs) == (set x | x in init) + {last};
      if last in Distinct(init) {
        assert (set x | x in xs) == (set x | x in init);
      } else {
        assert last !in (set x | x in init);
      }
    }
  }


  /** The values of a list of options, or None as soon as one is missing
      (a loop that raises on the first failing item). */
  function AllSome<X>(xs: seq<Option<X>>): (r: Option<seq<X>>)
    ensures r.None? <==> exists j :: 0 <= j < |xs| && xs[j].None?
    ensures r.Some? ==> |r.value| == |xs| && forall j :: 0 <= j < |xs| ==> xs[j] == Some(r.value[j])
    decreases |xs|
  {
    if |xs| == 0 then Some([])
    else
      var init := xs[..|xs| - 1];
      assert forall j :: 0 <= j < |init| ==> init[j] == xs[j];
      match AllSome(init)
      case None => None
      case Some(vs) =>
        match xs[|xs| - 1]
        case None => None
        case Some(x) => Some(vs + [x])
  }

  /** Concatenation of a sequence of sequences (Python's `sum(lst, [])`). */
  function Concat<T>(xss: seq<seq<T>>): seq<T>
    decreases |xss|
  {
    if |xss| == 0 then [] else Concat(xss[..|xss| - 1]) + xss[|xss| - 1]
  }

  lemma ConcatAppend<T>(xss: seq<seq<T>>, yss: seq<seq<T>>)
    ensures Concat(xss + yss) == Concat(xss) + Concat(yss)
    decreases |yss|
  {
    if |yss| > 0 {
      assert (xss + yss)[..|xss + yss| - 1] == xss + yss[..|yss| - 1];
      ConcatAppend(xss, yss[..|yss| - 1]);
    } else {
      assert xss + yss == xss;
    }
  }

  /** Concatenating a first sequence in front of the rest. */
  lemma ConcatCons<T>(x: seq<T>, xss: seq<seq<T>>)
    ensures Concat([x] + xss) == x + Concat(xss)
  {
    ConcatAppend([x], xss);
    assert Concat([x]) == x by {
      assert [x][..0] == [];
    }
  }

  function Reverse<T>(xs: seq<T>): (r: seq<T>)
    ensures |r| == |xs|
    ensures forall i :: 0 <= i < |xs| ==> r[i] == xs[|xs| - 1 - i]
  {
    seq(|xs|, i requires 0 <= i < |xs| => xs[|xs| - 1 - i])
  }
}

=== FILE: bicontext.dfy ===
/** Bilingual context (model/bilingual_context.py, `BilingualContext`):
    the record of every match split into its source and target lines, and
    a pre- and post-context window for each side, cut out of the list of
    all lines of that side. */
module BiContext {
  import opened Base
  import opened Text
  import opened Corpus
  import opened Locator
  import opened Records
  import opened Ops
  import opened Windows

  // ---------------------------------------------------------------------
  // The segments of all matches

  /** `__get_segments()`: one segment per match; the query aborts (None)
      when some match has no separator below it. */
  function Segments(T: seq<string>, indices: seq<nat>): (r: Option<seq<seq<string>>>)
    requires forall j :: 0 <= j < |indices| ==> indices[j] < |T|
    ensures r.None? <==> exists j :: 0 <= j < |indices| && Segment(T, indices[j]).None?
    ensures r.Some? ==> (|r.value| == |indices|
      && forall j :: 0 <= j < |indices| ==> Segment(T, indices[j]) == Some(r.value[j]))
  {
    var each := seq(|indices|, j requires 0 <= j < |indices| => Segment(T, indices[j]));
    assert forall j :: 0 <= j < |indices| ==> each[j] == Segment(T, indices[j]);
    AllSome(each)
  }

  /** Every line of a segment is a line of the list it was cut from. */
  lemma SegmentInList(T: seq<string>, index: nat)
    requires index < |T| && Segment(T, index).Some?
    ensures forall x :: x in Segment(T, index).value ==> x in T
  {
    var seg := Segment(T, index).value;
    var k := SegmentPreLen(T, index);
    forall x | x in seg ensures x in T {
      var j :| 0 <= j < |seg| && seg[j] == x;
      if j < k {
        assert x == LeftAt(T, index, j);
      } else if j > k {
        assert x == RightAt(T, index, j - k - 1);
      }
    }
  }

  // ---------------------------------------------------------------------
  // Lookup of a line's position in its side

  /** `__lang_list_to_dict(lst)`: every line of the list, mapped to the
      position of its first occurrence. */
  function LangListToDict(lst: seq<string>): (d: map<string, nat>)
    ensures forall v :: v in d <==> v in lst
    ensures forall v :: v in d ==> d[v] < |lst| && lst[d[v]] == v
    ensures forall v :: v in d ==> forall k :: 0 <= k < d[v] ==> lst[k] != v
    decreases |lst|
  {
    if |lst| == 0 then map[]
    else
      var init := lst[..|lst| - 1];
      var d := LangListToDict(init);
      var v := lst[|lst| - 1];
      assert lst == init + [v];
      if v in d then d else d[v := |lst| - 1]
  }

  /** `__extract_lang_segments()`: the lines of one side of each segment. */
  function LangSegments(segs: seq<seq<string>>, role: Role): (r: seq<seq<string>>)
    ensures |r| == |segs|
    ensures forall j :: 0 <= j < |segs| ==> r[j] == FilterAlignment(segs[j], role)
  {
    seq(|segs|, j requires 0 <= j < |segs| => FilterAlignment(segs[j], role))
  }

  /** The positions, in the side's list, of the first and of the last line
      of each segment. */
  datatype Bounds = Bounds(first: seq<nat>, last: seq<nat>)

  /** Every segment has a first and a last line, and both are keys. */
  predicate Indexable(sub: seq<seq<string>>, d: map<string, nat>) {
    forall j :: 0 <= j < |sub| ==> |sub[j]| > 0 && Endpoints(sub[j], d)
  }

  /** `__extract_ind(sublst, dictionary)`: `elem[0]` and `elem[-1]` of an
      empty segment raise IndexError, a missing key KeyError (None). */
  function ExtractInd(sub: seq<seq<string>>, d: map<string, nat>): (r: Option<Bounds>)
    ensures r.Some? <==> Indexable(sub, d)
    ensures r.Some? ==> (|r.value.first| == |sub| && |r.value.last| == |sub|
      && (forall j :: 0 <= j < |sub| ==> r.value.first[j] == d[sub[j][0]])
      && (forall j :: 0 <= j < |sub| ==> r.value.last[j] == d[sub[j][|sub[j]| - 1]]))
    decreases |sub|
  {
    if |sub| == 0 then Some(Bounds([], []))
    else
      var init := sub[..|sub| - 1];
      var e := sub[|sub| - 1];
      var rest := ExtractInd(init, d);
      if rest.Some? && |e| > 0 && e[0] in d && e[|e| - 1] in d then
        Some(Bounds(rest.value.first + [d[e[0]]], rest.value.last + [d[e[|e| - 1]]]))
      else
        assert !Indexable(sub, d) by {
          if rest.None? {
            var j :| 0 <= j < |init| && !(|init[j]| > 0 && Endpoints(init[j], d));
            assert sub[j] == init[j];
          } else {
            assert sub[|sub| - 1] == e;
          }
        }
        None
  }

  // ---------------------------------------------------------------------
  // Windows

  /** `__set_pre_context(lst, indices, pre_context)`, with the source's
      slice `lst[i - p:i]` (see `Windows.PreWindowAsWritten`). A window size
      of None raises TypeError as soon as there is a position to cut at. */
  function PreWindows(lst: seq<string>, idx: seq<nat>, p: Option<int>): (r: Option<seq<seq<string>>>)
    ensures r.None? <==> p.None? && |idx| > 0
    ensures r.Some? ==> |r.value| == |idx|
  {
    if |idx| == 0 then Some([])
    else match p
      case None => None
      case Some(n) => Some(seq(|idx|, j requires 0 <= j < |idx| => PreWindowAsWritten(lst, idx[j], n)))
  }

  /** `__set_post_context(lst, indices, post_context)` */
  function PostWindows(lst: seq<string>, idx: seq<nat>, p: Option<int>): (r: Option<seq<seq<string>>>)
    ensures r.None? <==> p.None? && |idx| > 0
    ensures r.Some? ==> |r.value| == |idx|
  {
    if |idx| == 0 then Some([])
    else match p
      case None => None
      case Some(n) => Some(seq(|idx|, j requires 0 <= j < |idx| => PostWindow(lst, idx[j], n)))
  }

  // ---------------------------------------------------------------------
  // One side

  /** One side of the context: the side's lines of each segment, and the
      pre- and post-context window of each. */
  datatype Side = Side(lines: seq<seq<string>>, pre: seq<seq<string>>, post: seq<seq<string>>)

  /** The side `role` of the segments `segs` of the list `T`: the windows
      are cut from the side's list of all lines, before the first
      occurrence there of the segment's first line and after the first
      occurrence of its last line. */
  function SideOf(T: seq<string>, segs: seq<seq<string>>, role: Role, pre: Option<int>, post: Option<int>): (r: Option<Side>)
    ensures r.None? <==>
      !Indexable(LangSegments(segs, role), LangListToDict(FilterAlignment(T, role)))
      || (|segs| > 0 && (pre.None? || post.None?))
    ensures r.Some? ==> (r.value.lines == LangSegments(segs, role)
      && |r.value.pre| == |segs| && |r.value.post| == |segs|)
  {
    var l := FilterAlignment(T, role);
    var d := LangListToDict(l);
    var sub := LangSegments(segs, role);
    match ExtractInd(sub, d)
    case None => None
    case Some(b) =>
      var w1 := PreWindows(l, b.first, pre);
      var w2 := PostWindows(l, b.last, post);
      if w1.None? || w2.None? then None
      else Some(Side(LangSegments(segs, role), w1.value, w2.value))
  }

  /** Each window of a side is cut at the position of the segment's first
      (last) side line in the side's list of all lines. */
  lemma SideWindows(T: seq<string>, segs: seq<seq<string>>, role: Role, pre: int, post: int, j: nat)
    requires SideOf(T, segs, role, Some(pre), Some(post)).Some? && j < |segs|
    ensures var s := SideOf(T, segs, role, Some(pre), Some(post)).value;
      var l := FilterAlignment(T, role);
      var d := LangListToDict(l);
      var side := FilterAlignment(segs[j], role);
      |side| > 0 && side[0] in d && side[|side| - 1] in d
      && d[side[0]] < |l| && l[d[side[0]]] == side[0]
      && d[side[|side| - 1]] < |l| && l[d[side[|side| - 1]]] == side[|side| - 1]
      && s.pre[j] == PreWindowAsWritten(l, d[side[0]], pre)
      && s.post[j] == PostWindow(l, d[side[|side| - 1]], post)
  {
  }

  /** The `j`-th windows of the side `s` of the side list `l`: cut with the
      source's slices at the first position in `l` of the segment's first
      side line (pre-context) and of its last side line (post-context). */
  predicate WindowsAt(l: seq<string>, s: Side, j: nat, pre: int, post: int)
    requires j < |s.lines| && j < |s.pre| && j < |s.post|
  {
    var d := LangListToDict(l);
    var side := s.lines[j];
    |side| > 0 && side[0] in d && side[|side| - 1] in d
    && s.pre[j] == PreWindowAsWritten(l, d[side[0]], pre)
    && s.post[j] == PostWindow(l, d[side[|side| - 1]], post)
  }

  /** When every segment holds its match, a `(src)` line, the source side
      is always indexable. */
  lemma SrcIndexable(T: seq<string>, indices: seq<nat>, segs: seq<seq<string>>)
    requires forall j :: 0 <= j < |indices| ==> indices[j] < |T| && HasRoleTag(T[indices[j]], Src)
    requires |segs| == |indices| && forall j :: 0 <= j < |indices| ==> Segment(T, indices[j]) == Some(segs[j])
    ensures Indexable(LangSegments(segs, Src), LangListToDict(FilterAlignment(T, Src)))
  {
    var d1 := LangListToDict(FilterAlignment(T, Src));
    var sub1 := LangSegments(segs, Src);
    forall j | 0 <= j < |segs| ensures |sub1[j]| > 0 && Endpoints(sub1[j], d1) {
      SegmentSides(T, indices[j], segs[j]);
    }
  }

  /** The target side is indexable exactly when every segment holds a
      target line. */
  lemma TrgIndexable(T: seq<string>, indices: seq<nat>, segs: seq<seq<string>>)
    requires forall j :: 0 <= j < |indices| ==> indices[j] < |T| && HasRoleTag(T[indices[j]], Src)
    requires |segs| == |indices| && forall j :: 0 <= j < |indices| ==> Segment(T, indices[j]) == Some(segs[j])
    ensures Indexable(LangSegments(segs, Trg), LangListToDict(FilterAlignment(T, Trg)))
        <==> forall j :: 0 <= j < |segs| ==> |FilterAlignment(segs[j], Trg)| > 0
  {
    var d2 := LangListToDict(FilterAlignment(T, Trg));
    var sub2 := LangSegments(segs, Trg);
    forall j | 0 <= j < |segs| ensures Endpoints(sub2[j], d2) {
      SegmentSides(T, indices[j], segs[j]);
    }
    if !Indexable(sub2, d2) {
      var j :| 0 <= j < |sub2| && !(|sub2[j]| > 0 && Endpoints(sub2[j], d2));
      assert |FilterAlignment(segs[j], Trg)| == 0;
    }
  }

  /** `SideLinesListed` for one segment, stated on the endpoints. */
  lemma SegmentSides(T: seq<string>, index: nat, seg: seq<string>)
    requires index < |T| && HasRoleTag(T[index], Src) && Segment(T, index) == Some(seg)
    ensures |FilterAlignment(seg, Src)| > 0
    ensures Endpoints(FilterAlignment(seg, Src), LangListToDict(FilterAlignment(T, Src)))
    ensures Endpoints(FilterAlignment(seg, Trg), LangListToDict(FilterAlignment(T, Trg)))
  {
    SideLinesListed(T, index, Src);
    SideLinesListed(T, index, Trg);
  }

  /** The first and last line of a non-empty side are keys. */
  predicate Endpoints(side: seq<string>, d: map<string, nat>) {
    |side| > 0 ==> side[0] in d && side[|side| - 1] in d
  }

  /** The side lines of a segment are lines of that side of the whole
      list; a segment around a `(src)` match has a source side. */
  lemma SideLinesListed(T: seq<string>, index: nat, role: Role)
    requires index < |T| && Segment(T, index).Some?
    ensures var side := FilterAlignment(Segment(T, index).value, role);
      (forall x :: x in side ==> x in LangListToDict(FilterAlignment(T, role)))
      && (role == Src && HasRoleTag(T[index], Src) ==> |side| > 0)
  {
    var seg := Segment(T, index).value;
    SegmentInList(T, index);
    var side := FilterAlignment(seg, role);
    forall x | x in side ensures x in FilterAlignment(T, role) {
      var i :| 0 <= i < |T| && T[i] == x;
      assert IsRoleLine(T[i], role);
    }
    if role == Src && HasRoleTag(T[index], Src) {
      var k := SegmentPreLen(T, index);
      RoleTagIsRoleLine(T[index], Src);
      assert seg[k] == T[index];
      assert seg[k] in side;
    }
  }

  // ---------------------------------------------------------------------
  // The whole query

  /** What `BilingualContext` holds once constructed. */
  datatype Context = Context(matches: seq<string>, files: seq<string>, src: Side, trg: Side)

  /** Both sides of the segments of the matches at `indices`. */
  datatype Sides = Sides(src: Side, trg: Side)

  function SidesAt(T: seq<string>, indices: seq<nat>, pre: Option<int>, post: Option<int>): Option<Sides>
    requires forall j :: 0 <= j < |indices| ==> indices[j] < |T|
  {
    match Segments(T, indices)
    case None => None
    case Some(segs) =>
      var s1 := SideOf(T, segs, Src, pre, post);
      var s2 := SideOf(T, segs, Trg, pre, post);
      if s1.None? || s2.None? then None else Some(Sides(s1.value, s2.value))
  }

  /** The bilingual context of the matches of `hit` among the `(src)` lines
      of the cleaned list `T`, with annotations kept. */
  function ContextOf(T: seq<string>, hit: Matcher, ci: bool, pre: Option<int>, post: Option<int>): Option<Context> {
    var loc := Locate(T, hit, ci, Src);
    match SidesAt(T, loc.indices, pre, post)
    case None => None
    case Some(s) => Some(Context(loc.matches, loc.files, s.src, s.trg))
  }

  /** The `anno=False` option: the tags are removed from the side lines and
      the windows (the returned matches keep theirs). */
  function RemoveSideAnnotation(s: Side): (r: Side)
    ensures |r.lines| == |s.lines| && |r.pre| == |s.pre| && |r.post| == |s.post|
  {
    Side(RemoveAnnotationNested(s.lines), RemoveAnnotationNested(s.pre), RemoveAnnotationNested(s.post))
  }

  /** `BilingualContext(path, regex, pre_context, post_context, anno)` */
  function BilingualContext(T: seq<string>, hit: Matcher, ci: bool, pre: Option<int>, post: Option<int>, anno: bool): Option<Context> {
    match ContextOf(T, hit, ci, pre, post)
    case None => None
    case Some(c) =>
      Some(if anno then c else c.(src := RemoveSideAnnotation(c.src), trg := RemoveSideAnnotation(c.trg)))
  }

  // ---------------------------------------------------------------------
  // Properties of the query

  /** Given the segments of `(src)` matches, the source side fails only for
      a missing window size, the target side also for a segment without
      target lines. */
  lemma SidesOfSegments(T: seq<string>, indices: seq<nat>, segs: seq<seq<string>>, pre: Option<int>, post: Option<int>)
    requires forall j :: 0 <= j < |indices| ==> indices[j] < |T| && HasRoleTag(T[indices[j]], Src)
    requires |segs| == |indices| && forall j :: 0 <= j < |indices| ==> Segment(T, indices[j]) == Some(segs[j])
    ensures SideOf(T, segs, Src, pre, post).None? <==> |segs| > 0 && (pre.None? || post.None?)
    ensures SideOf(T, segs, Trg, pre, post).None? <==>
      (exists j :: 0 <= j < |segs| && |FilterAlignment(segs[j], Trg)| == 0)
      || (|segs| > 0 && (pre.None? || post.None?))
  {
    SrcIndexable(T, indices, segs);
    TrgIndexable(T, indices, segs);
  }

  /** The match at `index` has a segment, and it holds no target line. */
  predicate NoTarget(T: seq<string>, index: nat)
    requires index < |T|
  {
    Segment(T, index).Some? && |FilterAlignment(Segment(T, index).value, Trg)| == 0
  }

  /** A segment without target lines, stated on the segments or on the
      match positions. */
  lemma NoTargetAt(T: seq<string>, indices: seq<nat>, segs: seq<seq<string>>)
    requires forall j :: 0 <= j < |indices| ==> indices[j] < |T|
    requires |segs| == |indices| && forall j :: 0 <= j < |indices| ==> Segment(T, indices[j]) == Some(segs[j])
    ensures (exists j :: 0 <= j < |segs| && |FilterAlignment(segs[j], Trg)| == 0)
        <==> (exists j :: 0 <= j < |indices| && NoTarget(T, indices[j]))
  {
    if exists j :: 0 <= j < |segs| && |FilterAlignment(segs[j], Trg)| == 0 {
      var j :| 0 <= j < |segs| && |FilterAlignment(segs[j], Trg)| == 0;
      assert Segment(T, indices[j]) == Some(segs[j]);
    }
  }

  /** Cutting the sides fails exactly when a match has no separator below
      it, when a match's record holds no target line, or when a window
      size is missing while there are matches. */
  lemma SidesFail(T: seq<string>, indices: seq<nat>, pre: Option<int>, post: Option<int>)
    requires forall j :: 0 <= j < |indices| ==> indices[j] < |T| && HasRoleTag(T[indices[j]], Src)
    ensures SidesAt(T, indices, pre, post).None? <==>
        (exists j :: 0 <= j < |indices| && !SeparatorAfter(T, indices[j]))
        || (exists j :: 0 <= j < |indices| && NoTarget(T, indices[j]))
        || (|indices| > 0 && (pre.None? || post.None?))
  {
    match Segments(T, indices)
    case None =>
      var j :| 0 <= j < |indices| && Segment(T, indices[j]).None?;
      assert !SeparatorAfter(T, indices[j]);
    case Some(segs) =>
      SidesOfSegments(T, indices, segs, pre, post);
      NoTargetAt(T, indices, segs);
      assert forall j :: 0 <= j < |indices| ==> SeparatorAfter(T, indices[j]);
  }

  /** The query aborts exactly when a match has no separator below it, when
      a match's record holds no target line, or when a window size is
      missing while there are matches. */
  lemma ContextFails(T: seq<string>, hit: Matcher, ci: bool, pre: Option<int>, post: Option<int>, anno: bool)
    ensures var ix := Locate(T, hit, ci, Src).indices;
      BilingualContext(T, hit, ci, pre, post, anno).None? <==>
        (exists j :: 0 <= j < |ix| && !SeparatorAfter(T, ix[j]))
        || (exists j :: 0 <= j < |ix| && NoTarget(T, ix[j]))
        || (|ix| > 0 && (pre.None? || post.None?))
  {
    var ix := Locate(T, hit, ci, Src).indices;
    forall j | 0 <= j < |ix| ensures ix[j] < |T| && HasRoleTag(T[ix[j]], Src) {
      assert ix[j] in ix;
    }
    SidesFail(T, ix, pre, post);
  }

  /** One entry per match on each side, holding the side lines of the
      match's segment and the windows cut around them in the side's list. */
  lemma ContextShape(T: seq<string>, hit: Matcher, ci: bool, pre: Option<int>, post: Option<int>, j: nat)
    requires ContextOf(T, hit, ci, pre, post).Some?
    requires j < |Locate(T, hit, ci, Src).indices|
    ensures var c := ContextOf(T, hit, ci, pre, post).value;
      var ix := Locate(T, hit, ci, Src).indices;
      Segment(T, ix[j]).Some?
      && |c.src.lines| == |c.src.pre| == |c.src.post| == |ix|
      && |c.trg.lines| == |c.trg.pre| == |c.trg.post| == |ix|
      && c.src.lines[j] == FilterAlignment(Segment(T, ix[j]).value, Src)
      && c.trg.lines[j] == FilterAlignment(Segment(T, ix[j]).value, Trg)
      && pre.Some? && post.Some?
      && WindowsAt(FilterAlignment(T, Src), c.src, j, pre.value, post.value)
      && WindowsAt(FilterAlignment(T, Trg), c.trg, j, pre.value, post.value)
  {
    var ix := Locate(T, hit, ci, Src).indices;
    SidesShape(T, ix, pre, post, j);
  }

  /** `ContextShape` stated on the sides of the positions `indices`. */
  lemma SidesShape(T: seq<string>, indices: seq<nat>, pre: Option<int>, post: Option<int>, j: nat)
    requires forall m :: 0 <= m < |indices| ==> indices[m] < |T|
    requires SidesAt(T, indices, pre, post).Some? && j < |indices|
    ensures var s := SidesAt(T, indices, pre, post).value;
      Segment(T, indices[j]).Some?
      && |s.src.lines| == |s.src.pre| == |s.src.post| == |indices|
      && |s.trg.lines| == |s.trg.pre| == |s.trg.post| == |indices|
      && s.src.lines[j] == FilterAlignment(Segment(T, indices[j]).value, Src)
      && s.trg.lines[j] == FilterAlignment(Segment(T, indices[j]).value, Trg)
      && pre.Some? && post.Some?
      && WindowsAt(FilterAlignment(T, Src), s.src, j, pre.value, post.value)
      && WindowsAt(FilterAlignment(T, Trg), s.trg, j, pre.value, post.value)
  {
    var segs := Segments(T, indices).value;
    assert Segment(T, indices[j]) == Some(segs[j]);
    SideShape(T, segs, Src, pre.value, post.value, j);
    SideShape(T, segs, Trg, pre.value, post.value, j);
  }

  /** One side of `SidesShape`: its lists have one item per segment, and
      its `j`-th lines and windows are those of segment `j`. */
  lemma SideShape(T: seq<string>, segs: seq<seq<string>>, role: Role, pre: int, post: int, j: nat)
    requires SideOf(T, segs, role, Some(pre), Some(post)).Some? && j < |segs|
    ensures var s := SideOf(T, segs, role, Some(pre), Some(post)).value;
      |s.lines| == |s.pre| == |s.post| == |segs|
      && s.lines[j] == FilterAlignment(segs[j], role)
      && WindowsAt(FilterAlignment(T, role), s, j, pre, post)
  {
    SideWindows(T, segs, role, pre, post, j);
  }

  /** Without annotations every list keeps its shape, and each line loses
      exactly the characters of the tags `findall` finds in it. */
  lemma SideAnnotationRemoved(s: Side)
    ensures var r := RemoveSideAnnotation(s);
      (forall j :: 0 <= j < |s.lines| ==> |r.lines[j]| == |s.lines[j]|)
      && (forall j :: 0 <= j < |s.pre| ==> |r.pre[j]| == |s.pre[j]|)
      && (forall j :: 0 <= j < |s.post| ==> |r.post[j]| == |s.post[j]|)
      && (forall j, i :: 0 <= j < |s.lines| && 0 <= i < |s.lines[j]| ==>
            |r.lines[j][i]| + |Concat(FindTags(s.lines[j][i], AnyTag))| == |s.lines[j][i]|)
      && (forall j, i :: 0 <= j < |s.pre| && 0 <= i < |s.pre[j]| ==>
            |r.pre[j][i]| + |Concat(FindTags(s.pre[j][i], AnyTag))| == |s.pre[j][i]|)
      && (forall j, i :: 0 <= j < |s.post| && 0 <= i < |s.post[j]| ==>
            |r.post[j][i]| + |Concat(FindTags(s.post[j][i], AnyTag))| == |s.post[j][i]|)
  {
    NestedAccounted(s.lines);
    NestedAccounted(s.pre);
    NestedAccounted(s.post);
  }
}

=== FILE: bistats.dfy ===
/** Bilingual statistics (model/bilingual_statistics.py, `BilingualStats`):
    for unparsed corpora, each match is paired with the target lines of
    one of four fixed record shapes and the (source, target) pairs are
    counted; for parsed corpora, the token, POS and lemma lists of each
    match and of the target lines aligned with it are gathered from the
    record index. */
module BiStats {
  import opened Base
  import opened Text
  import opened Corpus
  import opened Meta
  import opened Tally
  import opened Ops
  import opened RecordIndex

  // ---------------------------------------------------------------------
  // The record shapes of unparsed mode

  /** The four record shapes tested, in this order, around a match at `i`:
      `src src trg` with the match first, `src trg trg`, `src src trg` with
      the match second, and `src trg`. */
  datatype Shape = MatchSrcTrg | MatchTrgTrg | SrcMatchTrg | MatchTrg | NoShape

  /** The shape at `i`. Every test starts by reading line `i + 2`, so a
      match in the last two lines raises IndexError (None); line `i - 1` of
      a match on the first line is the last line of the list. */
  function ShapeAt(T: seq<string>, i: nat): (r: Option<Shape>)
    ensures r.None? <==> i + 2 >= |T|
    ensures r.Some? && r.value == MatchSrcTrg ==> IsRoleLine(T[i + 2], Trg) && IsRoleLine(T[i + 1], Src)
    ensures r.Some? && r.value == MatchTrgTrg ==> IsRoleLine(T[i + 2], Trg) && IsRoleLine(T[i + 1], Trg)
    ensures r.Some? && r.value == SrcMatchTrg ==> IsRoleLine(T[i + 1], Trg) && IsRoleLine(PyAt(T, i - 1), Src)
    ensures r.Some? && r.value == MatchTrg ==> IsRoleLine(T[i + 1], Trg) && IsRoleLine(T[i], Src)
  {
    if i + 2 >= |T| then None
    else if IsRoleLine(T[i + 2], Trg) && IsRoleLine(T[i + 1], Src) then Some(MatchSrcTrg)
    else if IsRoleLine(T[i + 2], Trg) && IsRoleLine(T[i + 1], Trg) then Some(MatchTrgTrg)
    else if IsRoleLine(T[i + 1], Trg) && IsRoleLine(PyAt(T, i - 1), Src) then Some(SrcMatchTrg)
    else if IsRoleLine(T[i + 1], Trg) && IsRoleLine(T[i], Src) then Some(MatchTrg)
    else Some(NoShape)
  }

  /** The shapes are tried in a fixed priority: a later shape is chosen
      only when every earlier one fails, and no shape only when all fail. */
  lemma ShapePriority(T: seq<string>, i: nat)
    requires i + 2 < |T|
    ensures var s := ShapeAt(T, i).value;
      var a := IsRoleLine(T[i + 2], Trg) && IsRoleLine(T[i + 1], Src);
      var b := IsRoleLine(T[i + 2], Trg) && IsRoleLine(T[i + 1], Trg);
      var c := IsRoleLine(T[i + 1], Trg) && IsRoleLine(PyAt(T, i - 1), Src);
      var d := IsRoleLine(T[i + 1], Trg) && IsRoleLine(T[i], Src);
      (s == MatchSrcTrg <==> a)
      && (s == MatchTrgTrg <==> !a && b)
      && (s == SrcMatchTrg <==> !a && !b && c)
      && (s == MatchTrg <==> !a && !b && !c && d)
      && (s == NoShape <==> !a && !b && !c && !d)
  {
  }

  /** `__get_mappings` for one match: the match line followed by the target
      lines of its shape. */
  function MappingAt(T: seq<string>, i: nat, s: Shape): seq<string>
    requires i + 2 < |T|
  {
    match s
    case MatchSrcTrg => [T[i], T[i + 2]]
    case MatchTrgTrg => [T[i]] + T[i + 1..i + 3]
    case SrcMatchTrg => [T[i], T[i + 1]]
    case MatchTrg => [T[i], T[i + 1]]
    case NoShape => [T[i]]
  }

  /** `__get_mappings()`: one combination per match; the query aborts when
      some match lies in the last two lines. */
  function GetMappings(T: seq<string>, indices: seq<nat>): (r: Option<seq<seq<string>>>)
    ensures r.None? <==> exists j :: 0 <= j < |indices| && indices[j] + 2 >= |T|
    ensures r.Some? ==> (|r.value| == |indices|
      && forall j :: 0 <= j < |indices| ==> r.value[j] == MappingAt(T, indices[j], ShapeAt(T, indices[j]).value))
    decreases |indices|
  {
    if |indices| == 0 then Some([])
    else
      var init := indices[..|indices| - 1];
      var i := indices[|indices| - 1];
      var rest := GetMappings(T, init);
      if rest.Some? && i + 2 < |T| then Some(rest.value + [MappingAt(T, i, ShapeAt(T, i).value)])
      else
        assert exists j :: 0 <= j < |indices| && indices[j] + 2 >= |T| by {
          if rest.None? {
            var j :| 0 <= j < |init| && init[j] + 2 >= |T|;
            assert indices[j] == init[j];
          }
        }
        None
  }

  /** Every combination of `__get_mappings` starts with its match line, and
      every other line of it is a target line; a match of no shape stands
      alone. */
  lemma MappingLines(T: seq<string>, i: nat)
    requires i + 2 < |T|
    ensures var m := MappingAt(T, i, ShapeAt(T, i).value);
      1 <= |m| <= 3 && m[0] == T[i]
      && (forall k :: 1 <= k < |m| ==> IsRoleLine(m[k], Trg))
      && (|m| == 1 <==> ShapeAt(T, i).value == NoShape)
  {
  }

  /** `__summarise_mappings` for one match: the slice of its shape, or
      nothing for a match of no shape. */
  function SummaryAt(T: seq<string>, i: nat, s: Shape): seq<seq<string>>
    requires i + 2 < |T|
  {
    match s
    case MatchSrcTrg => [T[i..i + 3]]
    case MatchTrgTrg => [T[i..i + 3]]
    case SrcMatchTrg => [PySlice(T, i - 1, i + 2)]
    case MatchTrg => [T[i..i + 2]]
    case NoShape => []
  }

  /** Each summarised combination is a run of consecutive lines holding the
      match; only for a match on the first line does the slice `[-1:2]`
      come out empty. */
  lemma SummaryLines(T: seq<string>, i: nat)
    requires i + 2 < |T|
    ensures var s := ShapeAt(T, i).value;
      var m := SummaryAt(T, i, s);
      (|m| == 0 <==> s == NoShape)
      && (|m| == 1 && (i > 0 || s != SrcMatchTrg) ==>
            exists a, b :: 0 <= a <= i < b <= |T| && 2 <= b - a <= 3 && m[0] == T[a..b])
      && (|m| == 1 && i == 0 && s == SrcMatchTrg ==> m[0] == [])
  {
    var s := ShapeAt(T, i).value;
    match s
    case MatchSrcTrg =>
    case MatchTrgTrg =>
    case SrcMatchTrg =>
      if i > 0 {
        assert SummaryAt(T, i, s)[0] == T[i - 1..i + 2];
      } else {
        assert SliceBound(-1, |T|) == |T| - 1;
      }
    case MatchTrg =>
    case NoShape =>
  }

  /** `__summarise_mappings()`: the combinations of the matches that have a
      shape, in order; the query aborts when some match lies in the last
      two lines. */
  function SummariseMappings(T: seq<string>, indices: seq<nat>): (r: Option<seq<seq<string>>>)
    ensures r.None? <==> exists j :: 0 <= j < |indices| && indices[j] + 2 >= |T|
    ensures r.Some? ==> |r.value| <= |indices|
    decreases |indices|
  {
    if |indices| == 0 then Some([])
    else
      var init := indices[..|indices| - 1];
      var i := indices[|indices| - 1];
      var rest := SummariseMappings(T, init);
      if rest.Some? && i + 2 < |T| then Some(rest.value + SummaryAt(T, i, ShapeAt(T, i).value))
      else
        assert exists j :: 0 <= j < |indices| && indices[j] + 2 >= |T| by {
          if rest.None? {
            var j :| 0 <= j < |init| && init[j] + 2 >= |T|;
            assert indices[j] == init[j];
          }
        }
        None
  }

  /** Number of matches that have a shape. */
  function Shaped(T: seq<string>, indices: seq<nat>): nat
    requires forall j :: 0 <= j < |indices| ==> indices[j] + 2 < |T|
    decreases |indices|
  {
    if |indices| == 0 then 0
    else
      var i := indices[|indices| - 1];
      Shaped(T, indices[..|indices| - 1]) + (if ShapeAt(T, i).value == NoShape then 0 else 1)
  }

  /** Summarising keeps exactly one combination per match that has a shape,
      where `__get_mappings` keeps one per match. */
  lemma {:induction false} SummaryCount(T: seq<string>, indices: seq<nat>)
    requires forall j :: 0 <= j < |indices| ==> indices[j] + 2 < |T|
    ensures SummariseMappings(T, indices).Some?
    ensures |SummariseMappings(T, indices).value| == Shaped(T, indices)
    decreases |indices|
  {
    if |indices| > 0 {
      SummaryCount(T, indices[..|indices| - 1]);
      SummaryLines(T, indices[|indices| - 1]);
    }
  }

  // ---------------------------------------------------------------------
  // Unparsed counting

  /** `__extract_lang(src)`: the lines of one side of each combination,
      joined with spaces. */
  function ExtractLang(combos: seq<seq<string>>, role: Role): (r: seq<string>)
    ensures |r| == |combos|
    ensures forall j :: 0 <= j < |r| ==> r[j] == Join(" ", FilterAlignment(combos[j], role))
  {
    seq(|combos|, j requires 0 <= j < |combos| => Join(" ", FilterAlignment(combos[j], role)))
  }

  /** For `__get_mappings` combinations of a `(src)` match, the source
      column is the match line itself and the target column joins the
      lines after it. */
  lemma MappingColumns(T: seq<string>, i: nat)
    requires i + 2 < |T| && IsRoleLine(T[i], Src)
    ensures var m := MappingAt(T, i, ShapeAt(T, i).value);
      Join(" ", FilterAlignment(m, Src)) == T[i]
      && Join(" ", FilterAlignment(m, Trg)) == Join(" ", m[1..])
  {
    MappingLines(T, i);
    SourceFirstColumns(MappingAt(T, i, ShapeAt(T, i).value));
  }

  /** A combination of a source line followed by target lines has that
      line as its source column and the rest, joined, as its target column. */
  lemma SourceFirstColumns(m: seq<string>)
    requires |m| >= 1 && IsRoleLine(m[0], Src)
    requires forall k :: 1 <= k < |m| ==> IsRoleLine(m[k], Trg)
    ensures Join(" ", FilterAlignment(m, Src)) == m[0]
    ensures Join(" ", FilterAlignment(m, Trg)) == Join(" ", m[1..])
  {
    assert !IsRoleLine(m[0], Trg) by {
      assert m[0][1] == 's';
    }
    forall k | 1 <= k < |m| ensures !IsRoleLine(m[k], Src) {
      assert m[k][1] == 't';
    }
    FilterOffFront(m, RoleLine(Src));
    FilterAll(m[1..], RoleLine(Trg));
    FilterNotFront(m, RoleLine(Trg));
  }

  /** Filtering a list whose head alone passes keeps only the head. */
  lemma FilterOffFront(m: seq<string>, p: string -> bool)
    requires |m| > 0 && p(m[0]) && forall k :: 1 <= k < |m| ==> !p(m[k])
    ensures Filter(m, p) == [m[0]]
    decreases |m|
  {
    if |m| > 1 {
      FilterOffFront(m[..|m| - 1], p);
    }
  }

  /** Filtering drops a failing head and then sees the tail. */
  lemma FilterNotFront(m: seq<string>, p: string -> bool)
    requires |m| > 0 && !p(m[0])
    ensures Filter(m, p) == Filter(m[1..], p)
  {
    FilterAppend([m[0]], m[1..], p);
    assert [m[0]] + m[1..] == m;
  }

  /** A (source, target) pair of cleaned texts. */
  datatype Pair = Pair(src: string, trg: string)

  /** `zip(matches_L1, matches_L2)` of lists of equal length. */
  function ZipPairs(l1: seq<string>, l2: seq<string>): (r: seq<Pair>)
    requires |l1| == |l2|
    ensures |r| == |l1|
  {
    seq(|l1|, j requires 0 <= j < |l1| => Pair(l1[j], l2[j]))
  }

  /** The cleaned (source, target) pairs of the combinations: both sides
      taken, tags removed, zipped. */
  function PairsOf(cs: seq<seq<string>>): (r: seq<Pair>)
    ensures |r| == |cs|
  {
    ZipPairs(RemoveAnnotation(ExtractLang(cs, Src)), RemoveAnnotation(ExtractLang(cs, Trg)))
  }

  /** `__process_counts_unparsed()` on the cleaned list `T` and the match
      positions: build the combinations, take both sides, remove the tags
      and count the pairs. */
  function CountsUnparsed(T: seq<string>, indices: seq<nat>, aggregate: bool): (r: Option<Counts<Pair>>)
    ensures r.None? <==> exists j :: 0 <= j < |indices| && indices[j] + 2 >= |T|
  {
    var combos := if aggregate then SummariseMappings(T, indices) else GetMappings(T, indices);
    match combos
    case None => None
    case Some(cs) => Some(CountsOf(PairsOf(cs)))
  }

  /** The counts add up to the number of combinations: one per match, or
      one per match of some shape when summarising. */
  lemma UnparsedTotal(T: seq<string>, indices: seq<nat>, aggregate: bool)
    requires forall j :: 0 <= j < |indices| ==> indices[j] + 2 < |T|
    ensures CountsUnparsed(T, indices, aggregate).Some?
    ensures var c := CountsUnparsed(T, indices, aggregate).value;
      Sum(Values(c)) == (if aggregate then Shaped(T, indices) else |indices|)
      && forall k :: k in c.count ==> c.count[k] >= 1
  {
    SummaryCount(T, indices);
    var cs := (if aggregate then SummariseMappings(T, indices) else GetMappings(T, indices)).value;
    CountsTotal(PairsOf(cs));
  }

  /** Without summarising, the source text of each counted pair is the
      match line with its tags removed. */
  lemma UnparsedSources(T: seq<string>, indices: seq<nat>, p: Pair)
    requires forall j :: 0 <= j < |indices| ==> indices[j] + 2 < |T| && IsRoleLine(T[indices[j]], Src)
    requires CountsUnparsed(T, indices, false).Some?
    requires p in CountsUnparsed(T, indices, false).value.count
    ensures exists j :: 0 <= j < |indices| && p.src == RemoveTags(T[indices[j]], AnyTag)
  {
    var ps := PairsOf(GetMappings(T, indices).value);
    var j := CountedAt(ps, p);
    MappingSource(T, indices, j);
  }

  /** A counted value occurs at some position of the counted list. */
  lemma CountedAt<X(!new)>(xs: seq<X>, x: X) returns (j: nat)
    requires x in CountsOf(xs).count
    ensures j < |xs| && xs[j] == x
  {
    j :| 0 <= j < |xs| && xs[j] == x;
  }

  /** The source text of pair `j` is match line `j` without its tags. */
  lemma MappingSource(T: seq<string>, indices: seq<nat>, j: nat)
    requires forall m :: 0 <= m < |indices| ==> indices[m] + 2 < |T| && IsRoleLine(T[indices[m]], Src)
    requires j < |indices|
    ensures GetMappings(T, indices).Some?
    ensures PairsOf(GetMappings(T, indices).value)[j].src == RemoveTags(T[indices[j]], AnyTag)
  {
    var cs := GetMappings(T, indices).value;
    PairSource(cs, j);
    assert cs[j] == MappingAt(T, indices[j], ShapeAt(T, indices[j]).value);
    MappingColumns(T, indices[j]);
  }

  /** The source text of a pair is the source side of its combination,
      joined and without tags. */
  lemma PairSource(cs: seq<seq<string>>, j: nat)
    requires j < |cs|
    ensures PairsOf(cs)[j].src == RemoveTags(Join(" ", FilterAlignment(cs[j], Src)), AnyTag)
  {
  }

  // ---------------------------------------------------------------------
  // Parsed mode: metadata of tag ids

  /** Every tag id of the given kind found in each element, in order. */
  function IdsOf(inner: seq<string>, kind: TagKind): seq<string>
    decreases |inner|
  {
    if |inner| == 0 then [] else IdsOf(inner[..|inner| - 1], kind) + FindTags(inner[|inner| - 1], kind)
  }

  /** The token, POS and lemma lists of a run of tag ids, one list per id. */
  datatype Meta3 = Meta3(tok: seq<seq<string>>, pos: seq<seq<string>>, lem: seq<seq<string>>)

  function Meta3Append(a: Meta3, b: Meta3): Meta3 {
    Meta3(a.tok + b.tok, a.pos + b.pos, a.lem + b.lem)
  }

  const NoMeta := Meta3([], [], [])

  /** `m` holds, for each id in turn, the token, POS and lemma list stored
      under it. */
  predicate LookedUp(lines: LineTable, ids: seq<string>, m: Meta3) {
    |m.tok| == |ids| && |m.pos| == |ids| && |m.lem| == |ids|
    && forall k :: 0 <= k < |ids| ==>
         (ids[k] in lines && m.tok[k] == lines[ids[k]].tokens
          && m.pos[k] == lines[ids[k]].pos && m.lem[k] == lines[ids[k]].lemmas)
  }

  /** `__extract_metadata(lines, pattern, inner, key)` for the three keys
      "string", "POS" and "lemma" at once: for every element, for every tag
      id `findall` finds in it, `lines[id][key]`; a missing id raises
      KeyError (None). The nested loop visits the ids in the order `IdsOf`
      lists them, so it is one lookup of that run. */
  function ExtractMetadata(lines: LineTable, kind: TagKind, inner: seq<string>): (r: Option<Meta3>)
    ensures r.Some? <==> AllListed(lines, IdsOf(inner, kind))
    ensures r.Some? ==> LookedUp(lines, IdsOf(inner, kind), r.value)
  {
    var ids := IdsOf(inner, kind);
    LookupAll(lines, ids)
  }

  /** Every id of the run has an entry in the line table. */
  predicate AllListed(lines: LineTable, ids: seq<string>) {
    forall k :: 0 <= k < |ids| ==> ids[k] in lines
  }

  /** The metadata of one run of tag ids. */
  function LookupAll(lines: LineTable, ids: seq<string>): (r: Option<Meta3>)
    ensures r.Some? <==> AllListed(lines, ids)
    ensures r.Some? ==> LookedUp(lines, ids, r.value)
  {
    if !AllListed(lines, ids) then None
    else Some(Meta3(seq(|ids|, k requires 0 <= k < |ids| => lines[ids[k]].tokens),
                    seq(|ids|, k requires 0 <= k < |ids| => lines[ids[k]].pos),
                    seq(|ids|, k requires 0 <= k < |ids| => lines[ids[k]].lemmas)))
  }

  /** `findall` on a tag alone finds that tag. */
  lemma {:induction false} FindTagsOfTag(t: string, kind: TagKind)
    requires TagLen(t, kind) == Some(|t|)
    ensures FindTags(t, kind) == [t]
  {
    assert t[..|t|] == t;
    assert t[|t|..] == "";
  }

  /** The tags `findall` finds in an alignment key, looked up one by one
      again, are the same tags in the same order. */
  lemma {:induction false} IdsOfTags(inner: seq<string>, kind: TagKind)
    requires forall j :: 0 <= j < |inner| ==> TagLen(inner[j], kind) == Some(|inner[j]|)
    ensures IdsOf(inner, kind) == inner
    decreases |inner|
  {
    if |inner| > 0 {
      IdsOfTags(inner[..|inner| - 1], kind);
      FindTagsOfTag(inner[|inner| - 1], kind);
      assert inner[..|inner| - 1] + [inner[|inner| - 1]] == inner;
    }
  }

  /** Extracting from the tags found in a key looks up exactly those tags,
      in key order. */
  lemma KeyMetadata(key: string, kind: TagKind)
    ensures IdsOf(FindTags(key, kind), kind) == FindTags(key, kind)
  {
    IdsOfTags(FindTags(key, kind), kind);
  }

  // ---------------------------------------------------------------------
  // Parsed mode: one match

  /** What the loop over the alignments of a match gathers: the target
      metadata of every alignment holding the match's id, concatenated; in
      summarising mode one source metadata entry per such alignment; else
      the match line's own metadata once per such alignment. */
  datatype Gathered = Gathered(trg: Meta3, srcAll: seq<Meta3>, single: TokenMeta)

  const NothingGathered := Gathered(NoMeta, [], TokenMeta([], [], []))

  /** The loop body for one alignment `key` with line table `lines`: an
      alignment whose key does not contain the match id `mid` (a substring
      test) contributes nothing. */
  function AlignmentStep(acc: Gathered, lines: LineTable, key: string, mid: string, aggregate: bool): (r: Option<Gathered>)
    ensures !Contains(key, mid) ==> r == Some(acc)
    ensures r.Some? && Contains(key, mid) && aggregate ==> |r.value.srcAll| == |acc.srcAll| + 1
    ensures r.Some? && !aggregate ==> r.value.srcAll == acc.srcAll
  {
    if !Contains(key, mid) then Some(acc)
    else match ExtractMetadata(lines, RoleTag(Trg), FindTags(key, RoleTag(Trg)))
      case None => None
      case Some(t) =>
        var acc1 := acc.(trg := Meta3Append(acc.trg, t));
        if aggregate then
          match ExtractMetadata(lines, RoleTag(Src), FindTags(key, RoleTag(Src)))
          case None => None
          case Some(sm) => Some(acc1.(srcAll := acc.srcAll + [sm]))
        else if mid in lines then
          var own := lines[mid];
          Some(acc1.(single := TokenMeta(acc.single.tokens + own.tokens, acc.single.pos + own.pos,
                                         acc.single.lemmas + own.lemmas)))
        else None
  }

  /** Number of the alignment keys that contain `mid`. */
  function Hits(keys: seq<string>, mid: string): nat
    decreases |keys|
  {
    if |keys| == 0 then 0
    else Hits(keys[..|keys| - 1], mid) + (if Contains(keys[|keys| - 1], mid) then 1 else 0)
  }

  /** The loop over the alignment keys `keys`, in dict order. */
  function Gather(al: Alignments, keys: seq<string>, mid: string, aggregate: bool): (r: Option<Gathered>)
    ensures r.Some? && aggregate ==> |r.value.srcAll| == Hits(keys, mid)
    ensures r.Some? && !aggregate ==> r.value.srcAll == []
    decreases |keys|
  {
    if |keys| == 0 then Some(NothingGathered)
    else
      var key := keys[|keys| - 1];
      match Gather(al, keys[..|keys| - 1], mid, aggregate)
      case None => None
      case Some(acc) => AlignmentStep(acc, TableOf(al, key), key, mid, aggregate)
  }

  /** Alignments whose keys do not contain the match id contribute nothing:
      a match without any such alignment gathers empty lists. */
  lemma {:induction false} NoHitsNothing(al: Alignments, keys: seq<string>, mid: string, aggregate: bool)
    requires forall j :: 0 <= j < |keys| ==> !Contains(keys[j], mid)
    ensures Gather(al, keys, mid, aggregate) == Some(NothingGathered)
    decreases |keys|
  {
    if |keys| > 0 {
      NoHitsNothing(al, keys[..|keys| - 1], mid, aggregate);
    }
  }

  /** The loop over `match_data.items()` for one match. The id is searched
      in the match inside the loop, so a match without a `(src)` tag
      raises AttributeError only when its file has alignments. */
  function GatherMatch(al: Alignments, match_: string, aggregate: bool): (r: Option<Gathered>)
  {
    if |al.order| == 0 then Some(NothingGathered)
    else match FirstTag(match_, RoleTag(Src))
      case None => None
      case Some(mid) => Gather(al, al.order, mid, aggregate)
  }

  // ---------------------------------------------------------------------
  // Parsed mode: all matches

  /** One value of `__final_src_single` (the match line's own metadata) or
      of `__final_src_all` (the metadata of every source line aligned with
      the match). */
  datatype StatsEntry =
    | Single(match_: string, target: string,
             posSrc: seq<string>, lemmaSrc: seq<string>, tokenSrc: seq<string>,
             posTrg: seq<seq<string>>, lemmaTrg: seq<seq<string>>, tokenTrg: seq<seq<string>>)
    | Aggregated(match_: string, target: string,
                 posSrcAll: seq<seq<seq<string>>>, lemmaSrcAll: seq<seq<seq<string>>>, tokenSrcAll: seq<seq<seq<string>>>,
                 posTrg: seq<seq<string>>, lemmaTrg: seq<seq<string>>, tokenTrg: seq<seq<string>>)

  /** `' '.join(' '.join(sub) for sub in lists)`: the words of every list,
      the lists separated by one space as well. */
  function JoinAll(lists: seq<seq<string>>): string
    decreases |lists|
  {
    if |lists| == 0 then ""
    else if |lists| == 1 then Join(" ", lists[0])
    else JoinAll(lists[..|lists| - 1]) + " " + Join(" ", lists[|lists| - 1])
  }

  /** The token lists of each metadata triple. */
  function Toks(ms: seq<Meta3>): (r: seq<seq<seq<string>>>)
    ensures |r| == |ms|
    decreases |ms|
  {
    if |ms| == 0 then [] else Toks(ms[..|ms| - 1]) + [ms[|ms| - 1].tok]
  }

  /** The POS lists of each metadata triple. */
  function PosOf(ms: seq<Meta3>): (r: seq<seq<seq<string>>>)
    ensures |r| == |ms|
    decreases |ms|
  {
    if |ms| == 0 then [] else PosOf(ms[..|ms| - 1]) + [ms[|ms| - 1].pos]
  }

  /** The lemma lists of each metadata triple. */
  function LemOf(ms: seq<Meta3>): (r: seq<seq<seq<string>>>)
    ensures |r| == |ms|
    decreases |ms|
  {
    if |ms| == 0 then [] else LemOf(ms[..|ms| - 1]) + [ms[|ms| - 1].lem]
  }

  /** The state of `__process_counts` after some matches: the entries, the
      `__sets_files` list and the global `__matches_src_all` list. */
  datatype Processed = Processed(entries: seq<StatsEntry>, setsFiles: seq<seq<string>>, srcAll: seq<seq<seq<string>>>)

  /** What the alignments of each match's file give for it: the gathering
      of one match does not depend on earlier matches. */
  function Gathers(ix: ParsedIndex, matches: seq<string>, files: seq<string>, aggregate: bool): (gs: seq<Option<Gathered>>)
    requires |matches| <= |files|
    ensures |gs| == |matches|
  {
    seq(|matches|, i requires 0 <= i < |matches| => GatherMatch(FileLevel(ix, files[i]), matches[i], aggregate))
  }

  /** The loop body of `__process_counts()` for match `i`, its file id
      `file`, its text without `(src)` tags `clean`, and what gathering gave
      for it `g`: append `[file]` to
      `__sets_files` and build the entry. In summarising mode the entry
      reads `__matches_src_all[i]`, a list that grows by one element per
      matching alignment, not per match; an index past its end raises
      IndexError (None). */
  function ProcessOne(prev: Processed, g: Option<Gathered>, file: string, clean: string, aggregate: bool, i: nat): (r: Option<Processed>)
    ensures r.None? <==> g.None? || (aggregate && i >= |prev.srcAll| + |g.value.srcAll|)
    ensures r.Some? ==> (|r.value.entries| == |prev.entries| + 1
      && r.value.entries == prev.entries + [r.value.entries[|prev.entries|]]
      && r.value.setsFiles == prev.setsFiles + [[file]]
      && r.value.srcAll == prev.srcAll + Toks(g.value.srcAll))
    ensures r.Some? && !aggregate ==> (r.value.entries[|prev.entries|].Single?
      && r.value.entries[|prev.entries|].match_ == clean)
    ensures r.Some? && aggregate ==> (r.value.entries[|prev.entries|].Aggregated?
      && i < |r.value.srcAll| && r.value.entries[|prev.entries|].match_ == JoinAll(r.value.srcAll[i]))
  {
    match g
    case None => None
    case Some(g) =>
      var srcAll := prev.srcAll + Toks(g.srcAll);
      var sets := prev.setsFiles + [[file]];
      if !aggregate then
        var e := Single(clean, JoinAll(g.trg.tok),
                        g.single.pos, g.single.lemmas, g.single.tokens, g.trg.pos, g.trg.lem, g.trg.tok);
        Some(Processed(prev.entries + [e], sets, srcAll))
      else if i < |srcAll| then
        var e := Aggregated(JoinAll(srcAll[i]), JoinAll(g.trg.tok),
                            PosOf(g.srcAll), LemOf(g.srcAll), Toks(g.srcAll), g.trg.pos, g.trg.lem, g.trg.tok);
        Some(Processed(prev.entries + [e], sets, srcAll))
      else None
  }

  /** The loop of `__process_counts()` over the first `n` matches, given
      what gathering gave for each and each match without its tags. */
  function Fold(gs: seq<Option<Gathered>>, cleans: seq<string>, files: seq<string>, aggregate: bool, n: nat): (r: Option<Processed>)
    requires n <= |gs| == |cleans| <= |files|
    ensures r.Some? ==> (|r.value.entries| == n && |r.value.setsFiles| == n
      && (forall i :: 0 <= i < n ==> r.value.setsFiles[i] == [files[i]])
      && (forall i :: 0 <= i < n ==> (r.value.entries[i].Single? <==> !aggregate)))
    decreases n
  {
    if n == 0 then Some(Processed([], [], []))
    else
      match Fold(gs, cleans, files, aggregate, n - 1)
      case None => None
      case Some(prev) => ProcessOne(prev, gs[n - 1], files[n - 1], cleans[n - 1], aggregate, n - 1)
  }

  /** Each match with its `(src)` tags removed. */
  function Cleaned(matches: seq<string>): (cs: seq<string>)
    ensures |cs| == |matches|
  {
    seq(|matches|, i requires 0 <= i < |matches| => RemoveTags(matches[i], RoleTag(Src)))
  }

  /** `__process_counts()` over the first `n` matches. */
  function ProcessCounts(ix: ParsedIndex, matches: seq<string>, files: seq<string>, aggregate: bool, n: nat): (r: Option<Processed>)
    requires n <= |matches| <= |files|
    ensures r.Some? ==> (|r.value.entries| == n && |r.value.setsFiles| == n
      && (forall i :: 0 <= i < n ==> r.value.setsFiles[i] == [files[i]])
      && (forall i :: 0 <= i < n ==> (r.value.entries[i].Single? <==> !aggregate)))
  {
    Fold(Gathers(ix, matches, files, aggregate), Cleaned(matches), files, aggregate, n)
  }

  /** Without summarising, the fold fails exactly when gathering failed
      for some match. */
  lemma {:induction false} FoldFails(gs: seq<Option<Gathered>>, cleans: seq<string>, files: seq<string>, n: nat)
    requires n <= |gs| == |cleans| <= |files|
    ensures Fold(gs, cleans, files, false, n).None? <==> exists i :: 0 <= i < n && gs[i].None?
    decreases n
  {
    if n > 0 {
      FoldFails(gs, cleans, files, n - 1);
      var prev := Fold(gs, cleans, files, false, n - 1);
      if prev.None? {
        var i :| 0 <= i < n - 1 && gs[i].None?;
        assert Fold(gs, cleans, files, false, n).None?;
      } else {
        var r := ProcessOne(prev.value, gs[n - 1], files[n - 1], cleans[n - 1], false, n - 1);
        assert Fold(gs, cleans, files, false, n) == r;
        assert r.None? <==> gs[n - 1].None?;
      }
    }
  }

  /** Without summarising, entry `i` holds match `i` without its tags. */
  lemma {:induction false} FoldSingleEntries(gs: seq<Option<Gathered>>, cleans: seq<string>, files: seq<string>, n: nat)
    requires n <= |gs| == |cleans| <= |files|
    ensures Fold(gs, cleans, files, false, n).Some? ==>
      forall i :: 0 <= i < n ==>
        Fold(gs, cleans, files, false, n).value.entries[i].match_ == cleans[i]
    decreases n
  {
    if n > 0 {
      FoldSingleEntries(gs, cleans, files, n - 1);
      var prev := Fold(gs, cleans, files, false, n - 1);
      if prev.Some? && Fold(gs, cleans, files, false, n).Some? {
        var e := Fold(gs, cleans, files, false, n).value.entries;
        forall i | 0 <= i < n - 1 ensures e[i] == prev.value.entries[i] {
          assert e == prev.value.entries + [e[n - 1]];
        }
      }
    }
  }

  /** Summarising, `__matches_src_all` only grows, so the entry of match
      `i` shows item `i` of the final list. */
  lemma {:induction false} FoldReadsSrcAll(gs: seq<Option<Gathered>>, cleans: seq<string>, files: seq<string>, n: nat)
    requires n <= |gs| == |cleans| <= |files|
    ensures var r := Fold(gs, cleans, files, true, n);
      r.Some? ==> (n <= |r.value.srcAll|
        && forall i :: 0 <= i < n ==> r.value.entries[i].match_ == JoinAll(r.value.srcAll[i]))
    decreases n
  {
    if n > 0 && Fold(gs, cleans, files, true, n).Some? {
      FoldReadsSrcAll(gs, cleans, files, n - 1);
      var prev := Fold(gs, cleans, files, true, n - 1).value;
      var v := ProcessOne(prev, gs[n - 1], files[n - 1], cleans[n - 1], true, n - 1).value;
      assert Fold(gs, cleans, files, true, n).value == v;
      assert v.entries == prev.entries + [v.entries[n - 1]];
      forall i | 0 <= i < n - 1 ensures v.entries[i].match_ == JoinAll(v.srcAll[i]) {
        assert v.entries[i] == prev.entries[i];
        assert v.srcAll[i] == prev.srcAll[i];
      }
    }
  }

  /** Every one of the first `n` matches gathered exactly one source entry. */
  predicate OneHitEach(gs: seq<Option<Gathered>>, n: nat) {
    n <= |gs| && forall i :: 0 <= i < n ==> gs[i].Some? && |gs[i].value.srcAll| == 1
  }

  /** The source tokens of the one entry of each of the first `n` matches. */
  function FirstToks(gs: seq<Option<Gathered>>, n: nat): (r: seq<seq<seq<string>>>)
    requires OneHitEach(gs, n)
    ensures |r| == n
    decreases n
  {
    if n == 0 then [] else FirstToks(gs, n - 1) + [gs[n - 1].value.srcAll[0].tok]
  }

  /** Item `i` of `FirstToks` belongs to match `i`. */
  lemma {:induction false} FirstToksAt(gs: seq<Option<Gathered>>, n: nat, i: nat)
    requires OneHitEach(gs, n) && i < n
    ensures FirstToks(gs, n)[i] == gs[i].value.srcAll[0].tok
    decreases n
  {
    if i < n - 1 {
      FirstToksAt(gs, n - 1, i);
    }
  }

  /** Summarising, when gathering gave exactly one source entry for every
      match, `__matches_src_all` holds one item per match, in match order. */
  lemma {:induction false} FoldAligned(gs: seq<Option<Gathered>>, cleans: seq<string>, files: seq<string>, n: nat)
    requires n <= |gs| == |cleans| <= |files|
    requires OneHitEach(gs, n)
    ensures Fold(gs, cleans, files, true, n).Some?
    ensures Fold(gs, cleans, files, true, n).value.srcAll == FirstToks(gs, n)
    decreases n
  {
    if n > 0 {
      FoldAligned(gs, cleans, files, n - 1);
      var prev := Fold(gs, cleans, files, true, n - 1).value;
      var g := gs[n - 1].value;
      assert g.srcAll[..0] == [];
      assert Toks(g.srcAll) == [g.srcAll[0].tok];
      var r := ProcessOne(prev, gs[n - 1], files[n - 1], cleans[n - 1], true, n - 1);
      assert Fold(gs, cleans, files, true, n) == r;
      assert n - 1 < |prev.srcAll| + |g.srcAll|;
    }
  }

  /** Gathering fails for match `i`: its file has alignments but the
      match holds no `(src)` tag. */
  predicate GatherFailsAt(ix: ParsedIndex, matches: seq<string>, files: seq<string>, i: nat)
    requires i < |matches| <= |files|
  {
    GatherMatch(FileLevel(ix, files[i]), matches[i], false).None?
  }

  /** Without summarising, processing fails exactly when gathering fails
      for some match. */
  lemma SingleFails(ix: ParsedIndex, matches: seq<string>, files: seq<string>, n: nat)
    requires n <= |matches| <= |files|
    ensures ProcessCounts(ix, matches, files, false, n).None? <==>
      exists i :: 0 <= i < n && GatherFailsAt(ix, matches, files, i)
  {
    var gs := Gathers(ix, matches, files, false);
    FoldFails(gs, Cleaned(matches), files, n);
    assert forall i :: 0 <= i < n ==> (gs[i].None? <==> GatherFailsAt(ix, matches, files, i));
  }

  /** Without summarising, each entry's match is the match line with its
      `(src)` tags removed. */
  lemma SingleEntries(ix: ParsedIndex, matches: seq<string>, files: seq<string>, n: nat)
    requires n <= |matches| <= |files|
    ensures ProcessCounts(ix, matches, files, false, n).Some? ==>
      forall i :: 0 <= i < n ==>
        ProcessCounts(ix, matches, files, false, n).value.entries[i].match_ == RemoveTags(matches[i], RoleTag(Src))
  {
    var cs := Cleaned(matches);
    FoldSingleEntries(Gathers(ix, matches, files, false), cs, files, n);
    assert forall i :: 0 <= i < n ==> cs[i] == RemoveTags(matches[i], RoleTag(Src));
  }

  /** Summarising, match `i` has exactly one alignment holding its id. */
  predicate OneHitAt(ix: ParsedIndex, matches: seq<string>, files: seq<string>, i: nat)
    requires i < |matches| <= |files|
  {
    var g := GatherMatch(FileLevel(ix, files[i]), matches[i], true);
    g.Some? && |g.value.srcAll| == 1
  }

  /** The source tokens gathered for match `i` from its one alignment. */
  function HitTokens(ix: ParsedIndex, matches: seq<string>, files: seq<string>, i: nat): seq<seq<string>>
    requires i < |matches| <= |files| && OneHitAt(ix, matches, files, i)
  {
    GatherMatch(FileLevel(ix, files[i]), matches[i], true).value.srcAll[0].tok
  }

  /** When every match has exactly one alignment holding its id, the
      global list `__matches_src_all` grows by one per match, so the entry
      of match `i` reads the source tokens gathered for match `i`. */
  lemma AggregateAligned(ix: ParsedIndex, matches: seq<string>, files: seq<string>, n: nat)
    requires n <= |matches| <= |files|
    requires forall i :: 0 <= i < n ==> OneHitAt(ix, matches, files, i)
    ensures ProcessCounts(ix, matches, files, true, n).Some?
    ensures var r := ProcessCounts(ix, matches, files, true, n).value;
      |r.srcAll| == n
      && (forall i :: 0 <= i < n ==> r.srcAll[i] == HitTokens(ix, matches, files, i))
      && (forall i :: 0 <= i < n ==> r.entries[i].match_ == JoinAll(HitTokens(ix, matches, files, i)))
  {
    var gs := Gathers(ix, matches, files, true);
    forall i | 0 <= i < n ensures gs[i].Some? && |gs[i].value.srcAll| == 1 {
      assert OneHitAt(ix, matches, files, i);
    }
    FoldAligned(gs, Cleaned(matches), files, n);
    FoldReadsSrcAll(gs, Cleaned(matches), files, n);
    forall i | 0 <= i < n ensures FirstToks(gs, n)[i] == HitTokens(ix, matches, files, i) {
      FirstToksAt(gs, n, i);
    }
  }

  /** `get_counts()` in parsed mode: the number of entries, one per match. */
  function ParsedCount(ix: ParsedIndex, matches: seq<string>, files: seq<string>, aggregate: bool): (r: Option<nat>)
    requires |matches| <= |files|
    ensures r.Some? ==> r.value == |matches|
  {
    match ProcessCounts(ix, matches, files, aggregate, |matches|)
    case None => None
    case Some(p) => Some(|p.entries|)
  }

  /** `get_counts()` in unparsed mode: the number of distinct pairs, at
      most the number of matches. */
  function UnparsedCount(T: seq<string>, indices: seq<nat>, aggregate: bool): (r: Option<nat>)
    ensures r.None? <==> exists j :: 0 <= j < |indices| && indices[j] + 2 >= |T|
    ensures var combos := if aggregate then SummariseMappings(T, indices) else GetMappings(T, indices);
      r.Some? ==> combos.Some? && r.value == |set x | x in PairsOf(combos.value)|
    ensures r.Some? ==> r.value <= |indices|
  {
    match CountsUnparsed(T, indices, aggregate)
    case None => None
    case Some(c) =>
      var cs := (if aggregate then SummariseMappings(T, indices) else GetMappings(T, indices)).value;
      assert c == CountsOf(PairsOf(cs));
      DistinctSize(PairsOf(cs));
      Some(|c.keys|)
  }
}

=== FILE: corpus.dfy ===
/** Line classification and loading of an aligned corpus file.

    A corpus is a sequence of lines. Source lines start with a tag
    `(src)="N">`, target lines with `(trg)="N">`, comment lines with `#`
    (file provenance) and separator lines with `=` (record boundary).
    Tokens may carry `_#POS_#lemma` annotations. */
module Corpus {
  import opened Base
  import opened Text

  datatype Role = Src | Trg

  function RoleName(role: Role): string {
    match role
    case Src => "src"
    case Trg => "trg"
  }

  /** The line prefix `(src)` or `(trg)` tested with `startswith`. */
  function RolePrefix(role: Role): string {
    "(" + RoleName(role) + ")"
  }

  /** `line.startswith("(src)")` / `line.startswith("(trg)")` */
  predicate IsRoleLine(line: string, role: Role) {
    StartsWith(line, RolePrefix(role))
  }

  predicate IsSeparator(line: string) {
    StartsWith(line, "=")
  }

  predicate IsComment(line: string) {
    StartsWith(line, "#")
  }

  predicate IsLower(c: char) {
    'a' <= c <= 'z'
  }

  predicate IsDigit(c: char) {
    '0' <= c <= '9'
  }

  /** Length of the run of ASCII digits at the start of `s`. */
  function DigitRun(s: string): (n: nat)
    ensures n <= |s|
    ensures forall i :: 0 <= i < n ==> IsDigit(s[i])
    ensures n < |s| ==> !IsDigit(s[n])
    decreases |s|
  {
    if |s| > 0 && IsDigit(s[0]) then 1 + DigitRun(s[1..]) else 0
  }

  /** Which tags a pattern accepts: `\([a-z]{3}\)="[0-9]+">` accepts any
      three-letter name, `\(src\)="[0-9]+">` only one role. */
  datatype TagKind = AnyTag | RoleTag(role: Role)

  predicate NameAccepted(name: string, kind: TagKind) {
    match kind
    case AnyTag => true
    case RoleTag(role) => name == RoleName(role)
  }

  /** Length of the tag `(xyz)="<digits>">` of the given kind at the start of
      `s`, if there is one. The digit run is maximal, which is the only way
      the pattern can be followed by `">`. */
  function TagLen(s: string, kind: TagKind): (r: Option<nat>)
    ensures r.Some? ==> 10 <= r.value <= |s|
    ensures r.Some? ==> (s[0] == '(' && s[4] == ')' && s[5] == '=' && s[6] == '"'
                         && s[r.value - 2] == '"' && s[r.value - 1] == '>'
                         && NameAccepted(s[1..4], kind)
                         && forall i :: 7 <= i < r.value - 2 ==> IsDigit(s[i]))
  {
    if 7 <= |s| && s[0] == '(' && IsLower(s[1]) && IsLower(s[2]) && IsLower(s[3])
       && s[4] == ')' && s[5] == '=' && s[6] == '"' && NameAccepted(s[1..4], kind)
    then
      var d := DigitRun(s[7..]);
      if d > 0 && 7 + d + 2 <= |s| && s[7 + d] == '"' && s[7 + d + 1] == '>'
      then Some(7 + d + 2) else None
    else None
  }

  /** `re.compile(role_pattern).match(line)`: the line starts with its role tag. */
  predicate HasRoleTag(line: string, role: Role) {
    TagLen(line, RoleTag(role)).Some?
  }

  /** A line that starts with a role tag starts with the role prefix. */
  lemma RoleTagIsRoleLine(line: string, role: Role)
    requires HasRoleTag(line, role)
    ensures IsRoleLine(line, role)
    ensures !IsSeparator(line) && !IsComment(line)
  {
    var n := TagLen(line, RoleTag(role)).value;
    assert line[..5] == RolePrefix(role);
  }

  /** No tag of the given kind starts anywhere in `s`. */
  predicate NoTags(s: string, kind: TagKind) {
    forall i :: 0 <= i < |s| ==> TagLen(s[i..], kind).None?
  }

  /** `re.sub(tag_pattern, "", s)`: delete, scanning left to right, every tag
      of the given kind. */
  function RemoveTags(s: string, kind: TagKind): (r: string)
    ensures |r| <= |s|
    ensures NoTags(s, kind) ==> r == s
    decreases |s|
  {
    if |s| == 0 then ""
    else match TagLen(s, kind)
      case Some(n) =>
        assert !NoTags(s, kind) by { assert s[0..] == s; }
        RemoveTags(s[n..], kind)
      case None =>
        assert NoTags(s, kind) ==> NoTags(s[1..], kind) by {
          if NoTags(s, kind) {
            forall i | 0 <= i < |s| - 1 ensures TagLen(s[1..][i..], kind).None? {
              assert s[1..][i..] == s[i + 1..];
            }
          }
        }
        [s[0]] + RemoveTags(s[1..], kind)
  }

  /** `re.findall(tag_pattern, s)`: every tag of the given kind, in order. */
  function FindTags(s: string, kind: TagKind): (r: seq<string>)
    ensures forall j :: 0 <= j < |r| ==> TagLen(r[j], kind) == Some(|r[j]|)
    decreases |s|
  {
    if |s| == 0 then []
    else match TagLen(s, kind)
      case Some(n) =>
        TagPrefix(s, n, kind);
        [s[..n]] + FindTags(s[n..], kind)
      case None => FindTags(s[1..], kind)
  }

  /** A tag read at the start of `s` is also read from the tag text alone. */
  lemma TagPrefix(s: string, n: nat, kind: TagKind)
    requires TagLen(s, kind) == Some(n)
    ensures TagLen(s[..n], kind) == Some(n)
  {
    var t := s[..n];
    var d := DigitRun(s[7..]);
    assert t[7..][..d] == s[7..][..d];
    DigitRunPrefix(s[7..], d, n - 7);
    assert t[7..] == s[7..][..n - 7];
  }

  lemma DigitRunPrefix(s: string, d: nat, m: nat)
    requires d == DigitRun(s) && d < m <= |s|
    ensures DigitRun(s[..m]) == d
    decreases d
  {
    if d > 0 {
      assert s[..m][1..] == s[1..][..m - 1];
      DigitRunPrefix(s[1..], d - 1, m - 1);
    }
  }

  /** `re.search(tag_pattern, s)` started at position `i`: position and
      length of the first tag of the given kind at or after `i`. */
  function FindTagFrom(s: string, kind: TagKind, i: nat): (r: Option<(nat, nat)>)
    requires i <= |s|
    ensures r.Some? ==> (i <= r.value.0 && r.value.0 + r.value.1 <= |s|
                         && TagLen(s[r.value.0..], kind) == Some(r.value.1)
                         && forall k :: i <= k < r.value.0 ==> TagLen(s[k..], kind).None?)
    ensures r.None? ==> forall k :: i <= k < |s| ==> TagLen(s[k..], kind).None?
    decreases |s| - i
  {
    if i == |s| then None
    else match TagLen(s[i..], kind)
      case Some(n) => Some((i, n))
      case None => FindTagFrom(s, kind, i + 1)
  }

  /** The tag text found by `re.search(...).group()`. */
  function FirstTag(s: string, kind: TagKind): (r: Option<string>)
    ensures r.Some? ==> TagLen(r.value, kind) == Some(|r.value|)
    ensures r.None? <==> NoTags(s, kind)
  {
    var f := FindTagFrom(s, kind, 0);
    if f.None? then None
    else
      var p := f.value.0;
      var n := f.value.1;
      TagPrefix(s[p..], n, kind);
      assert s[p..][..n] == s[p..p + n];
      assert !NoTags(s, kind) by { assert TagLen(s[p..], kind).Some?; }
      Some(s[p..p + n])
  }

  /** Removing tags from a line that starts with a tag and carries no other
      tag leaves exactly the text after the leading tag. */
  lemma RemoveLeadingTag(s: string, kind: TagKind, n: nat)
    requires TagLen(s, kind) == Some(n)
    requires NoTags(s[n..], kind)
    ensures RemoveTags(s, kind) == s[n..]
  {
  }

  /** `^# [a-z]{2}/\d+/\d+/\d+\.xml\.gz$`: a provenance comment naming one
      document of the corpus (`$` also accepts one final newline). */
  predicate IsFileComment(s: string) {
    5 <= |s| && s[0] == '#' && s[1] == ' ' && IsLower(s[2]) && IsLower(s[3]) && s[4] == '/'
    && var d1 := DigitRun(s[5..]);
    d1 > 0 && 5 + d1 < |s| && s[5 + d1] == '/'
    && var p2 := 5 + d1 + 1;
    var d2 := DigitRun(s[p2..]);
    d2 > 0 && p2 + d2 < |s| && s[p2 + d2] == '/'
    && var p3 := p2 + d2 + 1;
    var d3 := DigitRun(s[p3..]);
    d3 > 0 && (s[p3 + d3..] == ".xml.gz" || s[p3 + d3..] == ".xml.gz\n")
  }

  lemma FileCommentIsComment(s: string)
    requires IsFileComment(s)
    ensures IsComment(s) && !IsSeparator(s)
  {
    assert s[..1] == "#";
  }

  // ---------------------------------------------------------------------
  // Loading

  /** Length of the first line of `text`, its terminating newline included. */
  function LineLen(text: string): (k: nat)
    ensures k <= |text|
    ensures |text| > 0 ==> k > 0
    ensures forall i :: 0 <= i < k - 1 ==> text[i] != '\n'
    ensures 0 < k < |text| ==> text[k - 1] == '\n'
    ensures k == |text| && k > 0 && text[k - 1] != '\n' ==> forall i :: 0 <= i < k ==> text[i] != '\n'
    decreases |text|
  {
    if |text| == 0 then 0
    else if text[0] == '\n' then 1
    else 1 + LineLen(text[1..])
  }

  /** A raw line as iteration over a text file yields it: non-empty, with a
      newline at most as its last character. */
  predicate RawLine(line: string) {
    |line| > 0 && forall i :: 0 <= i < |line| - 1 ==> line[i] != '\n'
  }

  /** `for line in file`: the lines of `text`, each keeping its newline. */
  function ReadLines(text: string): (lines: seq<string>)
    ensures forall j :: 0 <= j < |lines| ==> RawLine(lines[j])
    ensures forall j :: 0 <= j < |lines| - 1 ==> |lines[j]| > 0 && lines[j][|lines[j]| - 1] == '\n'
    decreases |text|
  {
    if |text| == 0 then []
    else
      var k := LineLen(text);
      [text[..k]] + ReadLines(text[k..])
  }

  /** Reading the lines of a file loses nothing: they concatenate back to
      the file's text. */
  lemma {:induction false} ReadLinesConcat(text: string)
    ensures Concat(ReadLines(text)) == text
    decreases |text|
  {
    if |text| > 0 {
      var k := LineLen(text);
      ReadLinesConcat(text[k..]);
      ConcatCons(text[..k], ReadLines(text[k..]));
      assert text[..k] + text[k..] == text;
    }
  }

  /** Length of the run of non-blank characters (`[^ ]*`) at the start of `s`. */
  function NonBlankRun(s: string): (n: nat)
    ensures n <= |s|
    ensures n < |s| ==> s[n] == ' '
    decreases |s|
  {
    if |s| > 0 && s[0] != ' ' then 1 + NonBlankRun(s[1..]) else 0
  }

  /** No `_#` annotation marker occurs in `s`. */
  predicate NoAnnotationMarker(s: string) {
    forall i :: 0 <= i < |s| - 1 ==> !(s[i] == '_' && s[i + 1] == '#')
  }

  /** `re.sub(r'_#[^ ]*', '', line)`: delete every annotation suffix, from
      its `_#` up to (not including) the next space. */
  function CleanAnnotation(s: string): (r: string)
    ensures NoAnnotationMarker(r)
    ensures |r| <= |s|
    ensures forall c :: c in r ==> c in s
    ensures |s| > 0 && !StartsWith(s, "_#") ==> |r| > 0 && r[0] == s[0]
    ensures StartsWith(s, "_#") ==> |r| == 0 || r[0] == ' '
    decreases |s|
  {
    if |s| == 0 then ""
    else if StartsWith(s, "_#") then
      var n := NonBlankRun(s[2..]);
      var r := CleanAnnotation(s[2 + n..]);
      assert |s[2 + n..]| > 0 ==> s[2 + n..][0] == ' ' && !StartsWith(s[2 + n..], "_#");
      r
    else
      var rest := CleanAnnotation(s[1..]);
      assert |s| > 1 && s[0] == '_' ==> s[1] != '#';
      assert |rest| > 0 ==> rest[0] != '#' || s[0] != '_' by {
        if |rest| > 0 && s[0] == '_' {
          if StartsWith(s[1..], "_#") {
          } else {
            assert rest[0] == s[1];
          }
        }
      }
      [s[0]] + rest
  }

  /** Cleaning leaves a line without annotation markers unchanged, so
      cleaning twice is cleaning once. */
  lemma {:induction false} CleanUnmarked(s: string)
    requires NoAnnotationMarker(s)
    ensures CleanAnnotation(s) == s
    decreases |s|
  {
    if |s| > 0 {
      if |s| >= 2 {
        assert !(s[0] == '_' && s[1] == '#');
        assert s[..2] != "_#";
      }
      assert !StartsWith(s, "_#");
      CleanUnmarked(s[1..]);
      assert s == [s[0]] + s[1..];
    }
  }

  lemma CleanIdempotent(s: string)
    ensures CleanAnnotation(CleanAnnotation(s)) == CleanAnnotation(s)
  {
    CleanUnmarked(CleanAnnotation(s));
  }

  /** The annotation-stripped view of one raw line. */
  function CleanLine(raw: string): string {
    CleanAnnotation(StripNewlines(raw))
  }

  /** `Preprocessing(path).get_text_list()`: every line of the file with its
      newline stripped and its annotations removed. */
  function Load(text: string): (lines: seq<string>)
    ensures |lines| == |ReadLines(text)|
    ensures forall j :: 0 <= j < |lines| ==> lines[j] == CleanLine(ReadLines(text)[j])
  {
    var raw := ReadLines(text);
    seq(|raw|, j requires 0 <= j < |raw| => CleanLine(raw[j]))
  }

  /** Stripping the newline of a raw line leaves no newline in it. */
  lemma StripRawLine(raw: string)
    requires RawLine(raw)
    ensures '\n' !in StripNewlines(raw)
  {
    var t := StripNewlines(raw);
    var a := LeadingRun(raw, IsNewline);
    StripSlice(raw, IsNewline);
    forall i | 0 <= i < |t| ensures t[i] != '\n' {
      assert t[i] == raw[a + i];
    }
  }

  /** A loaded line holds no newline and no annotation marker. */
  lemma LoadedLine(text: string, j: nat)
    requires j < |Load(text)|
    ensures NoAnnotationMarker(Load(text)[j])
    ensures '\n' !in Load(text)[j]
  {
    var raw := ReadLines(text)[j];
    StripRawLine(raw);
    assert Load(text)[j] == CleanAnnotation(StripNewlines(raw));
  }

  /** Stripping newlines from a line that holds none is the identity. */
  lemma StripNoNewline(s: string)
    requires '\n' !in s
    ensures StripNewlines(s) == s
  {
    if |s| > 0 {
      assert s[0] in s && s[|s| - 1] in s;
    }
  }
}

=== FILE: index.dfy ===
/** The record index built by `PreprocessingParsed` (model/processing.py):
    file id -> alignment key -> tag id -> (surface tokens, POS, lemmas).
    A tag id, once inserted, is never overwritten: the first line carrying
    it wins. */
module RecordIndex {
  import opened Base
  import opened Text
  import opened Corpus
  import opened Meta
  import opened Records

  /** Tag id (`(src)="3">`) -> metadata of the line it starts. */
  type LineTable = map<string, TokenMeta>

  /** Alignment key -> line table, as an insertion-ordered dict: the stats
      iterate over `match_data.items()`, which follows Python's dict order.
      `order` lists the keys in the order they were first set. */
  datatype Alignments = Alignments(order: seq<string>, tables: map<string, LineTable>)

  /** File id -> alignments of that file. */
  type ParsedIndex = map<string, Alignments>

  // ---------------------------------------------------------------------
  // The tag-id level: `__process_match`

  /** Which role a line is processed as: `(src)` is tested first. */
  function RoleOf(elem: string): Option<Role> {
    if IsRoleLine(elem, Src) then Some(Src)
    else if IsRoleLine(elem, Trg) then Some(Trg)
    else None
  }

  /** The id and metadata a line contributes: the first tag of its role
      (`re.search(pattern, elem).group()`) and the split of everything after
      that tag with the role's later tags cut out
      (`"".join(re.split(pattern, elem)[1:])`). */
  function Contribution(elem: string): Option<(string, TokenMeta)> {
    match RoleOf(elem)
    case None => None
    case Some(role) =>
      match FindTagFrom(elem, RoleTag(role), 0)
      case None => None
      case Some(found) =>
        var p := found.0;
        var n := found.1;
        Some((elem[p..p + n], SplitStringMeta(RemoveTags(elem[p + n..], RoleTag(role)))))
  }

  /** A line whose prefix names a role but which holds no tag of that role:
      `.group()` on the failed search raises AttributeError. */
  predicate Fails(elem: string) {
    RoleOf(elem).Some? && NoTags(elem, RoleTag(RoleOf(elem).value))
  }

  /** Every entry of `a` is in `b` with the same value. */
  predicate Extends(a: LineTable, b: LineTable) {
    forall t :: t in a ==> t in b && b[t] == a[t]
  }

  /** What one line does to its key's table: abort the query, leave the
      table alone, or offer an id with its metadata. */
  datatype Step = Abort | Skip | Add(id: string, meta: TokenMeta)

  /** The step of one line. */
  function LineStep(elem: string): (s: Step)
    ensures s.Abort? <==> Fails(elem)
    ensures s.Add? <==> Contribution(elem).Some?
    ensures s.Add? ==> Contribution(elem) == Some((s.id, s.meta))
  {
    ContributionNone(elem);
    if Fails(elem) then Abort
    else match Contribution(elem)
      case None => Skip
      case Some(c) => Add(c.0, c.1)
  }

  /** Applying a step: an offered id is inserted only if it is absent. */
  function ApplyStep(level: LineTable, s: Step): Option<LineTable> {
    match s
    case Abort => None
    case Skip => Some(level)
    case Add(id, meta) => if id in level then Some(level) else Some(level[id := meta])
  }

  /** `__process_match` for one line: insert its id only if it is absent. */
  function ProcessLine(level: LineTable, elem: string): (r: Option<LineTable>)
    ensures r.None? <==> Fails(elem)
    ensures r.Some? ==> Extends(level, r.value)
    ensures r.Some? && Contribution(elem).None? ==> r.value == level
    ensures r.Some? && Contribution(elem).Some? ==>
      var id := Contribution(elem).value.0;
      r.value.Keys == level.Keys + {id}
      && (id !in level ==> r.value[id] == Contribution(elem).value.1)
  {
    ApplyStepFacts(level, LineStep(elem));
    ApplyStep(level, LineStep(elem))
  }

  /** An abort fails, a skip keeps the table, an offered id ends up among
      the keys and is stored only when it was absent. */
  lemma ApplyStepFacts(level: LineTable, s: Step)
    ensures ApplyStep(level, s).None? <==> s.Abort?
    ensures ApplyStep(level, s).Some? ==> Extends(level, ApplyStep(level, s).value)
    ensures s.Skip? ==> ApplyStep(level, s) == Some(level)
    ensures s.Add? ==> (ApplyStep(level, s).value.Keys == level.Keys + {s.id}
      && (s.id !in level ==> ApplyStep(level, s).value[s.id] == s.meta))
  {
  }

  /** A line contributes nothing exactly when it names no role or fails. */
  lemma ContributionNone(elem: string)
    ensures Contribution(elem).None? <==> RoleOf(elem).None? || Fails(elem)
  {
    if RoleOf(elem).Some? {
      var kind := RoleTag(RoleOf(elem).value);
      var f := FindTagFrom(elem, kind, 0);
      if f.Some? {
        assert !NoTags(elem, kind) by { assert TagLen(elem[f.value.0..], kind).Some?; }
      }
    }
  }

  /** The steps of a sequence of lines, applied in order; the first abort
      ends the fold. */
  function ApplySteps(level: LineTable, steps: seq<Step>): (r: Option<LineTable>)
    ensures r.None? <==> exists j :: 0 <= j < |steps| && steps[j].Abort?
    ensures r.Some? ==> Extends(level, r.value)
    decreases |steps|
  {
    if |steps| == 0 then Some(level)
    else match ApplyStep(level, steps[0])
      case None => None
      case Some(l1) =>
        var r := ApplySteps(l1, steps[1..]);
        assert (exists j :: 0 <= j < |steps| && steps[j].Abort?) <==> steps[0].Abort? || exists j :: 0 <= j < |steps| - 1 && steps[1..][j].Abort? by {
          forall j | 0 < j < |steps| ensures steps[j] == steps[1..][j - 1] {}
        }
        r
  }

  /** A step that offers an id leaves the id in the table; an id already
      present keeps its metadata. */
  lemma {:induction false} StepsStore(level: LineTable, steps: seq<Step>, j: nat)
    requires ApplySteps(level, steps).Some? && j < |steps| && steps[j].Add?
    ensures var r := ApplySteps(level, steps).value;
      steps[j].id in r && (steps[j].id in level ==> r[steps[j].id] == level[steps[j].id])
    decreases j
  {
    var l1 := ApplyStep(level, steps[0]).value;
    assert ApplySteps(l1, steps[1..]) == ApplySteps(level, steps);
    if j > 0 {
      assert steps[1..][j - 1] == steps[j];
      StepsStore(l1, steps[1..], j - 1);
    }
  }

  /** No step before position `j` offers the id `id`. */
  predicate NotOfferedBefore(steps: seq<Step>, j: nat, id: string)
    requires j <= |steps|
  {
    forall i :: 0 <= i < j && steps[i].Add? ==> steps[i].id != id
  }

  /** An absent id offered first at step `j` gets that step's metadata. */
  lemma {:induction false} StepsFirstWins(level: LineTable, steps: seq<Step>, j: nat)
    requires ApplySteps(level, steps).Some? && j < |steps| && steps[j].Add?
    requires steps[j].id !in level && NotOfferedBefore(steps, j, steps[j].id)
    ensures var r := ApplySteps(level, steps).value;
      steps[j].id in r && r[steps[j].id] == steps[j].meta
    decreases j
  {
    var l1 := ApplyStep(level, steps[0]).value;
    assert ApplySteps(l1, steps[1..]) == ApplySteps(level, steps);
    if j > 0 {
      assert steps[1..][j - 1] == steps[j];
      assert NotOfferedBefore(steps[1..], j - 1, steps[j].id) by {
        forall i | 0 <= i < j - 1 && steps[1..][i].Add? ensures steps[1..][i].id != steps[j].id {
          assert steps[1..][i] == steps[i + 1];
        }
      }
      StepsFirstWins(l1, steps[1..], j - 1);
    }
  }

  /** The steps of the lines of a record. */
  function Steps(rec: seq<string>): (ss: seq<Step>)
    ensures |ss| == |rec| && forall j :: 0 <= j < |rec| ==> ss[j] == LineStep(rec[j])
  {
    seq(|rec|, j requires 0 <= j < |rec| => LineStep(rec[j]))
  }

  /** `for elem in entry: __process_match(...)`: the lines of a record in
      order; the query aborts at the first failing line. */
  function ProcessRecord(level: LineTable, rec: seq<string>): (r: Option<LineTable>)
    ensures r.None? <==> exists j :: 0 <= j < |rec| && Fails(rec[j])
    ensures r.Some? ==> Extends(level, r.value)
  {
    var ss := Steps(rec);
    assert forall j :: 0 <= j < |rec| ==> (ss[j].Abort? <==> Fails(rec[j]));
    ApplySteps(level, ss)
  }

  /** No line of `rec` before position `j` contributes the id `id`. */
  predicate NotEarlier(rec: seq<string>, j: nat, id: string)
    requires j <= |rec|
  {
    forall i :: 0 <= i < j && Contribution(rec[i]).Some? ==> Contribution(rec[i]).value.0 != id
  }

  /** Within a record, every contributed id ends up in the table, and an id
      already present keeps its metadata. */
  lemma RecordStores(level: LineTable, rec: seq<string>, j: nat)
    requires ProcessRecord(level, rec).Some?
    requires j < |rec| && Contribution(rec[j]).Some?
    ensures var r := ProcessRecord(level, rec).value;
      var id := Contribution(rec[j]).value.0;
      id in r && (id in level ==> r[id] == level[id])
  {
    StepsStore(level, Steps(rec), j);
  }

  /** An id absent from the table takes the metadata of the FIRST line of
      the record carrying it. */
  lemma RecordFirstWins(level: LineTable, rec: seq<string>, j: nat)
    requires ProcessRecord(level, rec).Some?
    requires j < |rec| && Contribution(rec[j]).Some?
    requires Contribution(rec[j]).value.0 !in level && NotEarlier(rec, j, Contribution(rec[j]).value.0)
    ensures var r := ProcessRecord(level, rec).value;
      var c := Contribution(rec[j]).value;
      c.0 in r && r[c.0] == c.1
  {
    var ss := Steps(rec);
    assert NotOfferedBefore(ss, j, ss[j].id) by {
      forall i | 0 <= i < j && ss[i].Add? ensures ss[i].id != ss[j].id {
        assert Contribution(rec[i]).Some?;
      }
    }
    StepsFirstWins(level, ss, j);
  }

  // ---------------------------------------------------------------------
  // The alignment level

  /** Every key of `al` appears once in its order and has a table, and
      every table belongs to a key of the order. */
  predicate WellOrdered(al: Alignments) {
    NoDuplicates(al.order)
    && (forall k :: k in al.tables ==> k in al.order) && (forall k :: k in al.order ==> k in al.tables)
  }

  /** `current_level.setdefault(key, {})`: a new key gets an empty table
      and goes to the end of the order; an existing key is left alone. */
  function SetDefault(al: Alignments, key: string): (r: Alignments)
    requires WellOrdered(al)
    ensures WellOrdered(r) && key in r.tables
    ensures key in al.tables ==> r == al
    ensures key !in al.tables ==> r.order == al.order + [key] && r.tables[key] == map[]
    ensures AlignExtends(al, r)
  {
    if key in al.tables then al
    else
      var r := Alignments(al.order + [key], al.tables[key := map[]]);
      assert NoDuplicates(r.order) by {
        forall i, j | 0 <= i < j < |r.order| ensures r.order[i] != r.order[j] {
          if j == |al.order| { assert r.order[i] == al.order[i]; }
        }
      }
      r
  }

  /** `b` keeps the order of `a` as a prefix and every table of `a` with
      every tag id unchanged. */
  predicate AlignExtends(a: Alignments, b: Alignments) {
    |a.order| <= |b.order| && b.order[..|a.order|] == a.order
    && forall k :: k in a.tables ==> k in b.tables && Extends(a.tables[k], b.tables[k])
  }

  lemma AlignExtendsTrans(a: Alignments, b: Alignments, c: Alignments)
    requires AlignExtends(a, b) && AlignExtends(b, c)
    ensures AlignExtends(a, c)
  {
    assert c.order[..|a.order|] == c.order[..|b.order|][..|a.order|];
  }

  /** Every file's alignments are well ordered. */
  predicate WellFormed(ix: ParsedIndex) {
    forall f :: f in ix ==> WellOrdered(ix[f])
  }

  /** Every file and alignment of `a` survives in `b`, none overwritten. */
  predicate IndexExtends(a: ParsedIndex, b: ParsedIndex) {
    forall f :: f in a ==> f in b && AlignExtends(a[f], b[f])
  }

  lemma IndexExtendsTrans(a: ParsedIndex, b: ParsedIndex, c: ParsedIndex)
    requires IndexExtends(a, b) && IndexExtends(b, c)
    ensures IndexExtends(a, c)
  {
    forall f | f in a ensures f in c && AlignExtends(a[f], c[f]) {
      AlignExtendsTrans(a[f], b[f], c[f]);
    }
  }

  // ---------------------------------------------------------------------
  // The file level: `__parse_data` and `__parse_data_mono`

  /** The alignments of a file, empty for a file not yet seen. */
  function FileLevel(ix: ParsedIndex, file: string): Alignments {
    if file in ix then ix[file] else Alignments([], map[])
  }

  /** The line table of alignment `key` (every key of a well-ordered
      file level has one). */
  function TableOf(al: Alignments, key: string): LineTable {
    if key in al.tables then al.tables[key] else map[]
  }

  /** One step of `__parse_data`: `setdefault` the file, `setdefault` the
      key, then process the record into the key's table unless the key is
      empty. The query aborts when a line of the record fails. */
  function ParseStep(ix: ParsedIndex, file: string, key: string, rec: seq<string>): (r: Option<ParsedIndex>)
    requires WellFormed(ix)
    ensures r.None? <==> key != "" && exists j :: 0 <= j < |rec| && Fails(rec[j])
    ensures r.Some? ==> WellFormed(r.value) && IndexExtends(ix, r.value)
    ensures r.Some? ==> r.value.Keys == ix.Keys + {file} && key in r.value[file].tables
  {
    var al0 := FileLevel(ix, file);
    var al := SetDefault(al0, key);
    if key == "" then
      Put(ix, file, al);
      Some(ix[file := al])
    else
      match ProcessRecord(al.tables[key], rec)
      case None => None
      case Some(t) =>
        var al1 := al.(tables := al.tables[key := t]);
        StoreTable(al, key, t);
        AlignExtendsTrans(al0, al, al1);
        Put(ix, file, al1);
        Some(ix[file := al1])
  }

  /** Replacing the table of an existing key by one that extends it keeps
      the order and extends the alignments. */
  lemma StoreTable(al: Alignments, key: string, t: LineTable)
    requires WellOrdered(al) && key in al.tables && Extends(al.tables[key], t)
    ensures WellOrdered(al.(tables := al.tables[key := t]))
    ensures AlignExtends(al, al.(tables := al.tables[key := t]))
  {
  }

  /** Storing alignments that extend a file's current ones keeps the index
      well formed and extends it. */
  lemma Put(ix: ParsedIndex, file: string, al: Alignments)
    requires WellFormed(ix) && WellOrdered(al) && AlignExtends(FileLevel(ix, file), al)
    ensures WellFormed(ix[file := al]) && IndexExtends(ix, ix[file := al])
    ensures ix[file := al].Keys == ix.Keys + {file}
  {
  }

  /** One (file id, alignment key, record) triple of the zipped lists. */
  datatype Entry = Entry(file: string, key: string, record: seq<string>)

  /** `zip(files, keys, records)`: stops at the shortest list. */
  function Zip3(files: seq<string>, keys: seq<string>, recs: seq<seq<string>>): (es: seq<Entry>)
    ensures |es| <= |files| && |es| <= |keys| && |es| <= |recs|
    ensures |es| == |files| || |es| == |keys| || |es| == |recs|
    ensures forall j :: 0 <= j < |es| ==> es[j] == Entry(files[j], keys[j], recs[j])
  {
    var n := if |files| <= |keys| && |files| <= |recs| then |files|
             else if |keys| <= |recs| then |keys| else |recs|;
    seq(n, j requires 0 <= j < n => Entry(files[j], keys[j], recs[j]))
  }

  /** The loop of `__parse_data` from index `ix` over the entries `es`.
      Nothing already stored is overwritten. */
  function ParseFrom(ix: ParsedIndex, es: seq<Entry>): (r: Option<ParsedIndex>)
    requires WellFormed(ix)
    ensures r.Some? ==> WellFormed(r.value) && IndexExtends(ix, r.value)
    decreases |es|
  {
    if |es| == 0 then Some(ix)
    else match ParseStep(ix, es[0].file, es[0].key, es[0].record)
      case None => None
      case Some(ix1) =>
        var r := ParseFrom(ix1, es[1..]);
        if r.Some? then IndexExtendsTrans(ix, ix1, r.value); r else r
  }

  /** `__parse_data(files, keys, records)` on an empty index. */
  function ParseData(files: seq<string>, keys: seq<string>, recs: seq<seq<string>>): Option<ParsedIndex> {
    ParseFrom(map[], Zip3(files, keys, recs))
  }

  /** An entry whose key is non-empty and whose record holds a failing
      line: the step for it aborts the query. */
  predicate EntryFails(e: Entry) {
    e.key != "" && exists i :: 0 <= i < |e.record| && Fails(e.record[i])
  }

  /** The query aborts exactly when some entry with a non-empty key holds a
      failing line. */
  lemma {:induction false} ParseFails(ix: ParsedIndex, es: seq<Entry>)
    requires WellFormed(ix)
    ensures ParseFrom(ix, es).None? <==> exists j :: 0 <= j < |es| && EntryFails(es[j])
    decreases |es|
  {
    if |es| > 0 {
      var e := es[0];
      match ParseStep(ix, e.file, e.key, e.record)
      case None =>
        assert EntryFails(es[0]);
      case Some(ix1) =>
        assert !EntryFails(es[0]);
        ParseFails(ix1, es[1..]);
        if exists j :: 0 <= j < |es| && EntryFails(es[j]) {
          var j :| 0 <= j < |es| && EntryFails(es[j]);
          assert es[1..][j - 1] == es[j];
        }
        if exists j :: 0 <= j < |es| - 1 && EntryFails(es[1..][j]) {
          var j :| 0 <= j < |es| - 1 && EntryFails(es[1..][j]);
          assert es[j + 1] == es[1..][j];
        }
    }
  }

  /** The index holds the files it started with and the file of every
      entry, and nothing else. */
  lemma {:induction false} ParseFiles(ix: ParsedIndex, es: seq<Entry>)
    requires WellFormed(ix) && ParseFrom(ix, es).Some?
    ensures forall f :: f in ParseFrom(ix, es).value <==> f in ix || exists j :: 0 <= j < |es| && es[j].file == f
    decreases |es|
  {
    if |es| > 0 {
      var ix1 := ParseStep(ix, es[0].file, es[0].key, es[0].record).value;
      ParseFiles(ix1, es[1..]);
      var r := ParseFrom(ix, es).value;
      assert r == ParseFrom(ix1, es[1..]).value;
      OneMoreFile(ix, ix1, r, es);
    }
  }

  lemma OneMoreFile(ix: ParsedIndex, ix1: ParsedIndex, r: ParsedIndex, es: seq<Entry>)
    requires |es| > 0 && ix1.Keys == ix.Keys + {es[0].file}
    requires forall f :: f in r <==> f in ix1 || exists j :: 0 <= j < |es| - 1 && es[1..][j].file == f
    ensures forall f :: f in r <==> f in ix || exists j :: 0 <= j < |es| && es[j].file == f
  {
    forall f ensures f in r <==> f in ix || exists j :: 0 <= j < |es| && es[j].file == f {
      if exists j :: 0 <= j < |es| - 1 && es[1..][j].file == f {
        var j :| 0 <= j < |es| - 1 && es[1..][j].file == f;
        assert es[j + 1].file == f;
      }
      if exists j :: 0 <= j < |es| && es[j].file == f {
        var j :| 0 <= j < |es| && es[j].file == f;
        if j > 0 { assert es[1..][j - 1].file == f; }
      }
    }
  }

  /** Folding over two runs of entries is folding over the first and then
      the second; with `ParseFrom`'s contract, what any prefix stored is
      never overwritten by the rest. */
  lemma {:induction false} ParseSplit(ix: ParsedIndex, es: seq<Entry>, fs: seq<Entry>)
    requires WellFormed(ix)
    ensures ParseFrom(ix, es + fs) ==
      match ParseFrom(ix, es)
      case None => None
      case Some(mid) => ParseFrom(mid, fs)
    decreases |es|
  {
    if |es| > 0 {
      assert (es + fs)[0] == es[0];
      assert (es + fs)[1..] == es[1..] + fs;
      match ParseStep(ix, es[0].file, es[0].key, es[0].record)
      case None =>
      case Some(ix1) => ParseSplit(ix1, es[1..], fs);
    } else {
      assert es + fs == fs;
    }
  }

  /** Each step with a non-empty key stores every id its record
      contributes in the key's table. */
  lemma StepStores(ix: ParsedIndex, file: string, key: string, rec: seq<string>, i: nat)
    requires WellFormed(ix) && ParseStep(ix, file, key, rec).Some?
    requires key != "" && i < |rec| && Contribution(rec[i]).Some?
    ensures Contribution(rec[i]).value.0 in ParseStep(ix, file, key, rec).value[file].tables[key]
  {
    var al := SetDefault(FileLevel(ix, file), key);
    RecordStores(al.tables[key], rec, i);
  }

  /** A successful fold passes through entry `j`: the entries before it
      fold to some index, the step for `j` succeeds on it, and the rest of
      the fold continues from there. */
  lemma ParseThrough(es: seq<Entry>, j: nat)
    requires ParseFrom(map[], es).Some? && j < |es|
    ensures ParseFrom(map[], es[..j]).Some?
    ensures var before := ParseFrom(map[], es[..j]).value;
      var step := ParseStep(before, es[j].file, es[j].key, es[j].record);
      step.Some? && ParseFrom(step.value, es[j + 1..]) == ParseFrom(map[], es)
  {
    var e := es[j];
    SplitAround(es, j);
    ParseSplit(map[], es[..j], [e] + es[j + 1..]);
    ParseCons(ParseFrom(map[], es[..j]).value, e, es[j + 1..]);
  }

  lemma SplitAround<T>(s: seq<T>, j: nat)
    requires j < |s|
    ensures s == s[..j] + ([s[j]] + s[j + 1..])
  {
  }

  /** Unfolding the fold once at its first entry. */
  lemma ParseCons(ix: ParsedIndex, e: Entry, rest: seq<Entry>)
    requires WellFormed(ix)
    ensures ParseFrom(ix, [e] + rest) ==
      match ParseStep(ix, e.file, e.key, e.record)
      case None => None
      case Some(ix1) => ParseFrom(ix1, rest)
  {
    assert ([e] + rest)[0] == e;
    assert ([e] + rest)[1..] == rest;
  }

  /** Every tagged line of every record with a non-empty key is indexed:
      its file holds the key, and the key's table holds the line's id. */
  lemma ParseCovers(es: seq<Entry>, j: nat, i: nat)
    requires ParseFrom(map[], es).Some?
    requires j < |es| && es[j].key != ""
    requires i < |es[j].record| && Contribution(es[j].record[i]).Some?
    ensures var r := ParseFrom(map[], es).value;
      var e := es[j];
      e.file in r && e.key in r[e.file].tables
      && Contribution(e.record[i]).value.0 in r[e.file].tables[e.key]
  {
    var e := es[j];
    ParseThrough(es, j);
    var before := ParseFrom(map[], es[..j]).value;
    var mid := ParseStep(before, e.file, e.key, e.record).value;
    StepStores(before, e.file, e.key, e.record, i);
    assert AlignExtends(mid[e.file], ParseFrom(map[], es).value[e.file]);
  }

  /** The mono step processes one line as a one-line record. */
  lemma MonoRecordIsLine(level: LineTable, entry: string)
    ensures ProcessRecord(level, [entry]) == ProcessLine(level, entry)
  {
    var ss := Steps([entry]);
    assert ss == [LineStep(entry)];
    var l := ApplyStep(level, ss[0]);
    assert ProcessLine(level, entry) == l;
    if l.Some? {
      assert ss[1..] == [];
      assert ApplySteps(level, ss) == ApplySteps(l.value, []);
    }
  }

  /** `__parse_data_mono`: the same fold over (file, key, matched line). */
  function ParseDataMono(files: seq<string>, keys: seq<string>, entries: seq<string>): Option<ParsedIndex> {
    ParseData(files, keys, seq(|entries|, j requires 0 <= j < |entries| => [entries[j]]))
  }

  // ---------------------------------------------------------------------
  // `PreprocessingParsed`: from the raw file and the located matches

  /** The records of the matches at `indices`, newline-stripped. */
  function MatchRecords(raw: seq<string>, indices: seq<nat>): (rs: seq<seq<string>>)
    requires forall j :: 0 <= j < |indices| ==> indices[j] < |raw|
    ensures |rs| == |indices|
  {
    seq(|indices|, j requires 0 <= j < |indices| => Record(raw, indices[j]))
  }

  /** The alignment keys of the matches at `indices`. */
  function MatchKeys(raw: seq<string>, indices: seq<nat>): (ks: seq<string>)
    requires forall j :: 0 <= j < |indices| ==> indices[j] < |raw|
    ensures |ks| == |indices|
    ensures forall j :: 0 <= j < |ks| ==> |ks[j]| >= 2
    ensures forall j, role :: 0 <= j < |ks| && TagLen(raw[indices[j]], RoleTag(role)).Some? ==>
      Contains(ks[j], raw[indices[j]][..TagLen(raw[indices[j]], RoleTag(role)).value])
  {
    forall j, role | 0 <= j < |indices| && TagLen(raw[indices[j]], RoleTag(role)).Some?
      ensures Contains(AlignmentKey(raw, indices[j]), raw[indices[j]][..TagLen(raw[indices[j]], RoleTag(role)).value])
    {
      KeyHoldsMatchTag(raw, indices[j], role, TagLen(raw[indices[j]], RoleTag(role)).value);
    }
    seq(|indices|, j requires 0 <= j < |indices| => AlignmentKey(raw, indices[j]))
  }

  /** `__process_mono_matches`: the space-joined surface tokens of each
      matched line (the keys) and the matched lines without newlines (the
      entries). */
  function MonoKeys(raw: seq<string>, indices: seq<nat>): (ks: seq<string>)
    requires forall j :: 0 <= j < |indices| ==> indices[j] < |raw|
    ensures |ks| == |indices|
  {
    seq(|indices|, j requires 0 <= j < |indices| => Join(" ", Tokens(raw[indices[j]])))
  }

  function MonoEntries(raw: seq<string>, indices: seq<nat>): (es: seq<string>)
    requires forall j :: 0 <= j < |indices| ==> indices[j] < |raw|
    ensures |es| == |indices|
  {
    seq(|indices|, j requires 0 <= j < |indices| => StripNewlines(raw[indices[j]]))
  }

  /** The entries the parsed index is built from: in bilingual mode the
      record of each match under its alignment key, in monolingual mode
      the matched line alone under its own surface tokens. */
  function ParsedEntries(raw: seq<string>, files: seq<string>, indices: seq<nat>, mono: bool): seq<Entry>
    requires forall j :: 0 <= j < |indices| ==> indices[j] < |raw|
  {
    if mono then
      var es := MonoEntries(raw, indices);
      Zip3(files, MonoKeys(raw, indices), seq(|es|, j requires 0 <= j < |es| => [es[j]]))
    else Zip3(files, MatchKeys(raw, indices), MatchRecords(raw, indices))
  }

  /** `PreprocessingParsed(path, files, indices, mono).get_dictionary()`
      on the raw lines of the file: None when the query aborts. */
  function Parsed(raw: seq<string>, files: seq<string>, indices: seq<nat>, mono: bool): Option<ParsedIndex>
    requires forall j :: 0 <= j < |indices| ==> indices[j] < |raw|
  {
    ParseFrom(map[], ParsedEntries(raw, files, indices, mono))
  }

  /** The monolingual index is the general fold over one-line records. */
  lemma ParsedMonoIsParseDataMono(raw: seq<string>, files: seq<string>, indices: seq<nat>)
    requires forall j :: 0 <= j < |indices| ==> indices[j] < |raw|
    ensures Parsed(raw, files, indices, true) == ParseDataMono(files, MonoKeys(raw, indices), MonoEntries(raw, indices))
  {
  }

  /** Some line of the record of the match at `idx` fails. */
  predicate RecordFails(raw: seq<string>, idx: nat)
    requires idx < |raw|
  {
    exists i :: 0 <= i < |Record(raw, idx)| && Fails(Record(raw, idx)[i])
  }

  /** The bilingual query aborts exactly when a line of some zipped record
      holds its role prefix but no well-formed tag of that role: every
      bilingual key holds at least two spaces, so no record is skipped. */
  lemma BilingualFails(raw: seq<string>, files: seq<string>, indices: seq<nat>)
    requires forall j :: 0 <= j < |indices| ==> indices[j] < |raw|
    ensures var n := |ParsedEntries(raw, files, indices, false)|;
      n == (if |files| <= |indices| then |files| else |indices|)
      && (Parsed(raw, files, indices, false).None? <==> exists j :: 0 <= j < n && RecordFails(raw, indices[j]))
  {
    var es := ParsedEntries(raw, files, indices, false);
    ParseFails(map[], es);
    var n := |es|;
    if exists j :: 0 <= j < n && RecordFails(raw, indices[j]) {
      var j :| 0 <= j < n && RecordFails(raw, indices[j]);
      BilingualEntryAt(raw, files, indices, j);
    }
    if exists j :: 0 <= j < n && EntryFails(es[j]) {
      var j :| 0 <= j < n && EntryFails(es[j]);
      BilingualEntryAt(raw, files, indices, j);
    }
  }

  /** A bilingual entry fails exactly when its match's record does. */
  lemma BilingualEntryAt(raw: seq<string>, files: seq<string>, indices: seq<nat>, j: nat)
    requires forall m :: 0 <= m < |indices| ==> indices[m] < |raw|
    requires j < |ParsedEntries(raw, files, indices, false)|
    ensures EntryFails(ParsedEntries(raw, files, indices, false)[j]) <==> RecordFails(raw, indices[j])
  {
    var es := ParsedEntries(raw, files, indices, false);
    assert es[j].record == Record(raw, indices[j]) && es[j].key != "";
  }

  /** The files of the index are exactly the files of the zipped matches. */
  lemma ParsedFiles(raw: seq<string>, files: seq<string>, indices: seq<nat>, mono: bool)
    requires forall j :: 0 <= j < |indices| ==> indices[j] < |raw|
    requires Parsed(raw, files, indices, mono).Some?
    ensures var n := |ParsedEntries(raw, files, indices, mono)|;
      n <= |files| && n <= |indices|
      && forall f :: f in Parsed(raw, files, indices, mono).value <==> exists j :: 0 <= j < n && files[j] == f
  {
    var es := ParsedEntries(raw, files, indices, mono);
    ParseFiles(map[], es);
    ZipFiles(es, files, Parsed(raw, files, indices, mono).value);
  }

  lemma ZipFiles(es: seq<Entry>, files: seq<string>, r: ParsedIndex)
    requires |es| <= |files| && forall j :: 0 <= j < |es| ==> es[j].file == files[j]
    requires forall f :: f in r <==> exists j :: 0 <= j < |es| && es[j].file == f
    ensures forall f :: f in r <==> exists j :: 0 <= j < |es| && files[j] == f
  {
  }

  /** Every tagged line of the record of a bilingual match is indexed under
      the match's file and alignment key. */
  lemma BilingualCovers(raw: seq<string>, files: seq<string>, indices: seq<nat>, j: nat, i: nat)
    requires forall j :: 0 <= j < |indices| ==> indices[j] < |raw|
    requires Parsed(raw, files, indices, false).Some?
    requires j < |files| && j < |indices|
    requires i < |Record(raw, indices[j])| && Contribution(Record(raw, indices[j])[i]).Some?
    ensures var r := Parsed(raw, files, indices, false).value;
      var key := AlignmentKey(raw, indices[j]);
      files[j] in r && key in r[files[j]].tables
      && Contribution(Record(raw, indices[j])[i]).value.0 in r[files[j]].tables[key]
  {
    var es := ParsedEntries(raw, files, indices, false);
    assert es[j] == Entry(files[j], AlignmentKey(raw, indices[j]), Record(raw, indices[j]));
    ParseCovers(es, j, i);
  }
}

=== FILE: locator.dfy ===
/** The match locator and file-provenance resolver
    (model/processing.py, `Processing.get_matches_index_files`), and the
    monolingual filtering of `perform_new_search`. */
module Locator {
  import opened Base
  import opened Text
  import opened Corpus

  /** The user's regular expression, abstracted: `hit(line, ci)` holds when
      `re.search(regex, line, flags)` finds a match, `ci` selecting
      `re.IGNORECASE`. */
  type Matcher = (string, bool) -> bool

  /** A line is a match when the regex hits it and it starts with the role tag. */
  predicate IsMatch(line: string, hit: Matcher, ci: bool, role: Role) {
    hit(line, ci) && HasRoleTag(line, role)
  }

  function MatchPred(hit: Matcher, ci: bool, role: Role): string -> bool {
    line => IsMatch(line, hit, ci, role)
  }

  /** The nearest comment line strictly before position `i`. */
  function NearestComment(lines: seq<string>, i: nat): (r: Option<nat>)
    requires i <= |lines|
    ensures r.Some? ==> r.value < i && IsComment(lines[r.value])
    ensures r.Some? ==> forall k :: r.value < k < i ==> !IsComment(lines[k])
    ensures r.None? ==> forall k :: 0 <= k < i ==> !IsComment(lines[k])
    decreases i
  {
    if i == 0 then None
    else if IsComment(lines[i - 1]) then Some(i - 1)
    else NearestComment(lines, i - 1)
  }

  /** The file id of position `i`: the line before the nearest comment above
      `i`, a comma and a space, and that comment; empty when no comment
      precedes `i`. A comment on the first line pairs with the LAST line of
      the list, as Python's index -1 does. */
  function FileIdAt(lines: seq<string>, i: nat): string
    requires i <= |lines|
  {
    match NearestComment(lines, i)
    case None => ""
    case Some(c) => PyAt(lines, c - 1) + ", " + lines[c]
  }

  /** The provenance of a match, stated without the search: empty exactly
      when no comment precedes the match, and otherwise built from a comment
      line `c` above the match with no comment between them. */
  lemma FileIdCases(lines: seq<string>, i: nat)
    requires i <= |lines|
    ensures FileIdAt(lines, i) == "" <==> forall k :: 0 <= k < i ==> !IsComment(lines[k])
    ensures FileIdAt(lines, i) != "" ==>
      exists c :: 0 <= c < i && IsComment(lines[c])
        && (forall k :: c < k < i ==> !IsComment(lines[k]))
        && FileIdAt(lines, i) == PyAt(lines, c - 1) + ", " + lines[c]
  {
  }

  /** The three parallel outputs of the locator. */
  datatype Located = Located(matches: seq<string>, indices: seq<nat>, files: seq<string>)

  /** The positions among the first `n` lines whose line satisfies `p`, in
      increasing order: the locator's scan after `n` steps. */
  function MatchIndices(lines: seq<string>, n: nat, p: string -> bool): (ix: seq<nat>)
    requires n <= |lines|
    ensures forall j :: 0 <= j < |ix| ==> ix[j] < n && p(lines[ix[j]])
    ensures forall j, k :: 0 <= j < k < |ix| ==> ix[j] < ix[k]
    ensures forall k :: 0 <= k < n && p(lines[k]) ==> k in ix
    decreases n
  {
    if n == 0 then []
    else
      var ix := MatchIndices(lines, n - 1, p);
      if p(lines[n - 1]) then ix + [n - 1] else ix
  }

  /** The lines at the given positions. */
  function Pick(lines: seq<string>, ix: seq<nat>): (r: seq<string>)
    requires forall j :: 0 <= j < |ix| ==> ix[j] < |lines|
    ensures |r| == |ix|
  {
    seq(|ix|, j requires 0 <= j < |ix| => lines[ix[j]])
  }

  /** `get_matches_index_files(text_list, regex, role_pattern, ci)`: the
      matched lines (newline-stripped), their positions and their file ids,
      in document order. A position is reported exactly when its line is a
      match. */
  function Locate(lines: seq<string>, hit: Matcher, ci: bool, role: Role): (r: Located)
    ensures |r.matches| == |r.indices| == |r.files|
    ensures forall k :: 0 <= k < |lines| ==> (k in r.indices <==> IsMatch(lines[k], hit, ci, role))
    ensures forall j, k :: 0 <= j < k < |r.indices| ==> r.indices[j] < r.indices[k]
    ensures forall j :: 0 <= j < |r.indices| ==>
      r.indices[j] < |lines| && r.matches[j] == StripNewlines(lines[r.indices[j]])
    ensures forall j :: 0 <= j < |r.indices| ==> r.files[j] == FileIdAt(lines, r.indices[j])
  {
    var ix := MatchIndices(lines, |lines|, MatchPred(hit, ci, role));
    Located(seq(|ix|, j requires 0 <= j < |ix| => StripNewlines(lines[ix[j]])),
            ix,
            seq(|ix|, j requires 0 <= j < |ix| => FileIdAt(lines, ix[j])))
  }

  /** The lines at the scanned positions are exactly the filtered lines. */
  lemma {:induction false} PickIsFilter(lines: seq<string>, n: nat, p: string -> bool)
    requires n <= |lines|
    ensures Pick(lines, MatchIndices(lines, n, p)) == Filter(lines[..n], p)
    decreases n
  {
    if n > 0 {
      PickIsFilter(lines, n - 1, p);
      var ix := MatchIndices(lines, n - 1, p);
      var last := if p(lines[n - 1]) then [lines[n - 1]] else [];
      assert lines[..n][..n - 1] == lines[..n - 1];
      assert Filter(lines[..n], p) == Filter(lines[..n - 1], p) + last;
      if p(lines[n - 1]) {
        PickSnoc(lines, ix, n - 1);
      }
    }
  }

  /** Picking one more position appends its line. */
  lemma PickSnoc(lines: seq<string>, ix: seq<nat>, k: nat)
    requires forall j :: 0 <= j < |ix| ==> ix[j] < |lines|
    requires k < |lines|
    ensures Pick(lines, ix + [k]) == Pick(lines, ix) + [lines[k]]
  {
  }

  /** The matched lines are the matching lines of the list, in order. */
  lemma MatchesAreFilter(lines: seq<string>, hit: Matcher, ci: bool, role: Role)
    ensures Locate(lines, hit, ci, role).matches == MapStrip(Filter(lines, MatchPred(hit, ci, role)))
  {
    PickIsFilter(lines, |lines|, MatchPred(hit, ci, role));
    assert lines[..|lines|] == lines;
  }

  /** The list kept by monolingual search: role lines and provenance comments. */
  function MonoKeep(role: Role): string -> bool {
    line => HasRoleTag(line, role) || IsFileComment(line)
  }

  /** `[s for s in text_list if pattern.match(s) or file_pattern.match(s)]` */
  function MonoFilter(lines: seq<string>, role: Role): (r: seq<string>)
    ensures forall j :: 0 <= j < |r| ==> (HasRoleTag(r[j], role) || IsFileComment(r[j])) && r[j] in lines
    ensures forall j :: 0 <= j < |r| ==> !IsSeparator(r[j])
    ensures forall x :: x in lines && (HasRoleTag(x, role) || IsFileComment(x)) ==> x in r
  {
    var r := Filter(lines, MonoKeep(role));
    forall j | 0 <= j < |r| ensures !IsSeparator(r[j]) {
      if HasRoleTag(r[j], role) { RoleTagIsRoleLine(r[j], role); }
      else { FileCommentIsComment(r[j]); }
    }
    r
  }

  /** The kept lines stay in their order: cutting the list around one line
      cuts the result around that line, kept exactly when it is a `role`
      line or a provenance comment. */
  lemma MonoFilterSplit(xs: seq<string>, x: string, ys: seq<string>, role: Role)
    ensures MonoFilter(xs + [x] + ys, role)
      == MonoFilter(xs, role) + (if HasRoleTag(x, role) || IsFileComment(x) then [x] else []) + MonoFilter(ys, role)
  {
    FilterSplit(xs, x, ys, MonoKeep(role));
  }

  /** Searching the monolingual list finds the same matched lines, in the
      same order, as searching the whole list. */
  lemma MonoSearchSameMatches(lines: seq<string>, hit: Matcher, ci: bool, role: Role)
    ensures Locate(MonoFilter(lines, role), hit, ci, role).matches == Locate(lines, hit, ci, role).matches
  {
    var mono := MonoFilter(lines, role);
    MatchesAreFilter(lines, hit, ci, role);
    MatchesAreFilter(mono, hit, ci, role);
    FilterFilter(lines, MonoKeep(role), MatchPred(hit, ci, role));
  }
}

=== FILE: meta.dfy ===
/** The metadata splitter: a tagged line's token stream becomes parallel
    surface / part-of-speech / lemma sequences (model/processing.py,
    `PreprocessingParsed.__split_string_meta`). */
module Meta {
  import opened Base
  import opened Text

  /** The private delimiter between a token's surface form, POS and lemma. */
  const Delimiter: string := "_#"

  /** The part-of-speech placeholder used when a token lacks its fields. */
  const UnknownPos: string := "X"

  /** Parallel token, POS and lemma sequences of one line. */
  datatype TokenMeta = TokenMeta(tokens: seq<string>, pos: seq<string>, lemmas: seq<string>)

  /** `[w.split("_#") for w in text.split()]` */
  function Fields(text: string): (fs: seq<seq<string>>)
    ensures |fs| == |Words(text)|
    ensures forall i :: 0 <= i < |fs| ==> |fs[i]| >= 1 && fs[i] == SplitOn(Words(text)[i], Delimiter)
  {
    var ws := Words(text);
    seq(|ws|, i requires 0 <= i < |ws| => SplitOn(ws[i], Delimiter))
  }

  /** Every token carries a surface form, a POS and a lemma field. */
  predicate FullyAnnotated(fs: seq<seq<string>>) {
    forall i :: 0 <= i < |fs| ==> |fs[i]| >= 3
  }

  /** `__split_string_meta(text)`: the surface forms are the first field of
      each whitespace token; POS and lemma are its second and third field
      when every token has them, and otherwise POS is "X" throughout and the
      lemma repeats the surface form (the source's IndexError fallback). */
  function SplitStringMeta(text: string): (m: TokenMeta)
    ensures |m.tokens| == |Words(text)| && |m.pos| == |m.tokens| && |m.lemmas| == |m.tokens|
    ensures forall i :: 0 <= i < |m.tokens| ==>
      m.tokens[i] == SplitOn(Words(text)[i], Delimiter)[0] &&
      StartsWith(Words(text)[i], m.tokens[i]) && !Contains(m.tokens[i], Delimiter)
    ensures forall i :: 0 <= i < |m.tokens| ==>
      Words(text)[i] == m.tokens[i] || StartsWith(Words(text)[i], m.tokens[i] + Delimiter)
    ensures !FullyAnnotated(Fields(text)) ==>
      forall i :: 0 <= i < |m.tokens| ==> m.pos[i] == UnknownPos && m.lemmas[i] == m.tokens[i]
    ensures FullyAnnotated(Fields(text)) ==>
      forall i :: 0 <= i < |m.tokens| ==>
        m.pos[i] == SplitOn(Words(text)[i], Delimiter)[1] &&
        m.lemmas[i] == SplitOn(Words(text)[i], Delimiter)[2] &&
        StartsWith(Words(text)[i], m.tokens[i] + Delimiter + m.pos[i] + Delimiter + m.lemmas[i])
  {
    var fs := Fields(text);
    var tokens := seq(|fs|, i requires 0 <= i < |fs| => fs[i][0]);
    forall i | 0 <= i < |fs|
      ensures StartsWith(Words(text)[i], tokens[i]) && !Contains(tokens[i], Delimiter)
      ensures Words(text)[i] == tokens[i] || StartsWith(Words(text)[i], tokens[i] + Delimiter)
    {
      FirstPiece(Words(text)[i], Delimiter);
      FirstPieceEnd(Words(text)[i], Delimiter);
    }
    if FullyAnnotated(fs) then
      forall i | 0 <= i < |fs|
        ensures StartsWith(Words(text)[i], fs[i][0] + Delimiter + fs[i][1] + Delimiter + fs[i][2])
      {
        ThreePieces(Words(text)[i], Delimiter);
      }
      TokenMeta(tokens,
                seq(|fs|, i requires 0 <= i < |fs| => fs[i][1]),
                seq(|fs|, i requires 0 <= i < |fs| => fs[i][2]))
    else
      TokenMeta(tokens, seq(|fs|, i => UnknownPos), tokens)
  }

  /** The surface forms alone (`__split_string_meta(text, all_meta=False)`). */
  function Tokens(text: string): seq<string> {
    SplitStringMeta(text).tokens
  }

  /** The first piece of a split is a prefix free of the separator. */
  lemma {:induction false} FirstPiece(s: string, sep: string)
    requires |sep| > 0
    ensures StartsWith(s, SplitOn(s, sep)[0])
    ensures !Contains(SplitOn(s, sep)[0], sep)
    decreases |s|
  {
    var r := SplitOn(s, sep);
    if |s| < |sep| {
      assert !Contains(s, sep) by {
        forall i | 0 <= i <= |s| ensures !OccursAt(s, sep, i) {}
      }
    } else if s[..|sep|] == sep {
      assert !Contains("", sep) by {
        forall i | 0 <= i <= 0 ensures !OccursAt("", sep, i) {}
      }
    } else {
      FirstPiece(s[1..], sep);
      var p := SplitOn(s[1..], sep)[0];
      assert r[0] == [s[0]] + p;
      assert s[..|r[0]|] == [s[0]] + s[1..][..|p|];
      assert !Contains(r[0], sep) by {
        forall i | 0 <= i <= |r[0]| ensures !OccursAt(r[0], sep, i) {
          if i > 0 && OccursAt(r[0], sep, i) {
            assert r[0][i..i + |sep|] == p[i - 1..i - 1 + |sep|];
            assert OccursAt(p, sep, i - 1);
          }
        }
      }
    }
  }

  /** The first piece of a split is the whole string or is followed by the
      separator. */
  lemma FirstPieceEnd(s: string, sep: string)
    requires |sep| > 0
    ensures var r := SplitOn(s, sep); s == r[0] || StartsWith(s, r[0] + sep)
  {
    var r := SplitOn(s, sep);
    JoinSplitOn(s, sep);
    if |r| > 1 {
      assert Join(sep, r) == (r[0] + sep) + Join(sep, r[1..]);
    }
  }

  /** A string with at least three pieces starts with its first three pieces
      rejoined by the separator. */
  lemma ThreePieces(s: string, sep: string)
    requires |sep| > 0 && |SplitOn(s, sep)| >= 3
    ensures var r := SplitOn(s, sep); StartsWith(s, r[0] + sep + r[1] + sep + r[2])
  {
    var r := SplitOn(s, sep);
    JoinSplitOn(s, sep);
    JoinPrefix(sep, r, 3);
  }

  /** The join of the first `k` pieces is a prefix of the join of all. */
  lemma {:induction false} JoinPrefix(sep: string, xs: seq<string>, k: nat)
    requires 1 <= k <= |xs|
    ensures StartsWith(Join(sep, xs), Join(sep, xs[..k]))
    ensures k == 3 ==> Join(sep, xs[..k]) == xs[0] + sep + xs[1] + sep + xs[2]
    decreases k
  {
    if k == 1 {
      if |xs| > 1 {
        assert Join(sep, xs) == xs[0] + (sep + Join(sep, xs[1..]));
      }
    } else {
      JoinPrefix(sep, xs[1..], k - 1);
      assert xs[..k][1..] == xs[1..][..k - 1];
      assert Join(sep, xs[..k]) == xs[0] + sep + Join(sep, xs[1..][..k - 1]);
      assert Join(sep, xs) == xs[0] + sep + Join(sep, xs[1..]);
      if k == 3 {
        assert xs[1..][..2][1..] == [xs[2]];
      }
    }
  }

  /** Splitting a fully annotated token and rejoining its three fields with
      the delimiter reproduces the token. */
  lemma {:induction false} MetaRoundTrip(text: string, i: nat)
    requires i < |Words(text)|
    requires |Fields(text)[i]| == 3
    ensures var m := SplitStringMeta(text);
      FullyAnnotated(Fields(text)) ==>
        Words(text)[i] == m.tokens[i] + Delimiter + m.pos[i] + Delimiter + m.lemmas[i]
  {
    var w := Words(text)[i];
    var r := SplitOn(w, Delimiter);
    JoinSplitOn(w, Delimiter);
    assert r[..3] == r;
    JoinPrefix(Delimiter, r, 3);
  }
}

=== FILE: monocontext.dfy ===
/** Monolingual context (model/monolingual_context.py, `MonolingualContext`):
    the matches of one side, searched in the list of that side's lines and
    provenance comments, with a pre- and post-context window of that list
    around each match, comments dropped. */
module MonoContext {
  import opened Base
  import opened Text
  import opened Corpus
  import opened Locator
  import opened Ops
  import opened Windows

  function NotSeparator(): string -> bool {
    line => !IsSeparator(line)
  }

  function NotComment(): string -> bool {
    line => !IsComment(line)
  }

  /** `__text_list_only`: the searched list without separator lines. */
  function TextListOnly(L: seq<string>): (r: seq<string>)
    ensures forall j :: 0 <= j < |r| ==> !IsSeparator(r[j]) && r[j] in L
    ensures forall x :: x in L && !IsSeparator(x) ==> x in r
  {
    Filter(L, NotSeparator())
  }

  /** Dropping separators keeps the other lines in their order. */
  lemma TextListOnlySplit(xs: seq<string>, x: string, ys: seq<string>)
    ensures TextListOnly(xs + [x] + ys)
      == TextListOnly(xs) + (if IsSeparator(x) then [] else [x]) + TextListOnly(ys)
  {
    FilterSplit(xs, x, ys, NotSeparator());
  }

  /** The monolingual list holds no separator, so dropping them changes
      nothing: the positions found in it are positions in `__text_list_only`. */
  lemma TextListOnlyIsMono(T: seq<string>, role: Role)
    ensures TextListOnly(MonoFilter(T, role)) == MonoFilter(T, role)
  {
    FilterAll(MonoFilter(T, role), NotSeparator());
  }

  /** `[item for item in sublist if not item.startswith("#")]` */
  function DropComments(w: seq<string>): (r: seq<string>)
    ensures |r| <= |w|
    ensures forall i :: 0 <= i < |r| ==> !IsComment(r[i]) && r[i] in w
    ensures forall x :: x in w && !IsComment(x) ==> x in r
  {
    Filter(w, NotComment())
  }

  /** Dropping comments keeps the other lines in their order. */
  lemma DropCommentsSplit(xs: seq<string>, x: string, ys: seq<string>)
    ensures DropComments(xs + [x] + ys)
      == DropComments(xs) + (if IsComment(x) then [] else [x]) + DropComments(ys)
  {
    FilterSplit(xs, x, ys, NotComment());
  }

  /** `set_pre_context()`, with the source's slice `lst[i - p:i]` (see
      `Windows.PreWindowAsWritten`); without a window size the list stays
      empty. */
  function PreContextList(L: seq<string>, ix: seq<nat>, p: Option<int>): (r: seq<seq<string>>)
    ensures p.None? ==> r == []
    ensures p.Some? ==> |r| == |ix|
  {
    match p
    case None => []
    case Some(n) => seq(|ix|, j requires 0 <= j < |ix| => DropComments(PreWindowAsWritten(L, ix[j], n)))
  }

  /** `set_post_context()` */
  function PostContextList(L: seq<string>, ix: seq<nat>, p: Option<int>): (r: seq<seq<string>>)
    ensures p.None? ==> r == []
    ensures p.Some? ==> |r| == |ix|
  {
    match p
    case None => []
    case Some(n) => seq(|ix|, j requires 0 <= j < |ix| => DropComments(PostWindow(L, ix[j], n)))
  }

  /** What `MonolingualContext` holds once constructed. */
  datatype MonoContext = MonoContext(matches: seq<string>, files: seq<string>,
                                     pre: seq<seq<string>>, post: seq<seq<string>>)

  /** The matches of `hit` among the `role` lines of the cleaned list `T`,
      searched in the monolingual list, with their windows. */
  function ContextOf(T: seq<string>, hit: Matcher, ci: bool, role: Role, pre: Option<int>, post: Option<int>): MonoContext {
    var mono := MonoFilter(T, role);
    var loc := Locate(mono, hit, ci, role);
    TextListOnlyIsMono(T, role);
    var L := TextListOnly(mono);
    MonoContext(loc.matches, loc.files, PreContextList(L, loc.indices, pre), PostContextList(L, loc.indices, post))
  }

  /** `MonolingualContext(path, regex, pre_context, post_context, anno, src)`:
      with `anno=False` the tags are removed from the windows and the
      matches. */
  function MonolingualContext(T: seq<string>, hit: Matcher, ci: bool, role: Role,
                              pre: Option<int>, post: Option<int>, anno: bool): MonoContext
  {
    var c := ContextOf(T, hit, ci, role, pre, post);
    if anno then c
    else c.(matches := RemoveAnnotation(c.matches),
            pre := RemoveAnnotationNested(c.pre),
            post := RemoveAnnotationNested(c.post))
  }

  // ---------------------------------------------------------------------
  // Properties

  /** The matches are those a search of the whole list finds, one file id
      and, when its size is given, one window of each kind per match. */
  lemma ContextMatches(T: seq<string>, hit: Matcher, ci: bool, role: Role, pre: Option<int>, post: Option<int>)
    ensures var c := ContextOf(T, hit, ci, role, pre, post);
      c.matches == Locate(T, hit, ci, role).matches
      && |c.files| == |c.matches|
      && (pre.None? ==> c.pre == []) && (pre.Some? ==> |c.pre| == |c.matches|)
      && (post.None? ==> c.post == []) && (post.Some? ==> |c.post| == |c.matches|)
  {
    MonoSearchSameMatches(T, hit, ci, role);
  }

  /** The pre-context windows are those of the monolingual list around the
      positions the search finds in it. */
  lemma ContextPre(T: seq<string>, hit: Matcher, ci: bool, role: Role, pre: Option<int>, post: Option<int>)
    ensures var L := MonoFilter(T, role);
      ContextOf(T, hit, ci, role, pre, post).pre == PreContextList(L, Locate(L, hit, ci, role).indices, pre)
  {
    TextListOnlyIsMono(T, role);
  }

  /** The post-context windows are those of the monolingual list around the
      positions the search finds in it. */
  lemma ContextPost(T: seq<string>, hit: Matcher, ci: bool, role: Role, pre: Option<int>, post: Option<int>)
    ensures var L := MonoFilter(T, role);
      ContextOf(T, hit, ci, role, pre, post).post == PostContextList(L, Locate(L, hit, ci, role).indices, post)
  {
    TextListOnlyIsMono(T, role);
  }

  /** Every line of `L` is a `role` line or a provenance comment of `T`. */
  predicate MonoLines(T: seq<string>, L: seq<string>, role: Role) {
    forall k :: 0 <= k < |L| ==> (HasRoleTag(L[k], role) || IsFileComment(L[k])) && L[k] in T
  }

  /** A line of a window of `L` that survives the comment filter is a line
      of the searched side from the cleaned list, never a provenance
      comment or a line of the other side. */
  lemma WindowLine(T: seq<string>, L: seq<string>, role: Role, k: nat, x: string)
    requires MonoLines(T, L, role) && k < |L| && L[k] == x && !IsComment(x)
    ensures HasRoleTag(x, role) && x in T
  {
    if !HasRoleTag(x, role) {
      FileCommentIsComment(x);
    }
  }

  /** `x` is one of the `p` lines right above position `i` of `L`. */
  predicate Above(L: seq<string>, i: int, p: int, x: string) {
    exists k :: 0 <= k < |L| && i - p <= k < i && L[k] == x
  }

  /** `x` is one of the `p` lines right below position `i` of `L`. */
  predicate Below(L: seq<string>, i: int, p: int, x: string) {
    exists k :: 0 <= k < |L| && i < k <= i + p && L[k] == x
  }

  /** A line kept by the comment filter is an uncommented line of the window. */
  lemma DroppedLine(w: seq<string>, x: string)
    requires x in DropComments(w)
    ensures x in w && !IsComment(x)
  {
    var r := DropComments(w);
    var n :| 0 <= n < |r| && r[n] == x;
  }

  /** A line of a comment-free pre-context window of `L`. */
  lemma PreWindowLine(T: seq<string>, L: seq<string>, role: Role, i: nat, p: int, x: string)
    requires MonoLines(T, L, role)
    requires i < |L| && x in DropComments(PreWindowAsWritten(L, i, p))
    ensures HasRoleTag(x, role) && x in T
    ensures |DropComments(PreWindowAsWritten(L, i, p))| <= (if p < 0 then 0 else p)
    ensures Above(L, i, p, x)
  {
    var w := PreWindowAsWritten(L, i, p);
    var k := SliceLine(T, L, role, i - |w|, i, x);
    assert 0 <= k < |L| && i - p <= k < i && L[k] == x;
  }

  /** A line of a comment-free slice of `L` is a line of the searched side
      found at some position `k` of the slice. */
  lemma SliceLine(T: seq<string>, L: seq<string>, role: Role, lo: nat, hi: nat, x: string) returns (k: nat)
    requires MonoLines(T, L, role)
    requires lo <= hi <= |L| && x in DropComments(L[lo..hi])
    ensures HasRoleTag(x, role) && x in T
    ensures lo <= k < hi && L[k] == x
  {
    var w := L[lo..hi];
    DroppedLine(w, x);
    var m :| 0 <= m < |w| && w[m] == x;
    k := lo + m;
    WindowLine(T, L, role, k, x);
  }

  /** A line of a comment-free post-context window of `L`. */
  lemma PostWindowLine(T: seq<string>, L: seq<string>, role: Role, i: nat, p: nat, x: string)
    requires MonoLines(T, L, role)
    requires i < |L| && x in DropComments(PostWindow(L, i, p))
    ensures HasRoleTag(x, role) && x in T
    ensures |DropComments(PostWindow(L, i, p))| <= p
    ensures Below(L, i, p, x)
  {
    var w := PostWindow(L, i, p);
    DroppedLine(w, x);
    var m :| 0 <= m < |w| && w[m] == x;
    var k := i + 1 + m;
    assert k < |L| && L[k] == x;
    WindowLine(T, L, role, k, x);
    assert i < k <= i + p;
  }

  /** A pre-context window of the list, as for `PreWindowLine`. */
  lemma PreListLines(T: seq<string>, L: seq<string>, role: Role, ix: seq<nat>, p: int, j: nat, x: string)
    requires MonoLines(T, L, role)
    requires forall m :: 0 <= m < |ix| ==> ix[m] < |L|
    requires j < |ix| && x in PreContextList(L, ix, Some(p))[j]
    ensures HasRoleTag(x, role) && x in T
    ensures |PreContextList(L, ix, Some(p))[j]| <= (if p < 0 then 0 else p)
    ensures Above(L, ix[j], p, x)
  {
    PreWindowLine(T, L, role, ix[j], p, x);
  }

  /** A post-context window of the list, as for `PostWindowLine`. */
  lemma PostListLines(T: seq<string>, L: seq<string>, role: Role, ix: seq<nat>, p: nat, j: nat, x: string)
    requires MonoLines(T, L, role)
    requires forall m :: 0 <= m < |ix| ==> ix[m] < |L|
    requires j < |ix| && x in PostContextList(L, ix, Some(p))[j]
    ensures HasRoleTag(x, role) && x in T
    ensures |PostContextList(L, ix, Some(p))[j]| <= p
    ensures Below(L, ix[j], p, x)
  {
    PostWindowLine(T, L, role, ix[j], p, x);
  }

  /** A pre-context window of the list: the source's slice above position
      `ix[j]`, comments dropped, with the lines `PreListLines` describes. */
  lemma PreListWindow(T: seq<string>, L: seq<string>, role: Role, ix: seq<nat>, p: int, j: nat)
    requires MonoLines(T, L, role)
    requires forall m :: 0 <= m < |ix| ==> ix[m] < |L|
    requires j < |ix|
    ensures var i := ix[j];
      var w := PreContextList(L, ix, Some(p))[j];
      w == DropComments(PreWindowAsWritten(L, i, p))
      && (0 <= p <= i ==> w == DropComments(L[i - p..i]))
      && (i == 0 || i >= p || |L| + i <= p ==> w == DropComments(PreWindow(L, i, p)))
      && |w| <= (if p < 0 then 0 else p)
      && forall x :: x in w ==> HasRoleTag(x, role) && x in T && Above(L, i, p, x)
  {
    var w := PreContextList(L, ix, Some(p))[j];
    PreWindowAgreement(L, ix[j], p);
    forall x | x in w
      ensures HasRoleTag(x, role) && x in T && Above(L, ix[j], p, x)
    {
      PreListLines(T, L, role, ix, p, j, x);
    }
  }

  /** A post-context window of the list: the slice below position `ix[j]`,
      cut at the end of the list, comments dropped. */
  lemma PostListWindow(T: seq<string>, L: seq<string>, role: Role, ix: seq<nat>, p: nat, j: nat)
    requires MonoLines(T, L, role)
    requires forall m :: 0 <= m < |ix| ==> ix[m] < |L|
    requires j < |ix|
    ensures var i := ix[j];
      var w := PostContextList(L, ix, Some(p))[j];
      w == DropComments(PostWindow(L, i, p))
      && |w| <= p
      && forall x :: x in w ==> HasRoleTag(x, role) && x in T && Below(L, i, p, x)
  {
    var w := PostContextList(L, ix, Some(p))[j];
    forall x | x in w
      ensures HasRoleTag(x, role) && x in T && Below(L, ix[j], p, x)
    {
      PostListLines(T, L, role, ix, p, j, x);
    }
  }

  /** Each pre-context window is the source's slice of the monolingual
      list above the match, comments dropped: the `p` lines right above it
      when there are that many, the intended window whenever the slice does
      not wrap, and in every case at most `p` lines of the searched side
      taken from the `p` lines right above the match. */
  lemma PreContextLines(T: seq<string>, hit: Matcher, ci: bool, role: Role, p: int, post: Option<int>, j: nat)
    requires j < |ContextOf(T, hit, ci, role, Some(p), post).pre|
    ensures var L := MonoFilter(T, role);
      var ix := Locate(L, hit, ci, role).indices;
      j < |ix| && var i := ix[j];
      var w := ContextOf(T, hit, ci, role, Some(p), post).pre[j];
      i < |L| && w == DropComments(PreWindowAsWritten(L, i, p))
      && (0 <= p <= i ==> w == DropComments(L[i - p..i]))
      && (i == 0 || i >= p || |L| + i <= p ==> w == DropComments(PreWindow(L, i, p)))
      && |w| <= (if p < 0 then 0 else p)
      && forall x :: x in w ==> HasRoleTag(x, role) && x in T && Above(L, i, p, x)
  {
    var L := MonoFilter(T, role);
    ContextPre(T, hit, ci, role, Some(p), post);
    PreListWindow(T, L, role, Locate(L, hit, ci, role).indices, p, j);
  }

  /** Each post-context window is the slice of the monolingual list right
      below the match, cut at the end of the list, comments dropped: at most
      `p` lines of the searched side, all from the `p` lines below it. */
  lemma PostContextLines(T: seq<string>, hit: Matcher, ci: bool, role: Role, pre: Option<int>, p: nat, j: nat)
    requires j < |ContextOf(T, hit, ci, role, pre, Some(p)).post|
    ensures var L := MonoFilter(T, role);
      var ix := Locate(L, hit, ci, role).indices;
      j < |ix| && var i := ix[j];
      var w := ContextOf(T, hit, ci, role, pre, Some(p)).post[j];
      i < |L| && w == DropComments(PostWindow(L, i, p))
      && |w| <= p
      && forall x :: x in w ==> HasRoleTag(x, role) && x in T && Below(L, i, p, x)
  {
    var L := MonoFilter(T, role);
    ContextPost(T, hit, ci, role, pre, Some(p));
    PostListWindow(T, L, role, Locate(L, hit, ci, role).indices, p, j);
  }

  /** Without annotations every list keeps its shape, and each line loses
      exactly the characters of the tags `findall` finds in it. */
  lemma MonoAnnotationRemoved(T: seq<string>, hit: Matcher, ci: bool, role: Role, pre: Option<int>, post: Option<int>)
    ensures var a := MonolingualContext(T, hit, ci, role, pre, post, true);
      var r := MonolingualContext(T, hit, ci, role, pre, post, false);
      |r.matches| == |a.matches| && |r.pre| == |a.pre| && |r.post| == |a.post| && r.files == a.files
      && (forall j :: 0 <= j < |a.matches| ==>
            |r.matches[j]| + |Concat(FindTags(a.matches[j], AnyTag))| == |a.matches[j]|)
      && (forall j, i :: 0 <= j < |a.pre| && 0 <= i < |a.pre[j]| ==>
            |r.pre[j][i]| + |Concat(FindTags(a.pre[j][i], AnyTag))| == |a.pre[j][i]|)
      && (forall j, i :: 0 <= j < |a.post| && 0 <= i < |a.post[j]| ==>
            |r.post[j][i]| + |Concat(FindTags(a.post[j][i], AnyTag))| == |a.post[j][i]|)
  {
    var c := ContextOf(T, hit, ci, role, pre, post);
    AnnotationAccounted(c.matches);
    NestedAccounted(c.pre);
    NestedAccounted(c.post);
  }
}

=== FILE: monostats.dfy ===
/** Monolingual statistics (model/monolingual_statistics.py,
    `MonolingualStats`): unparsed, the matches without annotation are
    counted; parsed, every match gets one entry holding the token, POS and
    lemma lists that the alignments containing its id store for it. */
module MonoStats {
  import opened Base
  import opened Text
  import opened Corpus
  import opened Meta
  import opened Tally
  import opened Ops
  import opened RecordIndex
  import opened Locator
  import MonoContext

  // ---------------------------------------------------------------------
  // Unparsed mode

  /** `__process_counts_unparsed()`: remove the annotation of every match,
      then `get_counts`. */
  function CountsUnparsed(matches: seq<string>): (c: Counts<string>)
    ensures forall k :: k in c.count <==> exists i :: 0 <= i < |matches| && k == RemoveTags(matches[i], AnyTag)
  {
    var clean := RemoveAnnotation(matches);
    CleanedMembers(matches);
    CountsOf(clean)
  }

  /** The lines without annotation are exactly the matches without tags. */
  lemma CleanedMembers(matches: seq<string>)
    ensures forall k :: k in RemoveAnnotation(matches) <==>
      exists i :: 0 <= i < |matches| && k == RemoveTags(matches[i], AnyTag)
  {
    var clean := RemoveAnnotation(matches);
    forall k ensures k in clean <==> exists i :: 0 <= i < |matches| && k == RemoveTags(matches[i], AnyTag) {
      if k in clean {
        var i :| 0 <= i < |clean| && clean[i] == k;
        assert k == RemoveTags(matches[i], AnyTag);
      }
      if exists i :: 0 <= i < |matches| && k == RemoveTags(matches[i], AnyTag) {
        var i :| 0 <= i < |matches| && k == RemoveTags(matches[i], AnyTag);
        assert clean[i] == k;
      }
    }
  }

  /** Every cleaned match is counted at least once and the counts add up
      to the number of matches. */
  lemma UnparsedTotal(matches: seq<string>)
    ensures forall k :: k in CountsUnparsed(matches).keys ==> k in CountsUnparsed(matches).count
    ensures forall k :: k in CountsUnparsed(matches).count ==> CountsUnparsed(matches).count[k] >= 1
    ensures Sum(Values(CountsUnparsed(matches))) == |matches|
  {
    CountsTotal(RemoveAnnotation(matches));
  }

  /** `get_counts()` unparsed: the number of distinct cleaned matches. */
  function UnparsedCount(matches: seq<string>): (r: nat)
    ensures r == |set i | 0 <= i < |matches| :: RemoveTags(matches[i], AnyTag)|
    ensures r <= |matches|
    ensures |matches| > 0 ==> r >= 1
  {
    var c := CountsUnparsed(matches);
    var clean := RemoveAnnotation(matches);
    assert |matches| > 0 ==> clean[0] in c.keys;
    DistinctSize(clean);
    CleanedSet(matches);
    |c.keys|
  }

  /** The set of cleaned matches, stated on the matches. */
  lemma CleanedSet(matches: seq<string>)
    ensures (set x | x in RemoveAnnotation(matches))
         == (set i | 0 <= i < |matches| :: RemoveTags(matches[i], AnyTag))
  {
    var clean := RemoveAnnotation(matches);
    forall x | x in clean
      ensures x in (set i | 0 <= i < |matches| :: RemoveTags(matches[i], AnyTag))
    {
      var i :| 0 <= i < |clean| && clean[i] == x;
    }
  }

  // ---------------------------------------------------------------------
  // Parsed mode

  /** `match_ID in alignment`: the alignment key contains the id. */
  function KeyHolds(mid: string): string -> bool {
    key => Contains(key, mid)
  }

  /** The inner loop over the alignments `keys` of a file, in dict order,
      for a match with id `mid`: an alignment whose key contains the id
      contributes `lines[mid]`, which raises KeyError (None) when the
      alignment stores no line under the id. */
  function MonoGather(al: Alignments, keys: seq<string>, mid: string): (r: Option<seq<TokenMeta>>)
    ensures r.None? <==> exists j :: 0 <= j < |keys| && Contains(keys[j], mid) && mid !in TableOf(al, keys[j])
    ensures r.Some? ==> var hk := Filter(keys, KeyHolds(mid));
      |r.value| == |hk|
      && forall k :: 0 <= k < |hk| ==> mid in TableOf(al, hk[k]) && r.value[k] == TableOf(al, hk[k])[mid]
    decreases |keys|
  {
    if |keys| == 0 then Some([])
    else
      var init := keys[..|keys| - 1];
      var key := keys[|keys| - 1];
      assert forall j :: 0 <= j < |init| ==> init[j] == keys[j];
      match MonoGather(al, init, mid)
      case None => None
      case Some(acc) =>
        if !Contains(key, mid) then Some(acc)
        else if mid in TableOf(al, key) then Some(acc + [TableOf(al, key)[mid]])
        else None
  }

  /** One value of `__counts`: the match without its id tag and the lists
      gathered for it. */
  datatype MonoEntry = MonoEntry(match_: string, pos: seq<seq<string>>, lemmas: seq<seq<string>>, token: seq<seq<string>>)

  /** The entry of one match whose file id is `file`. A match without an
      id tag skips every alignment (`continue`), so its lists stay empty. */
  function EntryOf(ix: ParsedIndex, file: string, match_: string, role: Role): (r: Option<MonoEntry>)
    ensures r.Some? ==> |r.value.pos| == |r.value.token| && |r.value.lemmas| == |r.value.token|
  {
    var al := FileLevel(ix, file);
    var clean := RemoveTags(match_, RoleTag(role));
    match FirstTag(match_, RoleTag(role))
    case None => Some(MonoEntry(clean, [], [], []))
    case Some(mid) =>
      match MonoGather(al, al.order, mid)
      case None => None
      case Some(ms) =>
        Some(MonoEntry(clean,
                       seq(|ms|, k requires 0 <= k < |ms| => ms[k].pos),
                       seq(|ms|, k requires 0 <= k < |ms| => ms[k].lemmas),
                       seq(|ms|, k requires 0 <= k < |ms| => ms[k].tokens)))
  }

  /** The entry of each match, built from its file id; the loop body of
      `__process_counts` does not depend on earlier iterations. */
  function EntryResults(ix: ParsedIndex, matches: seq<string>, files: seq<string>, role: Role): (rs: seq<Option<MonoEntry>>)
    requires |matches| <= |files|
    ensures |rs| == |matches|
  {
    seq(|matches|, i requires 0 <= i < |matches| => EntryOf(ix, files[i], matches[i], role))
  }

  /** What `__process_counts` holds after some matches: the entries (keyed
      `str(i)` in the source) and `__sets_files`. */
  datatype MonoProcessed = MonoProcessed(entries: seq<MonoEntry>, setsFiles: seq<seq<string>>)

  /** The loop of `__process_counts()` over the first `n` matches, given
      the entry each one yields: it aborts at the first entry that cannot
      be built; otherwise entry `i` belongs to match `i` and
      `__sets_files[i]` is `[files[i]]`. */
  function Collect(rs: seq<Option<MonoEntry>>, files: seq<string>, n: nat): (r: Option<MonoProcessed>)
    requires n <= |rs| <= |files|
    ensures r.None? <==> exists i :: 0 <= i < n && rs[i].None?
    ensures r.Some? ==> |r.value.entries| == n && |r.value.setsFiles| == n
    ensures r.Some? ==> forall i :: 0 <= i < n ==> Some(r.value.entries[i]) == rs[i] && r.value.setsFiles[i] == [files[i]]
    decreases n
  {
    if n == 0 then Some(MonoProcessed([], []))
    else
      match Collect(rs, files, n - 1)
      case None => None
      case Some(p) =>
        match rs[n - 1]
        case None => None
        case Some(e) => Some(MonoProcessed(p.entries + [e], p.setsFiles + [[files[n - 1]]]))
  }

  /** `__process_counts()`. */
  function ProcessCounts(ix: ParsedIndex, matches: seq<string>, files: seq<string>, role: Role): Option<MonoProcessed>
    requires |matches| <= |files|
  {
    Collect(EntryResults(ix, matches, files, role), files, |matches|)
  }

  /** `get_counts()` parsed: the number of entries of `__counts`. */
  function ParsedCount(ix: ParsedIndex, matches: seq<string>, files: seq<string>, role: Role): (r: Option<nat>)
    requires |matches| <= |files|
    ensures r.Some? ==> r.value == |matches|
    ensures r.None? <==> exists i :: 0 <= i < |matches| && EntryOf(ix, files[i], matches[i], role).None?
  {
    match ProcessCounts(ix, matches, files, role)
    case None => None
    case Some(p) => Some(|p.entries|)
  }

  /** Processing aborts exactly when the entry of some match cannot be
      built; otherwise there is one entry and one `__sets_files` item per
      match, in match order. */
  lemma ProcessedEntries(ix: ParsedIndex, matches: seq<string>, files: seq<string>, role: Role)
    requires |matches| <= |files|
    ensures ProcessCounts(ix, matches, files, role).None? <==>
      exists i :: 0 <= i < |matches| && EntryOf(ix, files[i], matches[i], role).None?
    ensures var r := ProcessCounts(ix, matches, files, role);
      r.Some? ==> (|r.value.entries| == |matches| && |r.value.setsFiles| == |matches|
        && forall i :: 0 <= i < |matches| ==>
          Some(r.value.entries[i]) == EntryOf(ix, files[i], matches[i], role) && r.value.setsFiles[i] == [files[i]])
  {
    var rs := EntryResults(ix, matches, files, role);
    assert forall i :: 0 <= i < |matches| ==> rs[i] == EntryOf(ix, files[i], matches[i], role);
  }

  // ---------------------------------------------------------------------
  // Properties

  /** The entry's match is the match with its id tags removed; a match
      that carries no id tag is kept as it is and gathers nothing. */
  lemma EntryMatch(ix: ParsedIndex, file: string, match_: string, role: Role)
    ensures EntryOf(ix, file, match_, role).Some? ==>
      EntryOf(ix, file, match_, role).value.match_ == RemoveTags(match_, RoleTag(role))
    ensures NoTags(match_, RoleTag(role)) ==> EntryOf(ix, file, match_, role) == Some(MonoEntry(match_, [], [], []))
  {
  }

  /** With id `mid`, the entry holds, in dict order, the tokens, POS and
      lemmas that each alignment whose key contains `mid` stores under
      `mid`; the other alignments contribute nothing. */
  lemma EntryLists(ix: ParsedIndex, file: string, match_: string, role: Role, mid: string)
    requires FirstTag(match_, RoleTag(role)) == Some(mid)
    requires EntryOf(ix, file, match_, role).Some?
    ensures var al := FileLevel(ix, file);
      var hk := Filter(al.order, KeyHolds(mid));
      var e := EntryOf(ix, file, match_, role).value;
      |e.token| == |hk|
      && forall k :: 0 <= k < |hk| ==>
        e.token[k] == TableOf(al, hk[k])[mid].tokens
        && e.pos[k] == TableOf(al, hk[k])[mid].pos
        && e.lemmas[k] == TableOf(al, hk[k])[mid].lemmas
  {
  }

  /** Building an entry fails exactly when the match has an id and some
      alignment whose key contains it stores no line under it. */
  lemma EntryFailsWhen(ix: ParsedIndex, file: string, match_: string, role: Role)
    ensures EntryOf(ix, file, match_, role).None? <==>
      exists mid :: FirstTag(match_, RoleTag(role)) == Some(mid)
        && exists j :: 0 <= j < |FileLevel(ix, file).order| && Contains(FileLevel(ix, file).order[j], mid)
             && mid !in TableOf(FileLevel(ix, file), FileLevel(ix, file).order[j])
  {
    if EntryOf(ix, file, match_, role).None? {
      var mid := FirstTag(match_, RoleTag(role)).value;
      assert MonoGather(FileLevel(ix, file), FileLevel(ix, file).order, mid).None?;
    }
  }

  /** Parsed statistics report one entry per match that monolingual
      context finds for the same pattern and side (with any window
      sizes). */
  lemma ParsedCountIsContextCount(T: seq<string>, hit: Matcher, ci: bool, role: Role, ix: ParsedIndex,
                                  pre: Option<int>, post: Option<int>)
    ensures var loc := Locate(T, hit, ci, role);
      ParsedCount(ix, loc.matches, loc.files, role).Some? ==>
        ParsedCount(ix, loc.matches, loc.files, role).value
        == |MonoContext.ContextOf(T, hit, ci, role, pre, post).matches|
  {
    MonoContext.ContextMatches(T, hit, ci, role, pre, post);
  }
}

=== FILE: ops.dfy ===
/** The list utilities of `Processing` (model/processing.py): annotation and
    punctuation removal, trimming to a number of tokens, flattening, and the
    role filter. */
module Ops {
  import opened Base
  import opened Text
  import opened Corpus

  // ---------------------------------------------------------------------
  // remove_annotation

  /** `remove_annotation(data, nested=False)`: every `(xyz)="N">` tag is
      deleted from every line. */
  function RemoveAnnotation(data: seq<string>): (r: seq<string>)
    ensures |r| == |data|
    ensures forall i :: 0 <= i < |data| ==> |r[i]| <= |data[i]|
    ensures forall i :: 0 <= i < |data| && NoTags(data[i], AnyTag) ==> r[i] == data[i]
  {
    seq(|data|, i requires 0 <= i < |data| => RemoveTags(data[i], AnyTag))
  }

  /** `remove_annotation(data, nested=True)`: the same on every inner list. */
  function RemoveAnnotationNested(data: seq<seq<string>>): (r: seq<seq<string>>)
    ensures |r| == |data|
    ensures forall i :: 0 <= i < |data| ==> |r[i]| == |data[i]|
  {
    seq(|data|, i requires 0 <= i < |data| => RemoveAnnotation(data[i]))
  }

  /** What the substitution deletes is exactly what `findall` finds: the
      kept characters and the found tags together account for the whole
      line. */
  lemma {:induction false} TagAccounting(s: string, kind: TagKind)
    ensures |RemoveTags(s, kind)| + |Concat(FindTags(s, kind))| == |s|
    decreases |s|
  {
    if |s| > 0 {
      match TagLen(s, kind)
      case Some(n) =>
        TagAccounting(s[n..], kind);
        ConcatCons(s[..n], FindTags(s[n..], kind));
      case None =>
        TagAccounting(s[1..], kind);
    }
  }

  /** Each line of a list loses exactly the characters of its tags. */
  lemma AnnotationAccounted(xs: seq<string>)
    ensures forall j :: 0 <= j < |xs| ==>
      |RemoveAnnotation(xs)[j]| + |Concat(FindTags(xs[j], AnyTag))| == |xs[j]|
  {
    forall j | 0 <= j < |xs|
      ensures |RemoveAnnotation(xs)[j]| + |Concat(FindTags(xs[j], AnyTag))| == |xs[j]|
    {
      TagAccounting(xs[j], AnyTag);
    }
  }

  /** The same for every line of every inner list. */
  lemma NestedAccounted(xss: seq<seq<string>>)
    ensures forall j, i :: 0 <= j < |xss| && 0 <= i < |xss[j]| ==>
      |RemoveAnnotationNested(xss)[j][i]| + |Concat(FindTags(xss[j][i], AnyTag))| == |xss[j][i]|
  {
    forall j | 0 <= j < |xss|
      ensures forall i :: 0 <= i < |xss[j]| ==>
        |RemoveAnnotationNested(xss)[j][i]| + |Concat(FindTags(xss[j][i], AnyTag))| == |xss[j][i]|
    {
      AnnotationAccounted(xss[j]);
    }
  }

  /** A line that starts with its only tag loses exactly that tag. */
  lemma RemoveLeadingAnnotation(s: string, n: nat)
    requires TagLen(s, AnyTag) == Some(n) && NoTags(s[n..], AnyTag)
    ensures RemoveAnnotation([s]) == [s[n..]]
    ensures |s[n..]| + |Concat(FindTags(s, AnyTag))| == |s|
  {
    RemoveLeadingTag(s, AnyTag, n);
    TagAccounting(s, AnyTag);
  }

  // ---------------------------------------------------------------------
  // remove_punctuation

  /** `re.sub(f"[{punct_marks}]", "", s)`: drop every character of the
      class. */
  function DropChars(s: string, punct: set<char>): (r: string)
    ensures |r| <= |s|
    ensures forall i :: 0 <= i < |r| ==> r[i] !in punct && r[i] in s
    ensures (forall i :: 0 <= i < |s| ==> s[i] !in punct) ==> r == s
    ensures forall c :: c in s && c !in punct ==> c in r
    decreases |s|
  {
    if |s| == 0 then ""
    else if s[0] in punct then DropChars(s[1..], punct)
    else [s[0]] + DropChars(s[1..], punct)
  }

  /** A character outside the class. */
  function KeepChar(punct: set<char>): char -> bool {
    c => c !in punct
  }

  /** Dropping the class is filtering its complement: the kept characters
      are exactly those outside the class, in their order. */
  lemma {:induction false} DropCharsIsFilter(s: string, punct: set<char>)
    ensures DropChars(s, punct) == Filter(s, KeepChar(punct))
    decreases |s|
  {
    if |s| > 0 {
      var keep := KeepChar(punct);
      var head := [s[0]];
      DropCharsIsFilter(s[1..], punct);
      assert head[..0] == [];
      assert Filter(head, keep) == (if s[0] in punct then [] else head);
      FilterAppend(head, s[1..], keep);
      assert head + s[1..] == s;
    }
  }

  /** One cleaned item: the punctuation dropped, then `.strip()`. */
  function CleanPunctuation(s: string, punct: set<char>): (r: string)
    ensures |r| <= |s|
    ensures |r| > 0 ==> !IsWhitespace(r[0]) && !IsWhitespace(r[|r| - 1])
  {
    StripSpaces(DropChars(s, punct))
  }

  /** No character of the class survives, and every character kept comes
      from the item. */
  lemma PunctuationGone(s: string, punct: set<char>)
    ensures forall i :: 0 <= i < |CleanPunctuation(s, punct)| ==>
      CleanPunctuation(s, punct)[i] !in punct && CleanPunctuation(s, punct)[i] in s
  {
    var d := DropChars(s, punct);
    StripSlice(d, IsWhitespace);
  }

  /** Cleaning twice is cleaning once. */
  lemma PunctuationIdempotent(s: string, punct: set<char>)
    ensures CleanPunctuation(CleanPunctuation(s, punct), punct) == CleanPunctuation(s, punct)
  {
    var r := CleanPunctuation(s, punct);
    PunctuationGone(s, punct);
    assert DropChars(r, punct) == r;
    if |r| == 0 {
      assert StripSpaces("") == "";
    }
  }

  /** `remove_punctuation(data, punct_marks, nested=False)` */
  function RemovePunctuation(data: seq<string>, punct: set<char>): (r: seq<string>)
    ensures |r| == |data|
    ensures forall i :: 0 <= i < |data| ==> |r[i]| <= |data[i]|
  {
    seq(|data|, i requires 0 <= i < |data| => CleanPunctuation(data[i], punct))
  }

  /** `remove_punctuation(data, punct_marks, nested=True)` */
  function RemovePunctuationNested(data: seq<seq<string>>, punct: set<char>): (r: seq<seq<string>>)
    ensures |r| == |data|
    ensures forall i :: 0 <= i < |data| ==> |r[i]| == |data[i]|
  {
    seq(|data|, i requires 0 <= i < |data| => RemovePunctuation(data[i], punct))
  }

  /** Applying the nested removal twice changes nothing more. */
  lemma RemovePunctuationIdempotent(data: seq<seq<string>>, punct: set<char>)
    ensures RemovePunctuationNested(RemovePunctuationNested(data, punct), punct)
         == RemovePunctuationNested(data, punct)
  {
    var once := RemovePunctuationNested(data, punct);
    forall i, j | 0 <= i < |data| && 0 <= j < |data[i]|
      ensures RemovePunctuationNested(once, punct)[i][j] == once[i][j]
    {
      PunctuationIdempotent(data[i][j], punct);
    }
    forall i | 0 <= i < |data| ensures RemovePunctuationNested(once, punct)[i] == once[i] {
    }
  }

  // ---------------------------------------------------------------------
  // trim_translation and is_nested

  /** An element of a Python list that may hold strings, lists of strings
      or anything else. */
  datatype Item = Str(s: string) | Lst(xs: seq<string>) | Other

  /** `" ".join(s.split()[0:span])` */
  function TrimWords(s: string, span: int): string {
    Join(" ", PySlice(Words(s), 0, span))
  }

  /** A slice of words is still a list of words. */
  lemma SliceOfWords(s: string, span: int)
    ensures forall i :: 0 <= i < |PySlice(Words(s), 0, span)| ==>
      |PySlice(Words(s), 0, span)[i]| > 0 && NoSpace(PySlice(Words(s), 0, span)[i])
  {
    var ws := Words(s);
    var lo := SliceBound(0, |ws|);
    var hi := SliceBound(span, |ws|);
    if lo < hi {
      forall i | 0 <= i < hi - lo ensures PySlice(ws, 0, span)[i] == ws[lo + i] {}
    }
  }

  /** The words of a trimmed string are the first `span` words of the
      string (all but the last `-span` when `span` is negative). */
  lemma TrimmedWords(s: string, span: int)
    ensures Words(TrimWords(s, span)) == PySlice(Words(s), 0, span)
    ensures span >= 0 ==> Words(TrimWords(s, span)) == Words(s)[..if span <= |Words(s)| then span else |Words(s)|]
    ensures span < 0 ==> Words(TrimWords(s, span)) == Words(s)[..if -span <= |Words(s)| then |Words(s)| + span else 0]
  {
    SliceOfWords(s, span);
    WordsOfJoin(PySlice(Words(s), 0, span));
  }

  /** Trimming to a non-negative span twice is trimming once; a negative
      span drops more words each time. */
  lemma TrimIdempotent(s: string, span: int)
    requires span >= 0
    ensures TrimWords(TrimWords(s, span), span) == TrimWords(s, span)
  {
    var ws := PySlice(Words(s), 0, span);
    TrimmedWords(s, span);
    TrimmedWords(TrimWords(s, span), span);
    assert PySlice(ws, 0, span) == ws;
  }

  /** `trim_translation(to_trim, span)`: a string is trimmed, a list is
      joined by spaces and trimmed, anything else is skipped. */
  function TrimTranslation(items: seq<Item>, span: int): (r: seq<string>)
    ensures |r| <= |items|
    ensures (forall i :: 0 <= i < |items| ==> !items[i].Other?) ==> |r| == |items|
    decreases |items|
  {
    if |items| == 0 then []
    else
      var rest := TrimTranslation(items[1..], span);
      match items[0]
      case Str(s) => [TrimWords(s, span)] + rest
      case Lst(xs) => [TrimWords(Join(" ", xs), span)] + rest
      case Other => rest
  }

  /** Each trimmed string holds the first `span` words of its item. */
  lemma {:induction false} TrimTranslationWords(items: seq<Item>, span: int, i: nat)
    requires i < |items| && forall k :: 0 <= k < |items| ==> !items[k].Other?
    ensures var r := TrimTranslation(items, span);
      |r| == |items|
      && Words(r[i]) == PySlice(Words(match items[i] case Str(s) => s case Lst(xs) => Join(" ", xs) case Other => ""), 0, span)
    decreases |items|
  {
    if i > 0 {
      TrimTranslationWords(items[1..], span, i - 1);
    } else {
      match items[0]
      case Str(s) => TrimmedWords(s, span);
      case Lst(xs) => TrimmedWords(Join(" ", xs), span);
    }
  }

  /** `is_nested(lst)`: a list holding a list is summed into one flat list
      (`sum(lst, [])`), which raises TypeError (None) when it also holds a
      non-list; a list without lists is returned as it is. */
  function Flatten(items: seq<Item>): (r: Option<seq<Item>>)
    ensures r.None? <==> (exists i :: 0 <= i < |items| && items[i].Lst?) && (exists i :: 0 <= i < |items| && !items[i].Lst?)
    ensures r.Some? ==> forall i :: 0 <= i < |r.value| ==> !r.value[i].Lst?
    ensures (forall i :: 0 <= i < |items| ==> !items[i].Lst?) ==> r == Some(items)
  {
    if forall i :: 0 <= i < |items| ==> !items[i].Lst? then Some(items)
    else if exists i :: 0 <= i < |items| && !items[i].Lst? then None
    else
      var flat := Concat(seq(|items|, i requires 0 <= i < |items| => items[i].xs));
      Some(seq(|flat|, k requires 0 <= k < |flat| => Str(flat[k])))
  }

  /** The strings of a flattened list of lists are the strings of its
      lists, in order, and flattening again changes nothing. */
  lemma FlattenLists(items: seq<Item>)
    requires |items| > 0 && forall i :: 0 <= i < |items| ==> items[i].Lst?
    ensures Flatten(items).Some?
    ensures var f := Flatten(items).value;
      |f| == |Concat(seq(|items|, i requires 0 <= i < |items| => items[i].xs))|
      && (forall k :: 0 <= k < |f| ==> f[k] == Str(Concat(seq(|items|, i requires 0 <= i < |items| => items[i].xs))[k]))
      && Flatten(f) == Some(f)
  {
    assert items[0].Lst?;
  }

  // ---------------------------------------------------------------------
  // filter_alignment

  function RoleLine(role: Role): string -> bool {
    line => IsRoleLine(line, role)
  }

  /** `filter_alignment(data, src)`: the lines of one side, in order. */
  function FilterAlignment(data: seq<string>, role: Role): (r: seq<string>)
    ensures forall i :: 0 <= i < |r| ==> IsRoleLine(r[i], role)
    ensures forall i :: 0 <= i < |data| && IsRoleLine(data[i], role) ==> data[i] in r
  {
    Filter(data, RoleLine(role))
  }

  /** No line is on both sides, and filtering a side again keeps it. */
  lemma FilterAlignmentSides(data: seq<string>)
    ensures forall x :: x in FilterAlignment(data, Src) ==> x !in FilterAlignment(data, Trg)
    ensures FilterAlignment(FilterAlignment(data, Src), Src) == FilterAlignment(data, Src)
    ensures FilterAlignment(FilterAlignment(data, Trg), Trg) == FilterAlignment(data, Trg)
  {
    forall x | x in FilterAlignment(data, Src) ensures x !in FilterAlignment(data, Trg) {
      assert x[1] == 's';
    }
    FilterFilter(data, RoleLine(Src), RoleLine(Src));
    FilterFilter(data, RoleLine(Trg), RoleLine(Trg));
  }
}

=== FILE: records.dfy ===
/** The record segmenters: the lines around a match up to the enclosing
    `=` separators (model/processing.py, `__process_alignments`, and
    model/bilingual_context.py, `__get_segments`), and the alignment key
    that names a record in the record index. */
module Records {
  import opened Base
  import opened Text
  import opened Corpus
  import opened Meta

  // ---------------------------------------------------------------------
  // Scanning distances

  /** The line read by step `u` of a leftward scan from `index`: Python's
      `T[index - u - 1]`, where negative positions wrap to the end. */
  function LeftAt(T: seq<string>, index: nat, u: nat): string
    requires index < |T| && u < index + |T|
  {
    PyAt(T, index - u - 1)
  }

  /** The line read by step `u` of a rightward scan from `index`. */
  function RightAt(T: seq<string>, index: nat, u: nat): string
    requires index + u + 1 < |T|
  {
    T[index + u + 1]
  }

  /** Number of lines a leftward scan reads before it stops, counting from
      its `t`-th step: the scan stops at a separator, or when the next
      position would fall below `-|T|` (Python raises IndexError). */
  function LeftFree(T: seq<string>, index: nat, t: nat): (k: nat)
    requires index < |T| && t <= index + |T|
    ensures t + k <= index + |T|
    ensures forall u :: t <= u < t + k ==> !IsSeparator(LeftAt(T, index, u))
    ensures t + k == index + |T| || IsSeparator(LeftAt(T, index, t + k))
    decreases index + |T| - t
  {
    if index - t - 1 < -|T| then 0
    else if IsSeparator(PyAt(T, index - t - 1)) then 0
    else 1 + LeftFree(T, index, t + 1)
  }

  /** Number of lines a rightward scan reads before it stops, counting from
      its `t`-th step: the scan stops at a separator or at the end. */
  function RightFree(T: seq<string>, index: nat, t: nat): (k: nat)
    requires index + t < |T|
    ensures index + t + k < |T|
    ensures forall u :: t <= u < t + k ==> !IsSeparator(RightAt(T, index, u))
    ensures index + t + k + 1 == |T| || IsSeparator(RightAt(T, index, t + k))
    decreases |T| - t
  {
    if index + t + 1 >= |T| then 0
    else if IsSeparator(T[index + t + 1]) then 0
    else 1 + RightFree(T, index, t + 1)
  }

  /** A separator follows position `index`. */
  predicate SeparatorAfter(T: seq<string>, index: nat) {
    exists q :: index < q < |T| && IsSeparator(T[q])
  }

  /** The rightward scan ends at a separator exactly when one follows. */
  lemma RightScanEnd(T: seq<string>, index: nat)
    requires index < |T|
    ensures SeparatorAfter(T, index) <==> index + RightFree(T, index, 0) + 1 < |T|
  {
    var k := RightFree(T, index, 0);
    if index + k + 1 == |T| {
      forall q | index < q < |T| ensures !IsSeparator(T[q]) {
        assert T[q] == RightAt(T, index, q - index - 1);
      }
    } else {
      assert IsSeparator(T[index + k + 1]);
    }
  }

  // ---------------------------------------------------------------------
  // __process_alignments (model/processing.py)

  /** The lines before the match, in document order, newlines stripped. */
  function PreOf(T: seq<string>, index: nat): (r: seq<string>)
    requires index < |T|
    ensures |r| == LeftFree(T, index, 0)
  {
    var k := LeftFree(T, index, 0);
    seq(k, j requires 0 <= j < k => StripNewlines(LeftAt(T, index, k - 1 - j)))
  }

  /** The lines after the match, in document order, newlines stripped. */
  function PostOf(T: seq<string>, index: nat): (r: seq<string>)
    requires index < |T|
    ensures |r| == RightFree(T, index, 0)
  {
    var k := RightFree(T, index, 0);
    seq(k, j requires 0 <= j < k => StripNewlines(RightAt(T, index, j)))
  }

  /** The record of the match at `index`: every line from the separator
      above it (wrapping round the start of the file, as Python's negative
      indices do) to the separator below it or the end of the file. */
  function Record(T: seq<string>, index: nat): (r: seq<string>)
    requires index < |T|
    ensures |r| == LeftFree(T, index, 0) + 1 + RightFree(T, index, 0)
    ensures r[LeftFree(T, index, 0)] == StripNewlines(T[index])
  {
    PreOf(T, index) + [StripNewlines(T[index])] + PostOf(T, index)
  }

  /** The left loop of `__process_alignments`: prepend lines until one is
      a separator or Python raises IndexError. */
  method ScanLeft(T: seq<string>, index: nat) returns (pre: seq<string>)
    requires index < |T|
    ensures pre == PreOf(T, index)
  {
    ghost var k := LeftFree(T, index, 0);
    pre := [];
    var countLeft := 0;
    while index - countLeft - 1 >= -|T| && !IsSeparator(PyAt(T, index - countLeft - 1))
      invariant countLeft <= k
      invariant |pre| == countLeft
      invariant forall j :: 0 <= j < countLeft ==> pre[j] == StripNewlines(LeftAt(T, index, countLeft - 1 - j))
      decreases index + |T| - countLeft
    {
      assert LeftAt(T, index, countLeft) == PyAt(T, index - countLeft - 1);
      pre := [StripNewlines(PyAt(T, index - countLeft - 1))] + pre;
      countLeft := countLeft + 1;
    }
    assert countLeft < k ==> !IsSeparator(LeftAt(T, index, countLeft));
    assert countLeft == k;
  }

  /** The right loop of `__process_alignments`: append lines until one is
      a separator or the list ends. */
  method ScanRight(T: seq<string>, index: nat) returns (post: seq<string>)
    requires index < |T|
    ensures post == PostOf(T, index)
  {
    ghost var m := RightFree(T, index, 0);
    post := [];
    var countRight := 0;
    while index + countRight + 1 < |T| && !IsSeparator(T[index + countRight + 1])
      invariant countRight <= m
      invariant |post| == countRight
      invariant forall j :: 0 <= j < countRight ==> post[j] == StripNewlines(RightAt(T, index, j))
      decreases |T| - countRight
    {
      assert RightAt(T, index, countRight) == T[index + countRight + 1];
      post := post + [StripNewlines(T[index + countRight + 1])];
      countRight := countRight + 1;
    }
    assert countRight < m ==> !IsSeparator(RightAt(T, index, countRight));
    assert countRight == m;
  }

  /** `"".join(...)` of the space-joined surface tokens of each line. */
  function JoinedTokens(xs: seq<string>): string {
    Concat(seq(|xs|, j requires 0 <= j < |xs| => Join(" ", Tokens(xs[j]))))
  }

  /** The alignment key of the record of the match at `index`: the surface
      tokens of the lines before the match, a space, the match's tokens, a
      space, and the tokens of the lines after it. */
  function AlignmentKey(T: seq<string>, index: nat): (key: string)
    requires index < |T|
  {
    JoinedTokens(PreOf(T, index)) + " " + Join(" ", Tokens(T[index])) + " " + JoinedTokens(PostOf(T, index))
  }

  // ---------------------------------------------------------------------
  // What a record is

  /** Stripping the newline of a raw line keeps it from being a separator
      when it was not one. */
  lemma StripKeepsNonSeparator(s: string)
    requires RawLine(s) && !IsSeparator(s)
    ensures !IsSeparator(StripNewlines(s))
  {
    var r := StripNewlines(s);
    if |r| > 0 {
      var a := LeadingRun(s, IsNewline);
      StripSlice(s, IsNewline);
      assert r[0] == s[a];
      assert a == 0;
      assert r[..1] == [r[0]];
    }
  }

  /** No line of a record is a separator: both scans stop before them. */
  lemma RecordHasNoSeparator(T: seq<string>, index: nat)
    requires index < |T|
    requires forall j :: 0 <= j < |T| ==> RawLine(T[j])
    requires !IsSeparator(T[index])
    ensures forall j :: 0 <= j < |Record(T, index)| ==> !IsSeparator(Record(T, index)[j])
  {
    var r := Record(T, index);
    forall j | 0 <= j < |r| ensures !IsSeparator(r[j]) {
      var q := RecordSource(T, index, j);
      StripKeepsNonSeparator(T[q]);
    }
  }

  /** Line `j` of a record is a non-separator line `q` of the list,
      newlines stripped. */
  lemma RecordSource(T: seq<string>, index: nat, j: nat) returns (q: nat)
    requires index < |T| && !IsSeparator(T[index])
    requires j < |Record(T, index)|
    ensures q < |T| && !IsSeparator(T[q]) && Record(T, index)[j] == StripNewlines(T[q])
  {
    var k := LeftFree(T, index, 0);
    var pre := PreOf(T, index);
    var post := PostOf(T, index);
    assert Record(T, index) == pre + [StripNewlines(T[index])] + post;
    if j < k {
      var i := index - (k - 1 - j) - 1;
      q := if i >= 0 then i else |T| + i;
      assert pre[j] == StripNewlines(LeftAt(T, index, k - 1 - j));
    } else if j == k {
      q := index;
    } else {
      q := index + (j - k - 1) + 1;
      assert post[j - k - 1] == StripNewlines(RightAt(T, index, j - k - 1));
    }
  }

  /** With a separator at `s` above the match and none between them, the
      left scan reads exactly the lines strictly between the two. */
  lemma LeftFreeIsGap(T: seq<string>, index: nat, s: nat)
    requires s < index < |T|
    requires IsSeparator(T[s]) && forall p :: s < p < index ==> !IsSeparator(T[p])
    ensures LeftFree(T, index, 0) == index - s - 1
  {
    var k := LeftFree(T, index, 0);
    forall u: nat | u < index ensures LeftAt(T, index, u) == T[index - u - 1] {}
    assert LeftAt(T, index, index - s - 1) == T[s];
  }

  /** With the next separator (or the end) at `q`, the right scan reads
      exactly the lines strictly between the match and `q`. */
  lemma RightFreeIsGap(T: seq<string>, index: nat, q: nat)
    requires index < q <= |T|
    requires q == |T| || IsSeparator(T[q])
    requires forall p :: index < p < q ==> !IsSeparator(T[p])
    ensures RightFree(T, index, 0) == q - index - 1
  {
    var m := RightFree(T, index, 0);
    forall u: nat | index + u + 1 < |T| ensures RightAt(T, index, u) == T[index + u + 1] {}
    if q < |T| {
      assert RightAt(T, index, q - index - 1) == T[q];
    }
  }

  lemma PreIsSlice(T: seq<string>, index: nat, s: nat)
    requires s < index < |T|
    requires IsSeparator(T[s]) && forall p :: s < p < index ==> !IsSeparator(T[p])
    ensures PreOf(T, index) == MapStrip(T[s + 1..index])
  {
    LeftFreeIsGap(T, index, s);
    var k := index - s - 1;
    forall j | 0 <= j < k ensures PreOf(T, index)[j] == MapStrip(T[s + 1..index])[j] {
      assert LeftAt(T, index, k - 1 - j) == T[s + 1 + j];
    }
  }

  lemma PostIsSlice(T: seq<string>, index: nat, q: nat)
    requires index < q <= |T|
    requires q == |T| || IsSeparator(T[q])
    requires forall p :: index < p < q ==> !IsSeparator(T[p])
    ensures PostOf(T, index) == MapStrip(T[index + 1..q])
  {
    RightFreeIsGap(T, index, q);
    forall j | 0 <= j < q - index - 1 ensures PostOf(T, index)[j] == MapStrip(T[index + 1..q])[j] {
      assert RightAt(T, index, j) == T[index + 1 + j];
    }
  }

  /** When a separator at `s` lies above the match with none between them,
      the record is the slice strictly between that separator and the next
      one below the match (or the end of the list). */
  lemma RecordIsBlock(T: seq<string>, index: nat, s: nat, q: nat)
    requires s < index < q <= |T|
    requires IsSeparator(T[s]) && forall p :: s < p < index ==> !IsSeparator(T[p])
    requires q == |T| || IsSeparator(T[q])
    requires forall p :: index < p < q ==> !IsSeparator(T[p])
    ensures Record(T, index) == MapStrip(T[s + 1..q])
  {
    var a := T[s + 1..index];
    var b := T[index + 1..q];
    calc {
      Record(T, index);
      PreOf(T, index) + [StripNewlines(T[index])] + PostOf(T, index);
      { PreIsSlice(T, index, s); PostIsSlice(T, index, q); }
      MapStrip(a) + [StripNewlines(T[index])] + MapStrip(b);
      { MapStripAround(a, T[index], b); }
      MapStrip(a + [T[index]] + b);
      { SliceAround(T, s + 1, index, q); }
      MapStrip(T[s + 1..q]);
    }
  }

  lemma SliceAround<X>(T: seq<X>, lo: nat, i: nat, hi: nat)
    requires lo <= i < hi <= |T|
    ensures T[lo..hi] == T[lo..i] + [T[i]] + T[i + 1..hi]
  {
  }

  lemma MapStripAround(a: seq<string>, x: string, b: seq<string>)
    ensures MapStrip(a + [x] + b) == MapStrip(a) + [StripNewlines(x)] + MapStrip(b)
  {
  }

  // ---------------------------------------------------------------------
  // The key names the match

  /** A role tag holds no space and no `_`. */
  lemma TagChars(s: string, role: Role, n: nat)
    requires TagLen(s, RoleTag(role)) == Some(n)
    ensures forall i :: 0 <= i < n ==> !IsSpace(s[i]) && s[i] != '_'
  {
    assert s[1..4] == RoleName(role);
    forall i | 0 <= i < n ensures !IsSpace(s[i]) && s[i] != '_' {
      if 1 <= i < 4 {
        assert s[i] == s[1..4][i - 1];
      }
    }
  }

  lemma {:induction false} WordLenAtLeast(s: string, n: nat)
    requires n <= |s| && NoSpace(s[..n])
    ensures WordLen(s) >= n
    decreases n
  {
    if n > 0 {
      assert s[0] == s[..n][0];
      assert s[1..][..n - 1] == s[..n][1..];
      WordLenAtLeast(s[1..], n - 1);
    }
  }

  /** The first piece of a split is at least as long as the prefix in
      which the separator does not start. */
  lemma {:induction false} FirstPieceAtLeast(s: string, sep: string, n: nat)
    requires |sep| > 0 && n <= |s|
    requires forall i :: 0 <= i < n ==> !OccursAt(s, sep, i)
    ensures |SplitOn(s, sep)[0]| >= n
    decreases |s|
  {
    if |s| >= |sep| && s[..|sep|] == sep {
      if n > 0 {
        assert OccursAt(s, sep, 0);
      }
    } else if |s| >= |sep| && n > 0 {
      forall i | 0 <= i < n - 1 ensures !OccursAt(s[1..], sep, i) {
        if OccursAt(s[1..], sep, i) {
          assert s[1..][i..i + |sep|] == s[i + 1..i + 1 + |sep|];
          assert OccursAt(s, sep, i + 1);
        }
      }
      FirstPieceAtLeast(s[1..], sep, n - 1);
    }
  }

  /** The first surface token of a line that starts with a role tag begins
      with that tag. */
  lemma FirstTokenHoldsTag(line: string, role: Role, n: nat)
    requires TagLen(line, RoleTag(role)) == Some(n)
    ensures |Tokens(line)| > 0 && StartsWith(Tokens(line)[0], line[..n])
  {
    TagChars(line, role, n);
    assert NoSpace(line[..n]);
    WordLenAtLeast(line, n);
    var w := line[..WordLen(line)];
    assert Words(line) == [w] + Words(line[WordLen(line)..]);
    assert w[..n] == line[..n];
    forall i | 0 <= i < n ensures !OccursAt(w, Delimiter, i) {
      assert w[i] == line[i];
    }
    FirstPieceAtLeast(w, Delimiter, n);
    FirstPiece(w, Delimiter);
    var p := SplitOn(w, Delimiter)[0];
    assert Tokens(line)[0] == Fields(line)[0][0] == p;
    assert p[..n] == w[..n];
  }

  /** The key of a record contains the tag of the match it was built for,
      so the record index can be searched by the match's id. */
  lemma KeyHoldsMatchTag(T: seq<string>, index: nat, role: Role, n: nat)
    requires index < |T|
    requires TagLen(T[index], RoleTag(role)) == Some(n)
    ensures Contains(AlignmentKey(T, index), T[index][..n])
  {
    var line := T[index];
    FirstTokenHoldsTag(line, role, n);
    var j := Join(" ", Tokens(line));
    JoinStartsWithFirst(Tokens(line));
    assert StartsWith(j, line[..n]) by {
      assert j[..|Tokens(line)[0]|][..n] == j[..n];
    }
    ContainsMiddle(JoinedTokens(PreOf(T, index)) + " ", j, " ", JoinedTokens(PostOf(T, index)), line[..n]);
  }

  /** A space-joined list of one or more words starts with its first word. */
  lemma JoinStartsWithFirst(xs: seq<string>)
    requires |xs| > 0
    ensures StartsWith(Join(" ", xs), xs[0])
  {
    if |xs| > 1 {
      assert Join(" ", xs) == xs[0] + (" " + Join(" ", xs[1..]));
    }
  }

  /** A string containing `t` at its start is found inside any string
      built around it. */
  lemma ContainsMiddle(a: string, j: string, s: string, z: string, t: string)
    requires StartsWith(j, t)
    ensures Contains(a + j + s + z, t)
  {
    var key := a + j + s + z;
    assert key[|a|..|a| + |t|] == j[..|t|];
    assert OccursAt(key, t, |a|);
  }

  // ---------------------------------------------------------------------
  // __get_segments (model/bilingual_context.py)

  /** Number of lines before the match that `__get_segments` keeps. Its
      loop leaves on the iteration after the right scan reads the
      separator, so the left scan makes at most `RightFree + 2` steps. */
  function SegmentPreLen(T: seq<string>, index: nat): nat
    requires index < |T|
  {
    var l := LeftFree(T, index, 0);
    var r := RightFree(T, index, 0) + 2;
    if l <= r then l else r
  }

  /** The segment of the match at `index` in the cleaned list: the lines
      before the match NEAREST FIRST (reverse document order), the match,
      and the lines after it up to the separator. Without a separator below
      the match the right scan raises IndexError (None). */
  function Segment(T: seq<string>, index: nat): (r: Option<seq<string>>)
    requires index < |T|
    ensures r.None? <==> !SeparatorAfter(T, index)
    ensures r.Some? ==>
      var k := SegmentPreLen(T, index);
      |r.value| == k + 1 + RightFree(T, index, 0)
      && r.value[k] == T[index]
      && (forall j :: 0 <= j < k ==> r.value[j] == LeftAt(T, index, j))
      && (forall j :: k < j < |r.value| ==> r.value[j] == RightAt(T, index, j - k - 1))
      && (forall j :: 0 <= j < |r.value| && j != k ==> !IsSeparator(r.value[j]))
  {
    RightScanEnd(T, index);
    if !SeparatorAfter(T, index) then None
    else
      var k := SegmentPreLen(T, index);
      var m := RightFree(T, index, 0);
      Some(seq(k, j requires 0 <= j < k => LeftAt(T, index, j)) + [T[index]]
           + seq(m, j requires 0 <= j < m => RightAt(T, index, j)))
  }

  /** The state of the leftward scan of `__get_segments` after `c` steps:
      `cur` is the line read last and `pre` the non-separator lines read,
      nearest first. */
  predicate LeftScanned(T: seq<string>, index: nat, c: nat, cur: string, pre: seq<string>)
    requires index < |T|
  {
    var lf := LeftFree(T, index, 0);
    c <= lf + 1 && c <= index + |T|
    && (c == 0 ==> cur == "") && (c > 0 ==> cur == LeftAt(T, index, c - 1))
    && (IsSeparator(cur) <==> c == lf + 1)
    && |pre| == (if c <= lf then c else lf)
    && forall j :: 0 <= j < |pre| ==> pre[j] == LeftAt(T, index, j)
  }

  /** The state of the rightward scan after `c` steps. */
  predicate RightScanned(T: seq<string>, index: nat, c: nat, cur: string, post: seq<string>)
    requires index < |T|
  {
    var rf := RightFree(T, index, 0);
    c <= rf + 1 && index + c < |T|
    && (c == 0 ==> cur == "") && (c > 0 ==> cur == RightAt(T, index, c - 1))
    && (IsSeparator(cur) <==> c == rf + 1)
    && |post| == (if c <= rf then c else rf)
    && forall j :: 0 <= j < |post| ==> post[j] == RightAt(T, index, j)
  }

  /** One more step of the leftward scan, before it has read a separator. */
  lemma LeftAdvance(T: seq<string>, index: nat, c: nat, cur: string, pre: seq<string>)
    requires index < |T| && index + c < |T|
    requires LeftScanned(T, index, c, cur, pre) && !IsSeparator(cur)
    ensures IsSeparator(PyAt(T, index - (c + 1))) ==> LeftScanned(T, index, c + 1, PyAt(T, index - (c + 1)), pre)
    ensures !IsSeparator(PyAt(T, index - (c + 1))) ==>
      LeftScanned(T, index, c + 1, PyAt(T, index - (c + 1)), pre + [PyAt(T, index - (c + 1))])
  {
    var next := PyAt(T, index - (c + 1));
    assert next == LeftAt(T, index, c);
  }

  /** One more step of the rightward scan, before it has read a separator
      and while a line is left to read. */
  lemma RightAdvance(T: seq<string>, index: nat, c: nat, cur: string, post: seq<string>)
    requires index < |T| && index + c + 1 < |T|
    requires RightScanned(T, index, c, cur, post) && !IsSeparator(cur)
    ensures IsSeparator(T[index + c + 1]) ==> RightScanned(T, index, c + 1, T[index + c + 1], post)
    ensures !IsSeparator(T[index + c + 1]) ==> RightScanned(T, index, c + 1, T[index + c + 1], post + [T[index + c + 1]])
  {
    var next := T[index + c + 1];
    assert next == RightAt(T, index, c);
  }

  /** The rightward scan runs off the end of the list before reading a
      separator exactly when no separator follows the match. */
  lemma RightRunsOut(T: seq<string>, index: nat, c: nat, cur: string, post: seq<string>)
    requires index < |T| && index + c + 1 >= |T|
    requires RightScanned(T, index, c, cur, post) && !IsSeparator(cur)
    ensures !SeparatorAfter(T, index)
  {
    RightScanEnd(T, index);
  }

  /** The loop of `__get_segments` for one match, as written: each
      iteration advances the left scan unless it has read a separator, then
      advances the right scan, or leaves once the right scan has read one. */
  method GetSegment(T: seq<string>, index: nat) returns (r: Option<seq<string>>)
    requires index < |T|
    ensures r == Segment(T, index)
  {
    ghost var lf := LeftFree(T, index, 0);
    ghost var rf := RightFree(T, index, 0);
    var pre: seq<string> := [];
    var post: seq<string> := [];
    var countLeft := 0;
    var countRight := 0;
    var currentLeft := "";
    var currentRight := "";
    var done := false;
    while !done
      invariant LeftScanned(T, index, countLeft, currentLeft, pre)
      invariant RightScanned(T, index, countRight, currentRight, post)
      invariant !done ==> countLeft == (if countRight <= lf then countRight else lf + 1)
      invariant done ==> countRight == rf + 1 && countLeft == (if rf + 2 <= lf then rf + 2 else lf + 1)
      decreases |T| - countRight, if done then 0 else 1
    {
      if !IsSeparator(currentLeft) {
        LeftAdvance(T, index, countLeft, currentLeft, pre);
        countLeft := countLeft + 1;
        currentLeft := PyAt(T, index - countLeft);
        if !IsSeparator(currentLeft) {
          pre := pre + [currentLeft];
        }
      }
      if !IsSeparator(currentRight) {
        if index + countRight + 1 >= |T| {
          RightRunsOut(T, index, countRight, currentRight, post);
          return None;
        }
        RightAdvance(T, index, countRight, currentRight, post);
        countRight := countRight + 1;
        currentRight := T[index + countRight];
        if !IsSeparator(currentRight) {
          post := post + [currentRight];
        }
      } else {
        done := true;
      }
    }
    RightScanEnd(T, index);
    SegmentFromScans(T, index, pre, post);
    r := Some(pre + [T[index]] + post);
  }

  /** The lines both scans of `__get_segments` collect make up the segment. */
  lemma SegmentFromScans(T: seq<string>, index: nat, pre: seq<string>, post: seq<string>)
    requires index < |T| && SeparatorAfter(T, index)
    requires |pre| == SegmentPreLen(T, index) && forall j :: 0 <= j < |pre| ==> pre[j] == LeftAt(T, index, j)
    requires |post| == RightFree(T, index, 0) && forall j :: 0 <= j < |post| ==> post[j] == RightAt(T, index, j)
    ensures Segment(T, index) == Some(pre + [T[index]] + post)
  {
    RightScanEnd(T, index);
    var k := |pre|;
    var m := |post|;
    assert pre == seq(k, j requires 0 <= j < k => LeftAt(T, index, j));
    assert post == seq(m, j requires 0 <= j < m => RightAt(T, index, j));
  }
}

=== FILE: search.dfy ===
/** The search entry point (model/processing.py, `perform_new_search`):
    one load of the corpus, one run of the locator, and a result whose
    shape depends on the mode. */
module Search {
  import opened Base
  import opened Text
  import opened Corpus
  import opened Locator
  import opened RecordIndex

  /** The tuples `perform_new_search` returns. */
  datatype SearchResult =
    | MatchesFiles(matches: seq<string>, files: seq<string>)
    | ParsedMatches(index: Option<ParsedIndex>, matches: seq<string>, files: seq<string>)
    | ListMatches(list: seq<string>, matches: seq<string>, indices: seq<nat>, files: seq<string>)
    | NoResult

  /** `perform_new_search(path, regex, stats, mono, unparsed_stats_context,
      role_pattern, caseinsensitive)` on the file contents `text`:
      - monolingual, unparsed statistics: the matches and their files;
      - monolingual, parsed statistics: the parsed index of the matches
        (one-line records), the matches and their files;
      - monolingual context: the list of role lines and provenance
        comments, and the locator run again on that list;
      - bilingual, unparsed: the whole list and the locator's outputs;
      - bilingual, parsed statistics: the parsed index of the records;
      - bilingual with neither flag: nothing (the function falls off its
        end). */
  function PerformNewSearch(text: string, hit: Matcher, ci: bool, role: Role,
                            stats: bool, mono: bool, unparsed: bool): SearchResult
  {
    var T := Load(text);
    var raw := ReadLines(text);
    var loc := Locate(T, hit, ci, role);
    if mono then
      if unparsed then MatchesFiles(loc.matches, loc.files)
      else if stats then ParsedMatches(Parsed(raw, loc.files, loc.indices, true), loc.matches, loc.files)
      else
        var L := MonoFilter(T, role);
        var m := Locate(L, hit, ci, role);
        ListMatches(L, m.matches, m.indices, m.files)
    else if unparsed then ListMatches(T, loc.matches, loc.indices, loc.files)
    else if stats then ParsedMatches(Parsed(raw, loc.files, loc.indices, false), loc.matches, loc.files)
    else NoResult
  }

  /** Every mode that returns something returns the same matched lines,
      those of a search of the whole cleaned list, one file id each; a
      returned list and its positions agree with the matches. */
  lemma SearchMatches(text: string, hit: Matcher, ci: bool, role: Role, stats: bool, mono: bool, unparsed: bool)
    ensures var r := PerformNewSearch(text, hit, ci, role, stats, mono, unparsed);
      (r.NoResult? <==> !mono && !unparsed && !stats)
      && (!r.NoResult? ==> r.matches == Locate(Load(text), hit, ci, role).matches && |r.files| == |r.matches|)
      && (r.ListMatches? ==> (|r.indices| == |r.matches|
            && forall j :: 0 <= j < |r.indices| ==>
                 r.indices[j] < |r.list| && r.matches[j] == StripNewlines(r.list[r.indices[j]])))
  {
    MonoSearchSameMatches(Load(text), hit, ci, role);
  }

  /** The monolingual context list holds only lines of the searched side
      and provenance comments, all from the cleaned list. */
  lemma MonoContextList(text: string, hit: Matcher, ci: bool, role: Role)
    ensures var r := PerformNewSearch(text, hit, ci, role, false, true, false);
      r.ListMatches?
      && forall k :: 0 <= k < |r.list| ==>
        (HasRoleTag(r.list[k], role) || IsFileComment(r.list[k])) && r.list[k] in Load(text)
  {
  }
}

=== FILE: tables.dfy ===
/** The result tables of parsed statistics (`write_monolingual_stats`,
    model/monolingual_statistics.py, and `write_bilingual_stats`,
    model/bilingual_statistics.py): every entry row gets the counts of the
    rows sharing some of its columns (`value_counts` merged back), the rows
    are sorted by these counts, highest first, duplicate rows are dropped
    keeping the first, and each row gets the set of distinct files of its
    group and its size. */
module Tables {
  import opened Base
  import opened Tally
  import opened Corpus
  import opened RecordIndex
  import opened MonoStats
  import opened BiStats

  // ---------------------------------------------------------------------
  // Counting columns

  /** The values of one column (or combination of columns) of the rows. */
  function Column<R, K>(rows: seq<R>, col: R -> K): (c: seq<K>)
    ensures |c| == |rows|
    ensures forall i :: 0 <= i < |rows| ==> c[i] == col(rows[i])
  {
    seq(|rows|, i requires 0 <= i < |rows| => col(rows[i]))
  }

  /** `df[cols].value_counts()` merged back onto row `x`: the number of
      rows sharing `x`'s value in those columns. */
  function CountOf<R, K(==)>(rows: seq<R>, col: R -> K, x: R): nat {
    Occurrences(Column(rows, col), col(x))
  }

  /** A row of the table is counted at least once. */
  lemma CountOfRow<R, K>(rows: seq<R>, col: R -> K, i: nat)
    requires i < |rows|
    ensures CountOf(rows, col, rows[i]) >= 1
  {
    OccurrencesPositive(Column(rows, col), col(rows[i]));
  }

  /** Counting over finer columns counts fewer rows: rows agreeing on `f`
      agree on `g`. */
  lemma {:induction false} CountRefines<R, K, L>(rows: seq<R>, f: R -> K, g: R -> L, x: R)
    requires forall a, b :: f(a) == f(b) ==> g(a) == g(b)
    ensures CountOf(rows, f, x) <= CountOf(rows, g, x)
    decreases |rows|
  {
    if |rows| > 0 {
      var init := rows[..|rows| - 1];
      CountRefines(init, f, g, x);
      assert Column(rows, f)[..|rows| - 1] == Column(init, f);
      assert Column(rows, g)[..|rows| - 1] == Column(init, g);
    }
  }

  // ---------------------------------------------------------------------
  // Sorting by counts, highest first

  /** The count columns a table is sorted by, most significant first. */
  datatype Key3 = Key3(a: nat, b: nat, c: nat)

  /** `x` may precede `y` in a descending sort on all three columns. */
  predicate NotBelow(x: Key3, y: Key3) {
    x.a > y.a || (x.a == y.a && (x.b > y.b || (x.b == y.b && x.c >= y.c)))
  }

  predicate SortedDesc<R>(xs: seq<R>, key: R -> Key3) {
    forall i, j :: 0 <= i < j < |xs| ==> NotBelow(key(xs[i]), key(xs[j]))
  }

  /** Insert `x` before the first element it is not below. */
  function Insert<R>(x: R, xs: seq<R>, key: R -> Key3): (r: seq<R>)
    requires SortedDesc(xs, key)
    ensures |r| == |xs| + 1
    ensures multiset(r) == multiset(xs) + multiset{x}
    ensures SortedDesc(r, key)
    decreases |xs|
  {
    if |xs| == 0 || NotBelow(key(x), key(xs[0])) then [x] + xs
    else
      var rest := Insert(x, xs[1..], key);
      assert xs == [xs[0]] + xs[1..];
      assert forall k :: 0 <= k < |rest| ==> NotBelow(key(xs[0]), key(rest[k])) by {
        forall k | 0 <= k < |rest| ensures NotBelow(key(xs[0]), key(rest[k])) {
          assert rest[k] in multiset(rest);
          if rest[k] != x {
            assert rest[k] in multiset(xs[1..]);
            var m :| 0 <= m < |xs[1..]| && xs[1..][m] == rest[k];
            assert xs[m + 1] == rest[k];
          }
        }
      }
      [xs[0]] + rest
  }

  /** `sort_values(by=counts, ascending=False)`: a permutation of the rows,
      highest counts first. */
  function SortDesc<R>(xs: seq<R>, key: R -> Key3): (r: seq<R>)
    ensures |r| == |xs|
    ensures multiset(r) == multiset(xs)
    ensures SortedDesc(r, key)
    decreases |xs|
  {
    if |xs| == 0 then []
    else
      assert xs == [xs[0]] + xs[1..];
      Insert(xs[0], SortDesc(xs[1..], key), key)
  }

  /** The rows whose counts are `k`. */
  function WithCounts<R>(key: R -> Key3, k: Key3): R -> bool {
    x => key(x) == k
  }

  /** Inserting `x` puts it before every row with the same counts. */
  lemma {:induction false} InsertStable<R>(x: R, xs: seq<R>, key: R -> Key3, k: Key3)
    requires SortedDesc(xs, key)
    ensures Filter(Insert(x, xs, key), WithCounts(key, k))
      == (if key(x) == k then [x] else []) + Filter(xs, WithCounts(key, k))
    decreases |xs|, 1
  {
    var p := WithCounts(key, k);
    assert p(x) <==> key(x) == k;
    if |xs| == 0 || NotBelow(key(x), key(xs[0])) {
      InsertAtHead(x, xs, key);
      FilterCons(x, xs, p);
    } else {
      InsertStableBelow(x, xs, key, k);
    }
  }

  /** `InsertStable` when `x` goes below the head: the head has other
      counts, so it does not matter which of the two comes first. */
  lemma {:induction false} InsertStableBelow<R>(x: R, xs: seq<R>, key: R -> Key3, k: Key3)
    requires SortedDesc(xs, key) && |xs| > 0 && !NotBelow(key(x), key(xs[0]))
    ensures Filter(Insert(x, xs, key), WithCounts(key, k))
      == (if key(x) == k then [x] else []) + Filter(xs, WithCounts(key, k))
    decreases |xs|, 0
  {
    var p := WithCounts(key, k);
    var tail := xs[1..];
    InsertAfterHead(x, xs, key);
    var rest := Insert(x, tail, key);
    InsertStable(x, tail, key, k);
    var ex := if key(x) == k then [x] else [];
    var eh := if key(xs[0]) == k then [xs[0]] else [];
    assert p(xs[0]) <==> key(xs[0]) == k;
    FilterCons(xs[0], rest, p);
    FilterCons(xs[0], tail, p);
    assert xs == [xs[0]] + tail;
    assert Filter(rest, p) == ex + Filter(tail, p);
    assert Filter(Insert(x, xs, key), p) == eh + Filter(rest, p);
    assert Filter(xs, p) == eh + Filter(tail, p);
    assert eh == [] || ex == [] by {
      assert key(xs[0]) != key(x);
    }
    SwapFront(eh, ex, Filter(tail, p));
  }

  /** Two lists one of which is empty can trade places at the front. */
  lemma SwapFront<T>(a: seq<T>, b: seq<T>, c: seq<T>)
    requires a == [] || b == []
    ensures a + (b + c) == b + (a + c)
  {
    if a == [] {
      assert a + (b + c) == b + c;
      assert a + c == c;
    } else {
      assert b + c == c;
      assert b + (a + c) == a + c;
    }
  }

  /** An element not below the head of `xs` is inserted in front. */
  lemma InsertAtHead<R>(x: R, xs: seq<R>, key: R -> Key3)
    requires SortedDesc(xs, key) && (|xs| == 0 || NotBelow(key(x), key(xs[0])))
    ensures Insert(x, xs, key) == [x] + xs
  {
  }

  /** An element that belongs below the head of `xs` is inserted into its
      tail. */
  lemma InsertAfterHead<R>(x: R, xs: seq<R>, key: R -> Key3)
    requires SortedDesc(xs, key) && |xs| > 0 && !NotBelow(key(x), key(xs[0]))
    ensures SortedDesc(xs[1..], key)
    ensures Insert(x, xs, key) == [xs[0]] + Insert(x, xs[1..], key)
  {
  }

  /** The sort is stable: the rows with any given counts keep their input
      order (pandas sorts on several columns with a stable lexicographic
      sort). */
  lemma {:induction false} SortStable<R>(xs: seq<R>, key: R -> Key3, k: Key3)
    ensures Filter(SortDesc(xs, key), WithCounts(key, k)) == Filter(xs, WithCounts(key, k))
    decreases |xs|
  {
    if |xs| > 0 {
      var p := WithCounts(key, k);
      SortStable(xs[1..], key, k);
      InsertStable(xs[0], SortDesc(xs[1..], key), key, k);
      assert xs == [xs[0]] + xs[1..];
      FilterCons(xs[0], xs[1..], p);
    }
  }

  /** Dropping duplicates keeps a sorted list sorted. */
  lemma {:induction false} DistinctSorted<R>(xs: seq<R>, key: R -> Key3)
    requires SortedDesc(xs, key)
    ensures SortedDesc(Distinct(xs), key)
    decreases |xs|
  {
    if |xs| > 0 {
      var init := xs[..|xs| - 1];
      var last := xs[|xs| - 1];
      DistinctSorted(init, key);
      var d := Distinct(init);
      forall i | 0 <= i < |d| ensures NotBelow(key(d[i]), key(last)) {
        var m :| 0 <= m < |init| && init[m] == d[i];
      }
    }
  }

  // ---------------------------------------------------------------------
  // Files per group

  /** `df.groupby(cols)['File_Pairs'].agg(list)`: the file lists of the
      rows in group `g`, in row order. */
  function GroupLists<R, G(==)>(rows: seq<R>, setsFiles: seq<seq<string>>, group: R -> G, g: G): seq<seq<string>>
    requires |rows| == |setsFiles|
    decreases |rows|
  {
    if |rows| == 0 then []
    else
      var n := |rows| - 1;
      GroupLists(rows[..n], setsFiles[..n], group, g) + (if group(rows[n]) == g then [setsFiles[n]] else [])
  }

  /** `is_nested` (every item is a list, so they are summed into one list)
      then `set`: the distinct files of group `g`. */
  function GroupFileSet<R, G(==)>(rows: seq<R>, setsFiles: seq<seq<string>>, group: R -> G, g: G): set<string>
    requires |rows| == |setsFiles|
  {
    set f | f in Concat(GroupLists(rows, setsFiles, group, g))
  }

  /** Every row contributes its one file id: the summed list of group `g`
      holds the file of each row in the group, one per row. */
  lemma {:induction false} GroupListsSingle<R, G>(rows: seq<R>, files: seq<string>, setsFiles: seq<seq<string>>, group: R -> G, g: G)
    requires |rows| == |files| == |setsFiles|
    requires forall i :: 0 <= i < |rows| ==> setsFiles[i] == [files[i]]
    ensures |Concat(GroupLists(rows, setsFiles, group, g))| == Occurrences(Column(rows, group), g)
    ensures forall f :: f in Concat(GroupLists(rows, setsFiles, group, g)) <==>
      exists i :: 0 <= i < |rows| && group(rows[i]) == g && files[i] == f
    decreases |rows|
  {
    if |rows| > 0 {
      var n := |rows| - 1;
      GroupListsSingle(rows[..n], files[..n], setsFiles[..n], group, g);
      var prev := GroupLists(rows[..n], setsFiles[..n], group, g);
      var tail := if group(rows[n]) == g then [setsFiles[n]] else [];
      ConcatAppend(prev, tail);
      assert Column(rows, group)[..n] == Column(rows[..n], group);
      if group(rows[n]) == g {
        assert Concat(tail) == [files[n]] by { assert tail[..0] == []; }
      }
      forall f | exists i :: 0 <= i < |rows| && group(rows[i]) == g && files[i] == f
        ensures f in Concat(GroupLists(rows, setsFiles, group, g))
      {
        var i :| 0 <= i < |rows| && group(rows[i]) == g && files[i] == f;
        if i < n {
          assert rows[..n][i] == rows[i] && files[..n][i] == files[i];
        }
      }
    }
  }

  /** A set drawn from a list has at most as many elements as the list. */
  lemma {:induction false} SetOfSeqSize<T>(s: seq<T>)
    ensures |set x | x in s| <= |s|
    decreases |s|
  {
    if |s| > 0 {
      var init := s[..|s| - 1];
      SetOfSeqSize(init);
      assert (set x | x in s) == (set x | x in init) + {s[|s| - 1]};
    }
  }

  /** With one file id per row, the file set of a group holds exactly the
      files of its rows, so its size lies between one (for a group that
      has a row) and the number of rows in the group. */
  lemma GroupFiles<R, G>(rows: seq<R>, files: seq<string>, setsFiles: seq<seq<string>>, group: R -> G, i: nat)
    requires |rows| == |files| == |setsFiles| && i < |rows|
    requires forall k :: 0 <= k < |rows| ==> setsFiles[k] == [files[k]]
    ensures var fs := GroupFileSet(rows, setsFiles, group, group(rows[i]));
      (forall f :: f in fs <==> exists k :: 0 <= k < |rows| && group(rows[k]) == group(rows[i]) && files[k] == f)
      && 1 <= |fs| <= CountOf(rows, group, rows[i])
  {
    var g := group(rows[i]);
    GroupListsSingle(rows, files, setsFiles, group, g);
    SetOfSeqSize(Concat(GroupLists(rows, setsFiles, group, g)));
    assert files[i] in GroupFileSet(rows, setsFiles, group, g);
  }

  // ---------------------------------------------------------------------
  // The table

  /** A row of the written table: the entry, its counts, and the files of
      its group with their number (`File_Count`). */
  datatype StatsRow<R> = StatsRow(row: R, counts: Key3, files: set<string>, fileCount: nat)

  /** Sort the rows by their counts, drop duplicate rows keeping the first,
      and attach the file set of each row's group. The counts are a
      function of the row, so dropping duplicates of the merged rows drops
      duplicates of the rows. */
  function Table<R(==), G(==)>(rows: seq<R>, setsFiles: seq<seq<string>>, counts: R -> Key3, group: R -> G): (t: seq<StatsRow<R>>)
    requires |rows| == |setsFiles|
    ensures |t| <= |rows|
    ensures var kept := Distinct(SortDesc(rows, counts));
      |t| == |kept| && forall j :: 0 <= j < |t| ==> t[j].row == kept[j] && t[j].counts == counts(kept[j])
  {
    var kept := Distinct(SortDesc(rows, counts));
    seq(|kept|, j requires 0 <= j < |kept| =>
      var fs := GroupFileSet(rows, setsFiles, group, group(kept[j]));
      StatsRow(kept[j], counts(kept[j]), fs, |fs|))
  }

  /** Sorting then dropping duplicates keeps each distinct row once,
      highest counts first. */
  lemma KeptRows<R>(rows: seq<R>, counts: R -> Key3)
    ensures var kept := Distinct(SortDesc(rows, counts));
      (forall j :: 0 <= j < |kept| ==> kept[j] in rows)
      && (forall i :: 0 <= i < |rows| ==> rows[i] in kept)
      && NoDuplicates(kept) && SortedDesc(kept, counts)
  {
    var sorted := SortDesc(rows, counts);
    var kept := Distinct(sorted);
    DistinctSorted(sorted, counts);
    forall j | 0 <= j < |kept| ensures kept[j] in rows {
      assert kept[j] in multiset(sorted);
    }
    forall i | 0 <= i < |rows| ensures rows[i] in kept {
      assert rows[i] in multiset(sorted);
    }
  }

  /** Each table row is a row of the input with its own counts, and
      every input row has a table row. */
  lemma TableRows<R, G>(rows: seq<R>, setsFiles: seq<seq<string>>, counts: R -> Key3, group: R -> G)
    requires |rows| == |setsFiles|
    ensures var t := Table(rows, setsFiles, counts, group);
      (forall j :: 0 <= j < |t| ==> t[j].row in rows && t[j].counts == counts(t[j].row))
      && (forall i :: 0 <= i < |rows| ==> exists j :: 0 <= j < |t| && t[j].row == rows[i])
  {
    var kept := Distinct(SortDesc(rows, counts));
    KeptRows(rows, counts);
    var t := Table(rows, setsFiles, counts, group);
    forall i | 0 <= i < |rows| ensures exists j :: 0 <= j < |t| && t[j].row == rows[i] {
      var j :| 0 <= j < |kept| && kept[j] == rows[i];
      assert t[j].row == rows[i];
    }
  }

  /** No row appears twice in the table, and rows with higher counts come
      first. */
  lemma TableOrder<R, G>(rows: seq<R>, setsFiles: seq<seq<string>>, counts: R -> Key3, group: R -> G)
    requires |rows| == |setsFiles|
    ensures var t := Table(rows, setsFiles, counts, group);
      forall j, k :: 0 <= j < k < |t| ==> t[j].row != t[k].row && NotBelow(t[j].counts, t[k].counts)
  {
    var kept := Distinct(SortDesc(rows, counts));
    KeptRows(rows, counts);
  }

  /** With one file id per row, the files of a table row are those of the
      rows of its group, and `File_Count` lies between one and the size of
      the group. */
  lemma TableFiles<R, G>(rows: seq<R>, files: seq<string>, setsFiles: seq<seq<string>>,
                                counts: R -> Key3, group: R -> G, j: nat)
    requires |rows| == |files| == |setsFiles|
    requires forall k :: 0 <= k < |rows| ==> setsFiles[k] == [files[k]]
    requires j < |Table(rows, setsFiles, counts, group)|
    ensures var r := Table(rows, setsFiles, counts, group)[j];
      (forall f :: f in r.files <==> exists k :: 0 <= k < |rows| && group(rows[k]) == group(r.row) && files[k] == f)
      && r.fileCount == |r.files|
      && 1 <= r.fileCount <= CountOf(rows, group, r.row)
  {
    TableRows(rows, setsFiles, counts, group);
    var r := Table(rows, setsFiles, counts, group)[j];
    var i :| 0 <= i < |rows| && rows[i] == r.row;
    GroupFiles(rows, files, setsFiles, group, i);
  }

  // ---------------------------------------------------------------------
  // The monolingual table

  function MatchCol(): MonoEntry -> string {
    (e: MonoEntry) => e.match_
  }

  function MatchPosCol(): MonoEntry -> (string, seq<seq<string>>) {
    (e: MonoEntry) => (e.match_, e.pos)
  }

  /** `Count_Match` and `Count_POS` of an entry among `es`. */
  function MonoCounts(es: seq<MonoEntry>): MonoEntry -> Key3 {
    e => Key3(CountOf(es, MatchCol(), e), CountOf(es, MatchPosCol(), e), 0)
  }

  /** The table `write_monolingual_stats` writes for parsed statistics,
      before the lists are exploded into one line per element. Without
      matches the frame built from the empty dict has a single column, and
      naming five columns raises `ValueError`. */
  function MonoTable(ix: ParsedIndex, matches: seq<string>, files: seq<string>, role: Role): (r: Option<seq<StatsRow<MonoEntry>>>)
    requires |matches| <= |files|
    ensures |matches| == 0 ==> r.None?
    ensures r.Some? ==> |r.value| > 0
  {
    if |matches| == 0 then None
    else
      match MonoStats.ProcessCounts(ix, matches, files, role)
      case None => None
      case Some(p) =>
        ProcessedEntries(ix, matches, files, role);
        TableRows(p.entries, p.setsFiles, MonoCounts(p.entries), MatchCol());
        Some(Table(p.entries, p.setsFiles, MonoCounts(p.entries), MatchCol()))
  }

  /** Each row of the monolingual table counts the entries with its match
      (at least one) and, among them, those with its POS lists;
      `File_Count` is the number of distinct files of the matches, at most
      `Count_Match`. */
  lemma MonoRowCounts(es: seq<MonoEntry>, files: seq<string>, setsFiles: seq<seq<string>>, j: nat)
    requires |es| == |files| == |setsFiles|
    requires forall k :: 0 <= k < |es| ==> setsFiles[k] == [files[k]]
    requires j < |Table(es, setsFiles, MonoCounts(es), MatchCol())|
    ensures var r := Table(es, setsFiles, MonoCounts(es), MatchCol())[j];
      r.counts.a == Occurrences(Column(es, MatchCol()), r.row.match_)
      && 1 <= r.counts.b <= r.counts.a
      && 1 <= r.fileCount <= r.counts.a
      && (forall f :: f in r.files <==> exists k :: 0 <= k < |es| && es[k].match_ == r.row.match_ && files[k] == f)
  {
    var t := Table(es, setsFiles, MonoCounts(es), MatchCol());
    TableRows(es, setsFiles, MonoCounts(es), MatchCol());
    TableFiles(es, files, setsFiles, MonoCounts(es), MatchCol(), j);
    var i :| 0 <= i < |es| && es[i] == t[j].row;
    CountOfRow(es, MatchPosCol(), i);
    CountRefines(es, MatchPosCol(), MatchCol(), es[i]);
  }

  /** The same for the table of a query: its entries are those of the
      matches, and the files those of the matches. */
  lemma MonoTableCounts(ix: ParsedIndex, matches: seq<string>, files: seq<string>, role: Role, j: nat)
    requires |matches| == |files|
    requires MonoTable(ix, matches, files, role).Some? && j < |MonoTable(ix, matches, files, role).value|
    ensures var es := MonoStats.ProcessCounts(ix, matches, files, role).value.entries;
      var r := MonoTable(ix, matches, files, role).value[j];
      r.counts.a == Occurrences(Column(es, MatchCol()), r.row.match_)
      && 1 <= r.counts.b <= r.counts.a
      && 1 <= r.fileCount <= r.counts.a
      && (forall f :: f in r.files <==> exists k :: 0 <= k < |es| && es[k].match_ == r.row.match_ && files[k] == f)
  {
    var p := MonoStats.ProcessCounts(ix, matches, files, role).value;
    ProcessedEntries(ix, matches, files, role);
    MonoRowCounts(p.entries, files, p.setsFiles, j);
  }

  // ---------------------------------------------------------------------
  // The bilingual table

  /** The source POS column holds one line's list, or in summarising mode
      the lists of every aligned source line. */
  datatype SrcPos = LinePos(pos: seq<string>) | AllPos(all: seq<seq<seq<string>>>)

  function SrcPosOf(e: StatsEntry): SrcPos {
    match e
    case Single(_, _, posSrc, _, _, _, _, _) => LinePos(posSrc)
    case Aggregated(_, _, posSrcAll, _, _, _, _, _) => AllPos(posSrcAll)
  }

  /** The (source match, target) columns. */
  function PairCol(): StatsEntry -> (string, string) {
    (e: StatsEntry) => (e.match_, e.target)
  }

  function SrcPosCol(): StatsEntry -> (string, SrcPos) {
    (e: StatsEntry) => (e.match_, SrcPosOf(e))
  }

  function TrgPosCol(): StatsEntry -> (string, seq<seq<string>>) {
    (e: StatsEntry) => (e.target, e.posTrg)
  }

  /** `Count_Alignment`, `Count_POS_src` and `Count_POS_trg` of an entry
      among `es`. */
  function BiCounts(es: seq<StatsEntry>): StatsEntry -> Key3 {
    e => Key3(CountOf(es, PairCol(), e), CountOf(es, SrcPosCol(), e), CountOf(es, TrgPosCol(), e))
  }

  /** The columns of the writer's last `drop_duplicates`: the pair and its
      `Count_Alignment`. */
  function PairCountKey(): StatsRow<StatsEntry> -> (string, string, nat) {
    (r: StatsRow<StatsEntry>) => (r.row.match_, r.row.target, r.counts.a)
  }

  /** The table `write_bilingual_stats` writes for parsed statistics
      (before the POS counts are dropped): the merged table, then only the
      first row of each (match, target, `Count_Alignment`). Without matches
      naming the nine columns of the one-column frame raises `ValueError`. */
  function BiTable(ix: ParsedIndex, matches: seq<string>, files: seq<string>, aggregate: bool): (r: Option<seq<StatsRow<StatsEntry>>>)
    requires |matches| <= |files|
    ensures |matches| == 0 ==> r.None?
    ensures r.Some? ==> |r.value| > 0
  {
    if |matches| == 0 then None
    else
      match BiStats.ProcessCounts(ix, matches, files, aggregate, |matches|)
      case None => None
      case Some(p) =>
        var t := Table(p.entries, p.setsFiles, BiCounts(p.entries), PairCol());
        TableRows(p.entries, p.setsFiles, BiCounts(p.entries), PairCol());
        assert HasKey(t, PairCountKey(), PairCountKey()(t[0]));
        Some(DistinctBy(t, PairCountKey()))
  }

  /** Each row of the bilingual table counts the entries with its
      (match, target) pair, at least one; `File_Count` is the number of
      distinct files of that pair, at most `Count_Alignment`. */
  lemma BiRowCounts(es: seq<StatsEntry>, files: seq<string>, setsFiles: seq<seq<string>>, j: nat)
    requires |es| == |files| == |setsFiles|
    requires forall k :: 0 <= k < |es| ==> setsFiles[k] == [files[k]]
    requires j < |Table(es, setsFiles, BiCounts(es), PairCol())|
    ensures var r := Table(es, setsFiles, BiCounts(es), PairCol())[j];
      r.row in es
      && r.counts.a == Occurrences(Column(es, PairCol()), (r.row.match_, r.row.target))
      && r.counts.b == Occurrences(Column(es, SrcPosCol()), SrcPosCol()(r.row))
      && r.counts.c == Occurrences(Column(es, TrgPosCol()), TrgPosCol()(r.row))
      && r.counts.b >= 1 && r.counts.c >= 1
      && 1 <= r.fileCount <= r.counts.a
      && (forall f :: f in r.files <==>
            exists k :: 0 <= k < |es| && es[k].match_ == r.row.match_ && es[k].target == r.row.target && files[k] == f)
  {
    var t := Table(es, setsFiles, BiCounts(es), PairCol());
    TableRows(es, setsFiles, BiCounts(es), PairCol());
    TableFiles(es, files, setsFiles, BiCounts(es), PairCol(), j);
    var i :| 0 <= i < |es| && es[i] == t[j].row;
    CountOfRow(es, SrcPosCol(), i);
    CountOfRow(es, TrgPosCol(), i);
  }

  /** The same for the table of a query, whose rows are rows of the merged
      table. */
  lemma BiTableCounts(ix: ParsedIndex, matches: seq<string>, files: seq<string>, aggregate: bool, j: nat)
    requires |matches| == |files|
    requires BiTable(ix, matches, files, aggregate).Some? && j < |BiTable(ix, matches, files, aggregate).value|
    ensures var es := BiStats.ProcessCounts(ix, matches, files, aggregate, |matches|).value.entries;
      var r := BiTable(ix, matches, files, aggregate).value[j];
      r.row in es
      && r.counts.a == Occurrences(Column(es, PairCol()), (r.row.match_, r.row.target))
      && r.counts.b == Occurrences(Column(es, SrcPosCol()), SrcPosCol()(r.row))
      && r.counts.c == Occurrences(Column(es, TrgPosCol()), TrgPosCol()(r.row))
      && 1 <= r.fileCount <= r.counts.a
      && (forall f :: f in r.files <==>
            exists k :: 0 <= k < |es| && es[k].match_ == r.row.match_ && es[k].target == r.row.target && files[k] == f)
  {
    var p := BiStats.ProcessCounts(ix, matches, files, aggregate, |matches|).value;
    DedupedRowCounts(p.entries, files, p.setsFiles, j);
  }

  /** `BiRowCounts` for a row kept by the final dedupe. */
  lemma DedupedRowCounts(es: seq<StatsEntry>, files: seq<string>, setsFiles: seq<seq<string>>, j: nat)
    requires |es| == |files| == |setsFiles|
    requires forall k :: 0 <= k < |es| ==> setsFiles[k] == [files[k]]
    requires j < |DistinctBy(Table(es, setsFiles, BiCounts(es), PairCol()), PairCountKey())|
    ensures var r := DistinctBy(Table(es, setsFiles, BiCounts(es), PairCol()), PairCountKey())[j];
      r.row in es
      && r.counts.a == Occurrences(Column(es, PairCol()), (r.row.match_, r.row.target))
      && r.counts.b == Occurrences(Column(es, SrcPosCol()), SrcPosCol()(r.row))
      && r.counts.c == Occurrences(Column(es, TrgPosCol()), TrgPosCol()(r.row))
      && 1 <= r.fileCount <= r.counts.a
      && (forall f :: f in r.files <==>
            exists k :: 0 <= k < |es| && es[k].match_ == r.row.match_ && es[k].target == r.row.target && files[k] == f)
  {
    var t := Table(es, setsFiles, BiCounts(es), PairCol());
    var r := DistinctBy(t, PairCountKey())[j];
    assert r in t;
    var m :| 0 <= m < |t| && t[m] == r;
    BiRowCounts(es, files, setsFiles, m);
  }

  /** A table row's counts are not below the next rows' counts. */
  function CountsNotBelow<R>(): (StatsRow<R>, StatsRow<R>) -> bool {
    (x: StatsRow<R>, y: StatsRow<R>) => NotBelow(x.counts, y.counts)
  }

  /** The written bilingual table keeps the descending order of the sort
      on `Count_Alignment`, `Count_POS_src` and `Count_POS_trg`: the
      merges and both `drop_duplicates` keep row order. */
  lemma BiTableSorted(ix: ParsedIndex, matches: seq<string>, files: seq<string>, aggregate: bool)
    requires |matches| <= |files|
    requires BiTable(ix, matches, files, aggregate).Some?
    ensures var t := BiTable(ix, matches, files, aggregate).value;
      forall j, k :: 0 <= j < k < |t| ==> NotBelow(t[j].counts, t[k].counts)
  {
    var p := BiStats.ProcessCounts(ix, matches, files, aggregate, |matches|).value;
    DedupedSorted(p.entries, p.setsFiles);
  }

  /** The last `drop_duplicates` keeps the merged table's order. */
  lemma DedupedSorted(es: seq<StatsEntry>, setsFiles: seq<seq<string>>)
    requires |es| == |setsFiles|
    ensures Ordered(DistinctBy(Table(es, setsFiles, BiCounts(es), PairCol()), PairCountKey()), CountsNotBelow())
  {
    var t := Table(es, setsFiles, BiCounts(es), PairCol());
    TableOrder(es, setsFiles, BiCounts(es), PairCol());
    assert Ordered(t, CountsNotBelow());
    DistinctByOrdered(t, PairCountKey(), CountsNotBelow());
  }

  /** No two rows of `t` share a (match, target) pair. */
  predicate PairsOnce(t: seq<StatsRow<StatsEntry>>) {
    forall j, k :: 0 <= j < k < |t| ==> PairCol()(t[j].row) != PairCol()(t[k].row)
  }

  /** Every (match, target) pair of the entries has a row in `t`. */
  predicate PairsCovered(es: seq<StatsEntry>, t: seq<StatsRow<StatsEntry>>) {
    forall i :: 0 <= i < |es| ==> exists j :: 0 <= j < |t| && PairCol()(t[j].row) == PairCol()(es[i])
  }

  /** The written table holds exactly one row per (match, target) pair of
      the entries. */
  lemma BiTablePairs(ix: ParsedIndex, matches: seq<string>, files: seq<string>, aggregate: bool)
    requires |matches| <= |files|
    requires BiTable(ix, matches, files, aggregate).Some?
    ensures var es := BiStats.ProcessCounts(ix, matches, files, aggregate, |matches|).value.entries;
      var t := BiTable(ix, matches, files, aggregate).value;
      PairsOnce(t) && PairsCovered(es, t)
  {
    var p := BiStats.ProcessCounts(ix, matches, files, aggregate, |matches|).value;
    DedupedPairs(p.entries, p.setsFiles);
  }

  /** `BiTablePairs` on the entries of the table. */
  lemma DedupedPairs(es: seq<StatsEntry>, setsFiles: seq<seq<string>>)
    requires |es| == |setsFiles|
    ensures var t := DistinctBy(Table(es, setsFiles, BiCounts(es), PairCol()), PairCountKey());
      PairsOnce(t) && PairsCovered(es, t)
  {
    DedupedOnce(es, setsFiles);
    DedupedCovered(es, setsFiles);
  }

  /** Rows of the merged table with the same pair have the same
      `Count_Alignment`, so the last `drop_duplicates` keeps one per pair. */
  lemma DedupedOnce(es: seq<StatsEntry>, setsFiles: seq<seq<string>>)
    requires |es| == |setsFiles|
    ensures PairsOnce(DistinctBy(Table(es, setsFiles, BiCounts(es), PairCol()), PairCountKey()))
  {
    var t0 := Table(es, setsFiles, BiCounts(es), PairCol());
    var t := DistinctBy(t0, PairCountKey());
    forall j, k | 0 <= j < k < |t| ensures PairCol()(t[j].row) != PairCol()(t[k].row) {
      assert t[j] in t0 && t[k] in t0;
      assert PairCountKey()(t[j]) != PairCountKey()(t[k]);
    }
  }

  /** Every entry's pair keeps a row after the last `drop_duplicates`. */
  lemma DedupedCovered(es: seq<StatsEntry>, setsFiles: seq<seq<string>>)
    requires |es| == |setsFiles|
    ensures PairsCovered(es, DistinctBy(Table(es, setsFiles, BiCounts(es), PairCol()), PairCountKey()))
  {
    var t := DistinctBy(Table(es, setsFiles, BiCounts(es), PairCol()), PairCountKey());
    forall i | 0 <= i < |es| ensures exists j :: 0 <= j < |t| && PairCol()(t[j].row) == PairCol()(es[i]) {
      var j := DedupedRowOf(es, setsFiles, i);
    }
  }

  /** The row the pair of entry `i` keeps. */
  lemma DedupedRowOf(es: seq<StatsEntry>, setsFiles: seq<seq<string>>, i: nat) returns (j: nat)
    requires |es| == |setsFiles| && i < |es|
    ensures var t := DistinctBy(Table(es, setsFiles, BiCounts(es), PairCol()), PairCountKey());
      j < |t| && PairCol()(t[j].row) == PairCol()(es[i])
  {
    var t0 := Table(es, setsFiles, BiCounts(es), PairCol());
    var t := DistinctBy(t0, PairCountKey());
    TableRows(es, setsFiles, BiCounts(es), PairCol());
    var m :| 0 <= m < |t0| && t0[m].row == es[i];
    assert HasKey(t0, PairCountKey(), PairCountKey()(t0[m]));
    j :| 0 <= j < |t| && PairCountKey()(t[j]) == PairCountKey()(t0[m]);
  }
}

=== FILE: tally.dfy ===
/** Counting (model/processing.py, `Processing.get_counts`): a dict from
    each distinct element to the number of its occurrences, its keys in
    order of first occurrence. */
module Tally {
  import opened Base

  /** Number of positions of `xs` holding `x`. */
  function Occurrences<T(==)>(xs: seq<T>, x: T): nat
    decreases |xs|
  {
    if |xs| == 0 then 0
    else Occurrences(xs[..|xs| - 1], x) + (if xs[|xs| - 1] == x then 1 else 0)
  }

  lemma {:induction false} OccurrencesPositive<T>(xs: seq<T>, x: T)
    ensures Occurrences(xs, x) > 0 <==> x in xs
    decreases |xs|
  {
    if |xs| > 0 {
      OccurrencesPositive(xs[..|xs| - 1], x);
      assert xs == xs[..|xs| - 1] + [xs[|xs| - 1]];
    }
  }

  lemma {:induction false} OccurrencesAppend<T>(xs: seq<T>, ys: seq<T>, x: T)
    ensures Occurrences(xs + ys, x) == Occurrences(xs, x) + Occurrences(ys, x)
    decreases |ys|
  {
    if |ys| == 0 {
      assert xs + ys == xs;
    } else {
      assert (xs + ys)[..|xs + ys| - 1] == xs + ys[..|ys| - 1];
      OccurrencesAppend(xs, ys[..|ys| - 1], x);
    }
  }

  /** An insertion-ordered dict of counts. */
  datatype Counts<T> = Counts(keys: seq<T>, count: map<T, nat>)

  /** The counts of `c`, in key order. */
  function Values<T>(c: Counts<T>): (vs: seq<nat>)
    requires forall k :: k in c.keys ==> k in c.count
    ensures |vs| == |c.keys|
  {
    seq(|c.keys|, i requires 0 <= i < |c.keys| => c.count[c.keys[i]])
  }

  /** One iteration of the loop of `get_counts`: a present key has its
      count raised by one, an absent one is inserted with count one. */
  function Bump<T>(c: Counts<T>, x: T): Counts<T> {
    if x in c.count then Counts(c.keys, c.count[x := c.count[x] + 1])
    else Counts(c.keys + [x], c.count[x := 1])
  }

  /** `get_counts(xs)`: the keys are the distinct elements in order of first
      occurrence, and each count is the number of occurrences. */
  function CountsOf<T(==,!new)>(xs: seq<T>): (c: Counts<T>)
    ensures c.keys == Distinct(xs)
    ensures forall k :: k in c.count <==> k in xs
    ensures forall k :: k in c.keys ==> k in c.count
    ensures forall k :: k in c.count ==> c.count[k] == Occurrences(xs, k)
    decreases |xs|
  {
    if |xs| == 0 then Counts([], map[])
    else
      CountsStep(xs);
      Bump(CountsOf(xs[..|xs| - 1]), xs[|xs| - 1])
  }

  /** Appending `x` to a list adds one occurrence of `x` and none of any
      other value. */
  lemma CountsStep<T>(xs: seq<T>)
    requires |xs| > 0
    ensures forall k :: Occurrences(xs, k) == Occurrences(xs[..|xs| - 1], k) + (if k == xs[|xs| - 1] then 1 else 0)
    ensures forall k :: k in xs <==> k in xs[..|xs| - 1] || k == xs[|xs| - 1]
    ensures xs[|xs| - 1] in xs[..|xs| - 1] <==> Occurrences(xs[..|xs| - 1], xs[|xs| - 1]) > 0
  {
    var init := xs[..|xs| - 1];
    assert xs == init + [xs[|xs| - 1]];
    OccurrencesPositive(init, xs[|xs| - 1]);
  }

  /** Every count is at least one, and the counts add up to the length of
      the counted list: each element is counted exactly once. */
  lemma CountsTotal<T(!new)>(xs: seq<T>)
    ensures forall k :: k in CountsOf(xs).count ==> CountsOf(xs).count[k] >= 1
    ensures forall k :: k in CountsOf(xs).keys ==> k in CountsOf(xs).count
    ensures Sum(Values(CountsOf(xs))) == |xs|
  {
    var c := CountsOf(xs);
    forall k | k in c.count ensures c.count[k] >= 1 {
      OccurrencesPositive(xs, k);
    }
    CountsSum(xs);
  }

  lemma {:induction false} CountsSum<T(!new)>(xs: seq<T>)
    ensures Sum(Values(CountsOf(xs))) == |xs|
    decreases |xs|
  {
    if |xs| > 0 {
      var init := xs[..|xs| - 1];
      var x := xs[|xs| - 1];
      var c0 := CountsOf(init);
      CountsSum(init);
      assert CountsOf(xs) == Bump(c0, x);
      if x in c0.count {
        assert x in c0.keys;
        var p :| 0 <= p < |c0.keys| && c0.keys[p] == x;
        BumpPresent(c0, x, p);
      } else {
        BumpAbsent(c0, x);
      }
    }
  }

  /** Raising the count of a present key raises the sum of the counts by one. */
  lemma BumpPresent<T>(c0: Counts<T>, x: T, p: nat)
    requires forall k :: k in c0.keys ==> k in c0.count
    requires p < |c0.keys| && c0.keys[p] == x && NoDuplicates(c0.keys)
    ensures forall k :: k in Bump(c0, x).keys ==> k in Bump(c0, x).count
    ensures Sum(Values(Bump(c0, x))) == Sum(Values(c0)) + 1
  {
    var c := Bump(c0, x);
    var v0 := Values(c0);
    forall i | 0 <= i < |c0.keys| && i != p ensures Values(c)[i] == v0[i] {
      assert c0.keys[i] != x;
    }
    SumBump(v0, Values(c), p);
  }

  /** Inserting a new key with count one raises the sum by one. */
  lemma BumpAbsent<T>(c0: Counts<T>, x: T)
    requires forall k :: k in c0.keys ==> k in c0.count
    requires x !in c0.count
    ensures forall k :: k in Bump(c0, x).keys ==> k in Bump(c0, x).count
    ensures Sum(Values(Bump(c0, x))) == Sum(Values(c0)) + 1
  {
    var c := Bump(c0, x);
    assert Values(c) == Values(c0) + [1];
    SumAppend(Values(c0), [1]);
  }

  /** Raising one entry by one raises the sum by one. */
  lemma SumBump(vs: seq<nat>, ws: seq<nat>, p: nat)
    requires |vs| == |ws| && p < |vs| && ws[p] == vs[p] + 1
    requires forall i :: 0 <= i < |vs| && i != p ==> ws[i] == vs[i]
    ensures Sum(ws) == Sum(vs) + 1
  {
    assert vs == vs[..p] + [vs[p]] + vs[p + 1..];
    assert ws == ws[..p] + [ws[p]] + vs[p + 1..];
    assert ws[..p] == vs[..p];
    SumAppend(vs[..p] + [vs[p]], vs[p + 1..]);
    SumAppend(vs[..p], [vs[p]]);
    SumAppend(ws[..p] + [ws[p]], vs[p + 1..]);
    SumAppend(ws[..p], [ws[p]]);
  }

  /** The loop of `get_counts`: increment a present key, insert an absent
      one with count one. */
  method GetCounts<T(==,!new)>(xs: seq<T>) returns (c: Counts<T>)
    ensures c.keys == Distinct(xs)
    ensures forall k :: k in c.count <==> k in xs
    ensures forall k :: k in c.count ==> c.count[k] == Occurrences(xs, k)
  {
    c := Counts([], map[]);
    for i := 0 to |xs|
      invariant c == CountsOf(xs[..i])
    {
      assert xs[..i + 1][..i] == xs[..i];
      assert CountsOf(xs[..i + 1]) == Bump(c, xs[i]);
      if xs[i] in c.count {
        c := Counts(c.keys, c.count[xs[i] := c.count[xs[i]] + 1]);
      } else {
        c := Counts(c.keys + [xs[i]], c.count[xs[i] := 1]);
      }
    }
    assert xs[..|xs|] == xs;
  }
}

=== FILE: text.dfy ===
/** String primitives with Python's semantics: prefix tests, whitespace
    splitting (`str.split()`), delimiter splitting (`str.split(sep)`),
    joining, stripping, and Python's negative indices and clamped slices. */
module Text {

  /** `s.startswith(p)` */
  predicate StartsWith(s: string, p: string) {
    |p| <= |s| && s[..|p|] == p
  }

  /** `sub` occurs in `s` at position `i`. */
  predicate OccursAt(s: string, sub: string, i: int) {
    0 <= i && i + |sub| <= |s| && s[i..i + |sub|] == sub
  }

  /** Python's `sub in s` on strings. */
  predicate Contains(s: string, sub: string) {
    exists i | 0 <= i <= |s| :: OccursAt(s, sub, i)
  }

  /** The characters for which Python's `str.isspace()` holds, i.e. the
      separators of `str.split()` with no argument. */
  predicate IsSpace(c: char) {
    c == ' ' || c == '\t' || c == '\n' || c == '\r' || c == '\U{0B}' || c == '\U{0C}'
    || ('\U{1C}' <= c <= '\U{1F}') || c == '\U{85}' || c == '\U{A0}' || c == '\U{1680}'
    || ('\U{2000}' <= c <= '\U{200A}') || c == '\U{2028}' || c == '\U{2029}'
    || c == '\U{202F}' || c == '\U{205F}' || c == '\U{3000}'
  }

  predicate NoSpace(w: string) {
    forall i :: 0 <= i < |w| ==> !IsSpace(w[i])
  }

  /** Number of leading characters of `s` that are not whitespace. */
  function WordLen(s: string): (n: nat)
    ensures n <= |s|
    ensures NoSpace(s[..n])
    ensures n < |s| ==> IsSpace(s[n])
    decreases |s|
  {
    if |s| == 0 || IsSpace(s[0]) then 0 else 1 + WordLen(s[1..])
  }

  /** Python's `s.split()`: the maximal runs of non-whitespace, in order. */
  function Words(s: string): (ws: seq<string>)
    ensures forall i :: 0 <= i < |ws| ==> |ws[i]| > 0 && NoSpace(ws[i])
    decreases |s|
  {
    if |s| == 0 then []
    else if IsSpace(s[0]) then Words(s[1..])
    else
      var n := WordLen(s);
      [s[..n]] + Words(s[n..])
  }

  /** Python's `sep.join(xs)`. */
  function Join(sep: string, xs: seq<string>): string
    decreases |xs|
  {
    if |xs| == 0 then ""
    else if |xs| == 1 then xs[0]
    else xs[0] + sep + Join(sep, xs[1..])
  }

  /** Words separated by single spaces are split back into the same words:
      the round trip `" ".join(ws).split() == ws`. */
  lemma {:induction false} WordsOfJoin(ws: seq<string>)
    requires forall i :: 0 <= i < |ws| ==> |ws[i]| > 0 && NoSpace(ws[i])
    ensures Words(Join(" ", ws)) == ws
    decreases |ws|
  {
    if |ws| == 1 {
      WordsOfWord(ws[0], "");
      assert ws[0] + "" == ws[0];
      assert Words("") == [];
    } else if |ws| > 1 {
      var rest := Join(" ", ws[1..]);
      WordsOfJoin(ws[1..]);
      WordsOfWord(ws[0], " " + rest);
      var s := " " + rest;
      assert Join(" ", ws) == ws[0] + s;
      assert Words(s) == Words(s[1..]);
      assert s[1..] == rest;
      assert [ws[0]] + ws[1..] == ws;
    }
  }

  /** A non-empty word followed by whitespace (or nothing) is split off whole. */
  lemma {:induction false} WordsOfWord(w: string, tail: string)
    requires |w| > 0 && NoSpace(w)
    requires |tail| == 0 || IsSpace(tail[0])
    ensures Words(w + tail) == [w] + Words(tail)
  {
    var s := w + tail;
    WordLenOfWord(w, tail);
    assert s[..|w|] == w;
    assert s[|w|..] == tail;
  }

  lemma {:induction false} WordLenOfWord(w: string, tail: string)
    requires NoSpace(w)
    requires |tail| == 0 || IsSpace(tail[0])
    ensures WordLen(w + tail) == |w|
    decreases |w|
  {
    if |w| > 0 {
      assert (w + tail)[1..] == w[1..] + tail;
      WordLenOfWord(w[1..], tail);
    } else {
      assert w + tail == tail;
    }
  }

  /** Python's `s.split(sep)` for a non-empty `sep`: cut at every
      occurrence of `sep`, scanning left to right without overlap. */
  function SplitOn(s: string, sep: string): (r: seq<string>)
    requires |sep| > 0
    ensures |r| >= 1
    decreases |s|
  {
    if |s| < |sep| then [s]
    else if s[..|sep|] == sep then [""] + SplitOn(s[|sep|..], sep)
    else
      var rest := SplitOn(s[1..], sep);
      [[s[0]] + rest[0]] + rest[1..]
  }

  /** Joining the pieces of a split with the same separator restores the
      original string. */
  lemma {:induction false} JoinSplitOn(s: string, sep: string)
    requires |sep| > 0
    ensures Join(sep, SplitOn(s, sep)) == s
    decreases |s|
  {
    if |s| < |sep| {
    } else if s[..|sep|] == sep {
      var rest := SplitOn(s[|sep|..], sep);
      JoinSplitOn(s[|sep|..], sep);
      assert ([""] + rest)[1..] == rest;
      assert s == sep + s[|sep|..];
    } else {
      var rest := SplitOn(s[1..], sep);
      JoinSplitOn(s[1..], sep);
      JoinConsHead(s[0], rest, sep);
      assert s == [s[0]] + s[1..];
    }
  }

  lemma JoinConsHead(c: char, xs: seq<string>, sep: string)
    requires |xs| >= 1
    ensures Join(sep, [[c] + xs[0]] + xs[1..]) == [c] + Join(sep, xs)
  {
    var ys := [[c] + xs[0]] + xs[1..];
    assert ys[1..] == xs[1..];
  }

  /** Number of leading characters of `s` for which `drop` holds. */
  function LeadingRun(s: string, drop: char -> bool): (n: nat)
    ensures n <= |s|
    ensures forall i :: 0 <= i < n ==> drop(s[i])
    ensures n < |s| ==> !drop(s[n])
    decreases |s|
  {
    if |s| > 0 && drop(s[0]) then 1 + LeadingRun(s[1..], drop) else 0
  }

  /** Number of trailing characters of `s` for which `drop` holds. */
  function TrailingRun(s: string, drop: char -> bool): (n: nat)
    ensures n <= |s|
    ensures forall i :: |s| - n <= i < |s| ==> drop(s[i])
    ensures n < |s| ==> !drop(s[|s| - n - 1])
    decreases |s|
  {
    if |s| > 0 && drop(s[|s| - 1]) then 1 + TrailingRun(s[..|s| - 1], drop) else 0
  }

  /** Python's `s.strip(chars)`: the slice left after dropping the leading
      and trailing characters for which `drop` holds. */
  function Strip(s: string, drop: char -> bool): (r: string)
    ensures |r| <= |s|
    ensures |r| > 0 ==> !drop(r[0]) && !drop(r[|r| - 1])
    ensures |s| > 0 && !drop(s[0]) && !drop(s[|s| - 1]) ==> r == s
  {
    var a := LeadingRun(s, drop);
    if a == |s| then "" else s[a..|s| - TrailingRun(s, drop)]
  }

  /** The result of a strip is the slice of `s` that starts after its
      leading run, and it is empty when every character is dropped. */
  lemma {:induction false} StripSlice(s: string, drop: char -> bool)
    ensures LeadingRun(s, drop) + |Strip(s, drop)| <= |s|
    ensures forall i :: 0 <= i < |Strip(s, drop)| ==> Strip(s, drop)[i] == s[LeadingRun(s, drop) + i]
    ensures (forall i :: 0 <= i < |s| ==> drop(s[i])) ==> Strip(s, drop) == ""
  {
    var a := LeadingRun(s, drop);
    if a == |s| {
      assert Strip(s, drop) == "";
    } else {
      var r := s[a..|s| - TrailingRun(s, drop)];
      assert Strip(s, drop) == r;
      assert forall i :: 0 <= i < |r| ==> r[i] == s[a + i];
      assert !drop(s[a]);
    }
  }

  function IsNewline(c: char): bool { c == '\n' }

  /** Python's `s.strip("\n")`. */
  function StripNewlines(s: string): string {
    Strip(s, IsNewline)
  }

  /** `[s.strip("\n") for s in xs]` */
  function MapStrip(xs: seq<string>): (r: seq<string>)
    ensures |r| == |xs|
    ensures forall i :: 0 <= i < |xs| ==> r[i] == StripNewlines(xs[i])
  {
    seq(|xs|, i requires 0 <= i < |xs| => StripNewlines(xs[i]))
  }

  lemma MapStripAppend(xs: seq<string>, ys: seq<string>)
    ensures MapStrip(xs + ys) == MapStrip(xs) + MapStrip(ys)
  {
  }

  function IsWhitespace(c: char): bool { IsSpace(c) }

  /** Python's `s.strip()`. */
  function StripSpaces(s: string): string {
    Strip(s, IsWhitespace)
  }

  /** Python's `xs[k]` for a possibly negative `k`, which counts from the end. */
  function PyAt<T>(xs: seq<T>, k: int): T
    requires -|xs| <= k < |xs|
  {
    if k >= 0 then xs[k] else xs[|xs| + k]
  }

  /** Python's clamping of a slice bound: negative bounds count from the end,
      and the result lies in [0, n]. */
  function SliceBound(k: int, n: nat): (r: nat)
    ensures r <= n
    ensures 0 <= k <= n ==> r == k
    ensures k > n ==> r == n
    ensures k < 0 && k + n >= 0 ==> r == k + n
    ensures k + n < 0 ==> r == 0
  {
    if k < 0 then (if k + n < 0 then 0 else k + n) else if k > n then n else k
  }

  /** Python's `xs[a:b]`. */
  function PySlice<T>(xs: seq<T>, a: int, b: int): (r: seq<T>)
    ensures |r| <= |xs|
  {
    var lo := SliceBound(a, |xs|);
    var hi := SliceBound(b, |xs|);
    if lo < hi then xs[lo..hi] else []
  }
}

=== FILE: windows.dfy ===
/** The context windows cut out of a role-filtered line list
    (model/bilingual_context.py `__set_pre_context` / `__set_post_context`,
    model/monolingual_context.py `set_pre_context` / `set_post_context`). */
module Windows {
  import opened Text

  /** `lst[i - p:i]` as the source writes it. When the match sits fewer
      than `p` lines from the top, the start `i - p` is negative and Python
      counts it from the END of the list, so the window usually comes out
      empty instead of holding the `i` lines above the match. */
  function PreWindowAsWritten<T>(lst: seq<T>, i: nat, p: int): (r: seq<T>)
    ensures |r| <= |lst| && |r| <= (if p < 0 then 0 else p)
    ensures i <= |lst| ==> |r| <= i && r == lst[i - |r|..i]
    ensures 0 <= p <= i <= |lst| ==> r == lst[i - p..i]
  {
    PySlice(lst, i - p, i)
  }

  /** The pre-context as intended: the (at most) `p` elements right before
      position `i`, cut off at the top of the list. */
  function PreWindow<T>(lst: seq<T>, i: nat, p: int): (r: seq<T>)
    requires i <= |lst|
    ensures p >= 0 ==> |r| == (if p <= i then p else i)
    ensures |r| <= i && r == lst[i - |r|..i]
    ensures p < 0 ==> r == []
  {
    var lo := if i - p < 0 then 0 else i - p;
    if lo < i then lst[lo..i] else []
  }

  /** The two agree exactly when the match is on the first line, when at
      least `p` lines precede it, or when the list is so short that the
      wrapped start falls before the top again. */
  lemma PreWindowAgreement<T>(lst: seq<T>, i: nat, p: int)
    requires i < |lst|
    ensures PreWindowAsWritten(lst, i, p) == PreWindow(lst, i, p)
        <==> i == 0 || i >= p || |lst| + i <= p
  {
    var n := |lst|;
    if 0 < i < p && n + i > p {
      assert SliceBound(i - p, n) == n + i - p > 0;
      assert |PreWindowAsWritten(lst, i, p)| < i == |PreWindow(lst, i, p)|;
    }
  }

  /** A concrete input on which the source's slice loses the context: the
      second of three lines with a window of two. */
  lemma PreWindowCounterexample()
    ensures PreWindowAsWritten(["a", "b", "c"], 1, 2) == []
    ensures PreWindow(["a", "b", "c"], 1, 2) == ["a"]
  {
    assert SliceBound(-1, 3) == 2;
  }

  /** `lst[i + 1:i + 1 + p]`: the (at most) `p` elements after position
      `i`, ending at the end of the list instead of raising. */
  function PostWindow<T>(lst: seq<T>, i: nat, p: int): (r: seq<T>)
    ensures p >= 0 ==> |r| <= p
    ensures forall m :: 0 <= m < |r| ==> i + 1 + m < |lst| && r[m] == lst[i + 1 + m]
    ensures 0 <= p && i < |lst| ==> r == lst[i + 1..if i + 1 + p <= |lst| then i + 1 + p else |lst|]
  {
    PySlice(lst, i + 1, i + 1 + p)
  }
}
